=== FILE: README.md ===
# snbt.js in Dafny

A model of the core of snbt.js, a reader and writer for SNBT, the text form
of Minecraft's Named Binary Tag data. `SNBT.parse` turns a text into a value
tree: objects, arrays, typed arrays of one number kind, strings, booleans,
`null`, and typed numbers (Byte, Short, Int, Long, Float, Double) that hold
an arbitrary-precision decimal and check their kind's range when built.
`SNBT.stringify` writes a value tree back, with an optional indent and an
option to write booleans as the bytes `1b` and `0b`.

The modules follow the program's structure:

- `Texts`: JavaScript strings as sequences of UTF-16 code units, and the
  parser's cursor: `Peek(text, at)` is the character `ch` when the cursor
  `at` has moved past it, with the virtual blank `ch = ' '` at 0 and `''`
  past the end.
- `Decimals`: the decimals of the bignumber.js library as far as the
  program uses them. Numerals are read by the library's numeric pattern and
  normalised, and `toString` renders them in fixed or exponential notation.
- `Structures`: the six number classes with their suffixes, tags and
  bounds, `toJSON`, and the suffix helpers of `index.js`.
- `Values`: the value tree, objects as ordered key/value entries, and the
  `TypedArray` class with its checking `push`.
- `Parser`: `SNBT.parse`, one function per closure of the source
  (`next`, `white`, `word`, `number`, `string`, `key`, `array`, `object`,
  `value`). Each loop is a recursive function, and each failure is a
  `SyntaxError` at the cursor or a `Raised` error from a constructor or
  from `push`.
- `Serializer`: `SNBT.stringify` as a pure function from a value to a
  text or an "Unknown type" failure.
- `Scanning` and `ParseSteps`: what the readers do on text of a known
  shape. These are the steps of the round-trip proof.
- `RoundTrip`: `parse(stringify(v))` gives back the canonical form of `v`
  for every well-formed value and indent of blanks, whatever valid text
  follows. In the canonical form, booleans written under the byte flag are
  Bytes, and `null` and `undefined` object members are gone.
- `Behaviours`: the reader's error paths and quirks on text that
  `stringify` never writes, the strings it reads in either quote, and
  three ways a value fails to survive a write and a second read.

Where the documented behaviour and the code differ, the model follows the
code:

- `\b` in a string gives the letter `b`, not a backspace (index.js:48-58,
  `Behaviours.EscapeReads`).
- A string opened with `'` ends only at `'`; a `"` inside it is an
  ordinary character (index.js:130-157, `Behaviours.SingleQuotedKeepsDouble`).
- The writer escapes a control character as `\u` and two hex digits
  (index.js:291-295). The reader wants four, so such a string does not
  read back (`Behaviours.ControlUnitDoesNotReadBack`).
- Only a `.` sets the float flag; an exponent does not, so `1e3` is an Int
  (index.js:95-116).
- A number that bignumber.js cannot read (`-`, `-.`, `1e`) is NaN. It fails
  the range check of its constructor, so it is a `RangeError`. The
  `isFinite` check at index.js:122 never fires, and no SyntaxError
  "Bad number" arises.
- Typed-array elements keep the kind of their own suffix. A header does
  not force a kind; `push` throws TypeError on a mismatch
  (Structures.js:98-107).
- An empty array (`[]` or `[B;]`) returns with the cursor still on `]`
  (index.js:192). So `[[],1]` reads as `[[]]`, and `{k:[]}` is a
  SyntaxError.
- `[false]` is a SyntaxError: `f` is taken as the Float tag, and `;` must
  follow it (index.js:185-190).
- An object cut off where a key should start gives `undefined`, not an
  error, because `object()` falls off its loop (index.js:235-251).
- `null` is written as nothing, because `typeof null` is `object` and no
  branch matches (index.js:366-375). As an array element it still gets its
  separator, so `[null,true]` is written `[,true]`, which does not read
  back (`Behaviours.NullElementDoesNotReadBack`).
- Whatever follows the first value is never looked at (index.js:271).

## Model

| member | source | states |
|---|---|---|
| Parser.Next | index.js:66-71 | Moves on by one exactly when the current character is the expected one; otherwise "Expected c instead of ch" at the cursor |
| Parser.White | index.js:159-161 | Stops on the first character above U+0020 or at the end, never before the start |
| Parser.BulkNext | index.js:73-79 | Succeeds exactly when the word occurs at the cursor, and then moves past it |
| Parser.ParseWord | index.js:163-176 | Reads `true`, `false` or `null` exactly where the word occurs, moving past it; after `t`, `f` or `n` a mismatching letter is "Expected"; any other first letter is "Unexpected ch" |
| Parser.Digits | index.js:90-93 | Stops on the first non-digit |
| Parser.DigitRun | index.js:90-93 | The digits passed are exactly the digits in the text at the cursor |
| Parser.ScanFraction | index.js:95-101 | A point is taken exactly when the character is `.`, followed by the digits that occur after it |
| Parser.ScanExp | index.js:103-116 | An exponent is taken exactly when the character is `e` or `E`, with an optional sign and the digits that occur after it |
| Parser.ScanTail | index.js:95-116 | The fraction and exponent that occur at the cursor, ending on a non-digit |
| Parser.ParseNumber | index.js:81-124 | The kind comes from the character after the numeral: a suffix letter in either case, else Double after a point and Int otherwise. Succeeds exactly when the numeral is numeric and in the kind's range. The suffix is consumed only when it is a suffix letter. Failure is RangeError of that kind |
| Parser.HexDigit | index.js:138 | A character's value in base 16, below 16 |
| Parser.HexNumber | index.js:137-141 | The number four hex digits denote, the first the most significant, below 16 to the power of their count |
| Parser.UnicodeEscape | index.js:135-142 | Succeeds exactly when the next four characters are hex digits, and then gives the code unit they denote, most significant digit first; otherwise "Bad unicode escape" |
| Parser.IsEscapee | index.js:48-58 | The keys of the escape table; no contract of its own, stated by Behaviours.EscapeReads and Behaviours.UnknownEscape |
| Parser.Escapee | index.js:48-58 | The escape table: `f`, `n`, `r`, `t` give control characters and every other key gives itself, so `\b` is `b` |
| Parser.StringLoop | index.js:132-156 | Success gives a string and ends past the closing quote; the end of input, or a backslash before anything but `u` or a key of the escape table, is "Bad string" at that character; other failures are "Bad unicode escape" |
| Parser.ParseString | index.js:126-157 | Success gives a string and moves past the opening quote; its content is stated by Scanning.ReaderQuoteOver and the string lemmas of Behaviours |
| Parser.KeyRest | index.js:212-219 | The key loop fails only at the end of input, with "bad key" |
| Parser.ParseKey | index.js:208-222 | A key character must be under the cursor, else "bad key" right there; success moves past at least one character |
| Parser.ParseKeyRead | index.js:208-222 | A key is one or more characters of `[a-zA-Z0-9]` that occur at the cursor, ended by a character that is not one |
| Parser.ParseValue | index.js:253-269 | After blanks, a successful read moves on and gives a well-kinded value |
| Parser.Dispatch | index.js:256-268 | The `switch` on the first character gives a well-kinded value; which reader runs for each first character is stated by ParseSteps.DispatchObject, DispatchArray, DispatchString, DispatchNumber and DispatchWord |
| Parser.ParseArray | index.js:178-206 | Success gives a list or a typed array whose elements are all instances of its base kind; what it builds from laid-out elements is stated by ParseSteps.ArrayLaid and ParseSteps.TypedArrayLaid |
| Parser.Elements | index.js:194-205 | The element loop keeps the array well kinded; the end of input is "bad array"; a TypeError from `push` and a missing `,` are stated by Behaviours.ElementOfOtherKind and Behaviours.ElementSeparatorMissing |
| Parser.ParseObject | index.js:224-251 | Success gives an object with unique keys, or `undefined`; what it builds from laid-out members is stated by ParseSteps.ObjectLaid |
| Parser.Members | index.js:235-249 | The member loop keeps keys unique and values well kinded; a missing `,` after a value is stated by Behaviours.MemberSeparatorMissing |
| Parser.Parse | index.js:44-272 | A successful parse gives a well-kinded value tree |
| ParseSteps.DispatchObject | index.js:257-258 | A `{` at the cursor goes to `object()` |
| ParseSteps.DispatchArray | index.js:259-260 | A `[` at the cursor goes to `array()` |
| ParseSteps.DispatchString | index.js:261-263 | Either quote at the cursor goes to `string()` |
| ParseSteps.DispatchNumber | index.js:264-267 | `-` or a digit at the cursor goes to `number()` |
| ParseSteps.DispatchWord | index.js:266-267 | Every other character, and the end of input, goes to `word()` |
| ParseSteps.ArrayLaid | index.js:178-206 | `[`, blanks, then elements separated by `,` and blanks and closed by blanks and `]`, with no suffix letter first, read as the list of those elements, ending after the `]` |
| ParseSteps.TypedArrayLaid | index.js:178-206 | `[`, a kind's tag, `;`, blanks, then such a run of instances of that kind, read as the typed array of those elements |
| ParseSteps.ObjectLaid | index.js:224-251 | `{`, blanks, then `key:value` members with distinct keys separated by `,` and blanks and closed by `}`, read as the object of those members in order |
| Structures.Construct | Structures.js:9-89 | `new Byte(s)` … `new Double(s)` succeeds exactly when the numeral is numeric and lies within both inclusive bounds; the value is the library's normalised decimal; otherwise RangeError of that kind |
| Structures.KindOfTagInverse | index.js:6-21 | The tag switch names a kind exactly for that kind's tag letter |
| Structures.SuffixLetters | index.js:28-42 | The suffix letters are exactly B S I L F D in either case, plus U+0131 and U+017F, which upper-case to I and S |
| Structures.SuffixReadsBack | Structures.js:9-89 | Every kind but Int writes a one-letter suffix that names it; every tag names its kind |
| Structures.DefaultKind | index.js:19-20 | With no suffix letter the kind is Double for a float and Int otherwise |
| Structures.KindForSuffix | index.js:5-22 | A suffix letter names the kind whose tag is its upper case; with none, see Structures.DefaultKind |
| Structures.IsTypedNumberSuffix | index.js:28-42 | No contract of its own; stated by Structures.SuffixLetters |
| Structures.ToJSON | Structures.js:5-7 | No contract of its own; stated by RoundTrip.NumberRoundTrip and Decimals.RenderRoundTrip |
| Values.Keys | index.js:324 | The keys of an object, in entry order |
| Values.Put | index.js:239 | No contract of its own; stated by Values.PutLookup, Values.PutKeys, Values.PutFresh, Values.PutUnique and Values.PutKinded |
| Values.PutLookup | index.js:239 | After `result[k] = v`, `k` holds `v` and every other key keeps its value |
| Values.PutKeys | index.js:239 | An existing key keeps its place; a new key goes last |
| Values.PutFresh | index.js:239 | A new key is appended with its value |
| Values.PutUnique | index.js:239 | Assignment keeps keys unique |
| Values.PutKinded | index.js:239 | Assignment keeps the object well kinded |
| Values.NewTypedArray | Structures.js:91-96 | The constructor keeps the base kind and takes its elements as given, unchecked |
| Values.ConstructorUnchecked | Structures.js:91-107 | Building from `args` equals pushing `args` onto an empty array when the push succeeds, and the push throws exactly when the built array breaks the kind invariant |
| Values.FirstMismatch | Structures.js:99-104 | The first argument that is not an instance of the base kind, and none exactly when all are |
| Values.Push | Structures.js:98-107 | Succeeds exactly when every argument is an instance of the base kind; then appends them in order and returns the new length; otherwise TypeError and nothing changes |
| Values.PushKeepsKind | Structures.js:98-107 | A typed array built by `push` holds instances of its base kind only |
| Values.PushOne | index.js:195 | Pushing onto a plain array always appends; onto a typed array, as `push` does |
| Values.PushOneKinded | index.js:195 | Pushing keeps an array well kinded |
| Decimals.NatDigits | Structures.js:5-7 | The digits `toString` writes for a whole number denote it, with no leading zero |
| Decimals.Normalize | Structures.js:14 | The library's normal form: no trailing zero in the coefficient |
| Decimals.NormalizeUnits | Structures.js:14 | Normalising keeps the exact value |
| Decimals.NumeralDecimal | Structures.js:14 | A numeral gives a decimal exactly when it matches the library's numeric pattern, and the decimal is normalised |
| Decimals.NumeralUnits | Structures.js:14 | The decimal a numeral gives has exactly the numeral's value |
| Decimals.ExpOf | Structures.js:5-7 | The exponent `toString` writes denotes the exponent |
| Decimals.RenderRoundTrip | Structures.js:5-7 | What `toString` writes for a normalised decimal is numeric and reads back as the same decimal |
| Decimals.IntegerRendersPlain | Structures.js:5-7 | A whole number below 10^21 is written with no point and no exponent |
| Decimals.Render | Structures.js:5-7 | No contract of its own; stated by Decimals.RenderRoundTrip and Decimals.IntegerRendersPlain |
| Decimals.ToString | Structures.js:5-7 | No contract of its own; stated by Decimals.RenderRoundTrip |
| Serializer.EscapeChainIsUnitwise | index.js:284-297 | The replace chain of `string()` is the same as escaping unit by unit: `\\`, `\"`, `\n`, `\r`, and `\u` with two hex digits for other controls |
| Serializer.EscapeChainAppend | index.js:284-297 | Escaping a concatenation escapes each part |
| Serializer.Quote | index.js:284-297 | No contract of its own; stated by Serializer.EscapeChainIsUnitwise and Scanning.StringOver |
| Serializer.BoolText | index.js:343-349 | No contract of its own; stated by RoundTrip.ByteFlagIsByte and RoundTrip.WordRoundTrip |
| Serializer.Newline | index.js:351-356 | No contract of its own; stated by Serializer.IndentedMember and Serializer.ArrayLaidOut |
| Serializer.Emit | index.js:358-383 | Writing succeeds exactly when no `undefined`, function, symbol or bigint is reached; `null` and `undefined` object members are skipped, not reached |
| Serializer.EmitArray | index.js:299-317 | An array is written exactly when all its elements are |
| Serializer.EmitEntries | index.js:324-338 | An object is written exactly when every member that is not `null` or `undefined` is |
| Serializer.Stringify | index.js:274-388 | `stringify` succeeds exactly when the value is writable |
| Serializer.ItemsJoined | index.js:306-312 | The element loop writes the elements' texts joined by `,` and a line break |
| Serializer.ArrayLaidOut | index.js:299-317 | An array is `[`, the tag and `;` of a typed array, a line break one level deeper, the elements joined by `,` and a line break, a line break at its own level, `]` |
| Serializer.EntriesJoined | index.js:324-336 | The property loop writes `key:text` for each member that is not `null` or `undefined`, joined by `,` and a line break |
| Serializer.ObjectLaidOut | index.js:319-341 | An object is `{`, a line break one level deeper, its written members joined by `,` and a line break, a line break at its own level, `}` |
| Serializer.NullWritesNothing | index.js:366-375 | `null` writes nothing |
| Serializer.NullFirstInList | index.js:299-317 | `[null,x]` is written `[`, a line break, `,`, a line break, the text of `x`, a line break, `]` |
| Serializer.IndentedMember | index.js:319-356 | With the indent `"  "`, an object with one member is `{`, a line break, two blanks, `key:text`, a line break, `}` |
| Scanning.WhiteOver | index.js:159-161 | `white()` passes exactly a run of blanks |
| Scanning.ScanNumeralOver | index.js:85-116 | The scanner reads back any well-formed numeral that occurs at the cursor and is not followed by a numeral character |
| Scanning.KeyOver | index.js:208-222 | `key()` reads back any key that occurs at the cursor |
| Scanning.StringOver | index.js:126-157 | `string()` reads back the quoted text the writer produces for a string without raw controls other than LF and CR |
| Scanning.ReaderLoop | index.js:132-155 | The string loop passes text escaped for the reader unit by unit and collects it unescaped |
| Scanning.ReaderQuoteOver | index.js:126-157 | For either quote, `string()` reads back any text with a backslash before `\` and that quote and every other unit raw, ending at the unescaped quote |
| RoundTrip.NumberRoundTrip | Structures.js:5-7 | `number()` reads back what `toJSON` writes for a well-formed typed number, suffix included |
| RoundTrip.ByteFlagIsByte | index.js:343-349 | Under the byte flag a boolean is written exactly as the Byte 1 or 0 |
| RoundTrip.WordRoundTrip | index.js:343-349 | `word()` reads back `true` and `false` |
| RoundTrip.StringRoundTrip | index.js:284-297 | A written string reads back as itself |
| RoundTrip.ListRoundTrip | index.js:299-317 | A written array reads back as itself, with any blank indent |
| RoundTrip.TypedRoundTrip | index.js:299-317 | A written typed array reads back as itself, header included |
| RoundTrip.ObjectRoundTrip | index.js:319-341 | A written object reads back with the same keys in the same order; `null` and `undefined` members are dropped |
| RoundTrip.ValueRoundTrip | index.js:358-383 | Any well-formed value, written at any depth, reads back as its canonical form and ends where the written text ends |
| RoundTrip.ParseRoundTrip | index.js:44-388 | `parse(stringify(v) + rest)` is `v` in canonical form, for every well-formed value, indent of blanks and valid following text |
| Behaviours.TypedHeaderNeedsSemicolon | index.js:185-190 | A suffix letter after `[` must be followed by `;`, else "Expected ';'" right there |
| Behaviours.FalseFirstInArray | index.js:185-190 | `[false` followed by anything is "Expected ';' instead of 'a'" |
| Behaviours.EmptyArrayKeepsBracket | index.js:192 | `[`, blanks, `]` gives an empty list with the cursor still on `]` |
| Behaviours.EmptyTypedArrayKeepsBracket | index.js:185-192 | `[T;`, blanks, `]` gives an empty typed array of kind T with the cursor still on `]` |
| Behaviours.NestedEmptyArrayEndsOuter | index.js:192-198 | `[[]` followed by anything reads as `[[]]` |
| Behaviours.MembersAtEnd | index.js:235-251 | The end of input where a key should start gives `undefined` |
| Behaviours.OpenBraceOnly | index.js:224-251 | `{` and blanks read as `undefined` |
| Behaviours.MemberThenEnd | index.js:235-251 | A member, `,`, then only blanks gives `undefined`: the object read so far is dropped |
| Behaviours.UnfinishedObject | index.js:224-251 | `{a:1,` and blanks read as `undefined` |
| Behaviours.EmptyArrayMember | index.js:239-247 | An empty array as a member's value is followed by "Expected ','" at its `]` |
| Behaviours.EmptyArrayInObject | index.js:224-251 | `{k:[]` for any key is "Expected ',' instead of ']'" at the `]` |
| Behaviours.ElementMissing | index.js:194-203 | `]` where an element should start, as after a trailing `,`, is "Unexpected ']'" |
| Behaviours.MemberMissing | index.js:235-236 | `}` where a key should start, as after a trailing `,`, is "bad key" |
| Behaviours.ColonMissing | index.js:236-238 | A key not followed by `:` is "Expected ':'" at the first non-blank after it |
| Behaviours.ElementOfOtherKind | index.js:195 | An element that is not an instance of a typed array's base kind makes the element loop fail with that kind's TypeError, as `push` throws it |
| Behaviours.ElementSeparatorMissing | index.js:195-202 | An element followed, after blanks, by neither `]` nor `,` is "Expected ','" at that character |
| Behaviours.MemberSeparatorMissing | index.js:236-246 | A member's value followed, after blanks, by neither `}` nor `,` is "Expected ','" at that character |
| Behaviours.NothingAtEnd | index.js:163-176 | At the end of input `value()` reads nothing: `word()` fails with "Unexpected" there |
| Behaviours.IntFractionReadsBackAsDouble | index.js:81-124 | An Int with a fraction (`1.5i`) is accepted, but `toJSON` writes it without a suffix, and that text reads back as a Double |
| Behaviours.ControlUnitDoesNotReadBack | index.js:126-157 | A raw control character in quotes reads as itself, but the writer's `\u` with two hex digits is "Bad unicode escape" at the closing quote |
| Behaviours.QuotedReadsBack | index.js:126-157 | `parse` of a string in either quote, escaped for the reader, gives the string, whatever follows |
| Behaviours.SingleQuotedKeepsDouble | index.js:130-157 | A `'`-quoted text without `\` or `'` reads as itself, `"` included |
| Behaviours.EscapeReads | index.js:48-58 | A backslash and a key of the escape table give the table's value: `\b` the letter `b`, `\t` a tab |
| Behaviours.UnicodeEscapeReads | index.js:135-142 | `\u` and four hex digits give the code unit they denote |
| Behaviours.UnterminatedString | index.js:132-157 | Input that ends inside a string is "Bad string" one past the end |
| Behaviours.UnknownEscape | index.js:133-147 | A backslash before anything but `u` or a key of the escape table, or before the end, is "Bad string" at that character |
| Behaviours.NullElementDoesNotReadBack | index.js:299-317 | `[null,x]` is written `[,x]`, and the reader rejects that `,` |
| Behaviours.LeadingComma | index.js:178-205 | `,` right after `[` is "Unexpected ','" |

## Left out

- Values.Put: JavaScript's `for…in` (index.js:324) lists integer-like keys first, in ascending order. Put keeps every key in insertion order. So the model writes `{2:1,1:2}` as given, while the program writes `{1:2,2:1}`. RoundTrip.WellFormed keeps all-digit keys out of the round-trip theorem for this reason.
- Decimals.Render: `BigNumber.clone({})` (Structures.js:3) keeps the library's default exponent range, MIN_EXP −10^7 and MAX_EXP 10^7. A value whose exponent is below MIN_EXP becomes zero, and one above MAX_EXP becomes Infinity, which already fails every range check. Decimals keeps any exponent, so `1e-10000001b` is a Byte of that value here but `0b` in the program.
- Decimals.Canonical: the library keeps the sign of a negative zero internally, and the model has one zero. Nothing observable is lost: `toString` writes both as `0`, so the program also writes `-0d` back as `0d`.
- Values.Value: no plain JavaScript number is modelled. `stringify` of a plain number calls its `toJSON` (index.js:282), and a plain number has no `toJSON`, so the program throws a TypeError. `new TypedArray(base, n)` with a plain number `n` would make `n` empty slots.
- Serializer.Options: indent is a text or absent. A truthy indent that is not a string makes `.repeat` throw (index.js:354), and that cannot be expressed here.
- Parser.Error: a SyntaxError carries the cursor position and a `Reason` constructor, not the message text. Errors from constructors and `push` carry only their class and kind.
- Serializer.Stringify: its own contract states only when writing succeeds. The layout of arrays and objects is stated by Serializer.ArrayLaidOut and Serializer.ObjectLaidOut, and `null` by Serializer.NullWritesNothing. The text of a number, string or boolean is stated only by Emit's body, and what it reads back as by RoundTrip.ParseRoundTrip, which holds for blank indents only.
- Serializer.Emit: as Serializer.Stringify; its own contract states only when writing succeeds.
- Serializer.EmitArray: its own contract states only when writing succeeds; the layout is Serializer.ArrayLaidOut's.
- Serializer.EmitEntries: its own contract states only when writing succeeds; the layout is Serializer.EntriesJoined's.
- Parser.ParseNumber: the `isFinite` check (index.js:122) never fires in the code, so it has no branch here.
- Strings are UTF-16 code units. Nothing checks surrogate pairs, as JavaScript does not.
- The module wrapper, the `option` defaulting through `Object.assign`, and the library's configuration (`BigNumber.clone`) are not part of this model.

=== FILE: behaviours.dfy ===
/**
 * What `SNBT.parse` does on input that `SNBT.stringify` never writes: the
 * error paths of the readers, the places where the cursor is left on a
 * closing bracket, the `undefined` an unfinished object gives, strings in
 * either quote with their escapes, and three ways a value fails to survive
 * a write and a second read.
 */
module Behaviours {
  import opened Results
  import opened Texts
  import opened Decimals
  import opened Structures
  import opened Values
  import opened Parser
  import opened ParseSteps
  import opened Serializer
  import opened Scanning
  import opened RoundTrip

  /**
   * A suffix letter right after `[` opens a typed-array header, which must
   * go on with `;`; anything else there is "Expected ';'".
   */
  lemma TypedHeaderNeedsSemicolon(text: Text, at: nat)
    requires 1 <= at <= |text| + 1 && Peek(text, at) == At(LBRACKET)
    requires IsTypedNumberSuffix(Peek(text, White(text, at + 1)))
    requires Peek(text, White(text, at + 1) + 1) != At(SEMICOLON)
    ensures var a := White(text, at + 1) + 1;
      ParseArray(text, at) == Failed(SyntaxError(Expected(SEMICOLON, Peek(text, a)), a))
  {
  }

  /** So an array that starts with `false` is a SyntaxError: its `f` is read as the Float tag. */
  lemma FalseFirstInArray(rest: Text)
    ensures Parse([LBRACKET] + FALSE + rest) == Err(SyntaxError(Expected(SEMICOLON, At('a' as int)), 3))
  {
    var text := [LBRACKET] + FALSE + rest;
    assert FALSE[0] == 'f' as int && FALSE[1] == 'a' as int;
    assert Peek(text, 1) == At(LBRACKET) && Peek(text, 2) == At('f' as int) && Peek(text, 3) == At('a' as int);
    assert White(text, 2) == 2;
    assert White(text, 0) == 1 by {
      assert White(text, 1) == 1;
    }
    assert IsTypedNumberSuffix(Peek(text, 2)) by {
      assert UpperCase('f' as int) == 'F' as int;
    }
    TypedHeaderNeedsSemicolon(text, 1);
    assert Dispatch(text, 1) == ParseArray(text, 1);
  }

  /**
   * An empty array, `[]` or `[T;]`, returns with the cursor still on its
   * `]`: the caller sees that `]` as its own next character.
   */
  lemma EmptyArrayKeepsBracket(text: Text, at: nat)
    requires 1 <= at <= |text| + 1 && Peek(text, at) == At(LBRACKET)
    requires Peek(text, White(text, at + 1)) == At(RBRACKET)
    ensures var r := ParseArray(text, at);
      r == Parsed(List([]), White(text, at + 1)) && Peek(text, r.at) == At(RBRACKET)
  {
  }

  /** The same for the typed header: `[B;]` leaves the cursor on `]`. */
  lemma EmptyTypedArrayKeepsBracket(text: Text, at: nat, k: Kind)
    requires 1 <= at <= |text| + 1 && Peek(text, at) == At(LBRACKET)
    requires Peek(text, White(text, at + 1)) == At(Tag(k))
    requires Peek(text, White(text, at + 1) + 1) == At(SEMICOLON)
    requires Peek(text, White(text, White(text, at + 1) + 2)) == At(RBRACKET)
    ensures var r := ParseArray(text, at);
      r == Parsed(TypedArray(k, []), White(text, White(text, at + 1) + 2)) && Peek(text, r.at) == At(RBRACKET)
  {
    SuffixReadsBack(k);
  }

  /**
   * Hence a nested empty array ends the outer one too: `[[]` followed by
   * anything at all, `[[],1]` among them, reads as `[[]]`.
   */
  lemma NestedEmptyArrayEndsOuter(rest: Text)
    ensures Parse([LBRACKET, LBRACKET, RBRACKET] + rest) == Ok(List([List([])]))
  {
    var text := [LBRACKET, LBRACKET, RBRACKET] + rest;
    assert Peek(text, 1) == At(LBRACKET) && Peek(text, 2) == At(LBRACKET) && Peek(text, 3) == At(RBRACKET);
    assert White(text, 3) == 3 && White(text, 2) == 2;
    assert White(text, 0) == 1 by {
      assert White(text, 1) == 1;
    }
    EmptyArrayKeepsBracket(text, 2);
    assert ParseValue(text, 2) == Parsed(List([]), 3) by {
      assert Dispatch(text, 2) == ParseArray(text, 2);
    }
    var empty: seq<Value> := [];
    assert empty + [List([])] == [List([])];
    assert Elements(text, 2, List([])) == Parsed(List([List([])]), 4);
    assert ParseArray(text, 1) == Parsed(List([List([])]), 4);
    assert Dispatch(text, 1) == ParseArray(text, 1);
  }

  /** An object whose next key position is the end of input stops the loop: `undefined`. */
  lemma MembersAtEnd(text: Text, at: nat, acc: seq<Entry>)
    requires 1 <= at <= |text| + 1 && WellKinded(Compound(acc))
    requires Peek(text, at).End?
    ensures Members(text, at, acc) == Parsed(Undefined, at)
  {
  }

  /** `{` followed by nothing but blanks reads as `undefined`. */
  lemma OpenBraceOnly(b: Text)
    requires AllBlank(b)
    ensures Parse([LBRACE] + b) == Ok(Undefined)
  {
    var text := [LBRACE] + b;
    assert Peek(text, 1) == At(LBRACE);
    assert Occurs(text, 2, b);
    WhiteOver(text, 2, b);
    assert White(text, 0) == 1 by {
      assert White(text, 1) == 1;
    }
    MembersAtEnd(text, |text| + 1, []);
    assert ParseObject(text, 1) == Parsed(Undefined, |text| + 1);
    assert Dispatch(text, 1) == ParseObject(text, 1);
  }

  /** One round of the member loop: a key, blanks, `:`, then the value read after it. */
  lemma MemberRound(text: Text, at: nat, k: Text, a1: nat, a2: nat, acc: seq<Entry>)
    requires 1 <= at <= |text| + 1 && WellKinded(Compound(acc))
    requires ParseKey(text, at) == Parsed(k, a1)
    requires a1 <= |text| + 1 && Peek(text, White(text, a1)) == At(COLON)
    requires a2 == White(text, a1) + 1
    ensures Members(text, at, acc) == AfterMember(text, a2, k, ParseValue(text, a2), acc)
  {
    assert !Peek(text, at).End?;
    assert Next(text, a2 - 1, COLON) == Parsed((), a2);
  }

  /** The rest of a round whose value is followed by `,` and then by nothing but blanks. */
  lemma CommaThenEnd(text: Text, a2: nat, k: Text, x: Value, a3: nat, a4: nat, acc: seq<Entry>)
    requires 1 <= a2 < a3 <= |text| + 1 && WellKinded(Compound(acc)) && WellKinded(x)
    requires a4 == White(text, a3) && Peek(text, a4) == At(COMMA)
    requires White(text, a4 + 1) == |text| + 1
    ensures AfterMember(text, a2, k, Parsed(x, a3), acc) == Parsed(Undefined, |text| + 1)
  {
    PutKinded(acc, k, x);
    MembersAtEnd(text, |text| + 1, Put(acc, k, x));
    assert Next(text, a4, COMMA) == Parsed((), a4 + 1);
  }

  /** After `,` the member loop stops at the end of input: the object read so far is dropped. */
  lemma MemberThenEnd(text: Text, at: nat, k: Text, a1: nat, a2: nat, x: Value, a3: nat, acc: seq<Entry>)
    requires 1 <= at <= |text| + 1 && WellKinded(Compound(acc))
    requires ParseKey(text, at) == Parsed(k, a1)
    requires a1 <= |text| + 1 && Peek(text, White(text, a1)) == At(COLON)
    requires a2 == White(text, a1) + 1 && ParseValue(text, a2) == Parsed(x, a3)
    requires Peek(text, White(text, a3)) == At(COMMA)
    requires White(text, White(text, a3) + 1) == |text| + 1
    ensures Members(text, at, acc) == Parsed(Undefined, |text| + 1)
  {
    MemberRound(text, at, k, a1, a2, acc);
    ValueThenEnd(text, a2, k, x, a3, acc);
  }

  /** A value read as a member's, then `,` and nothing but blanks: the loop gives `undefined`. */
  lemma ValueThenEnd(text: Text, a2: nat, k: Text, x: Value, a3: nat, acc: seq<Entry>)
    requires 1 <= a2 <= |text| + 1 && WellKinded(Compound(acc))
    requires ParseValue(text, a2) == Parsed(x, a3)
    requires Peek(text, White(text, a3)) == At(COMMA)
    requires White(text, White(text, a3) + 1) == |text| + 1
    ensures AfterMember(text, a2, k, ParseValue(text, a2), acc) == Parsed(Undefined, |text| + 1)
  {
    CommaThenEnd(text, a2, k, x, a3, White(text, a3), acc);
  }

  /** `parse` of a text that starts with `{` and then a key character runs the member loop from there. */
  lemma ParseObjectFirst(text: Text)
    requires 2 <= |text| && Peek(text, 1) == At(LBRACE) && IsKeyChar(text[1])
    ensures Parse(text) == match Members(text, 2, []) case Parsed(v, _) => Ok(v) case Failed(e) => Err(e)
  {
    assert Peek(text, 2) == At(text[1]);
    assert White(text, 2) == 2;
    assert White(text, 0) == 1 by {
      assert White(text, 1) == 1;
    }
    assert Dispatch(text, 1) == ParseObject(text, 1);
  }

  /** So `{a:1,` followed by nothing but blanks reads as `undefined`. */
  lemma UnfinishedObject(b: Text)
    requires AllBlank(b)
    ensures Parse([LBRACE, 'a' as int, COLON, '1' as int, COMMA] + b) == Ok(Undefined)
  {
    var text := [LBRACE, 'a' as int, COLON, '1' as int, COMMA] + b;
    var one := TypedNumber(Int, Decimal(false, 1, 0));
    assert Peek(text, 3) == At(COLON) && Peek(text, 4) == At('1' as int) && Peek(text, 5) == At(COMMA);
    assert Occurs(text, 2, ['a' as int]);
    KeyOver(text, 2, ['a' as int]);
    assert White(text, 3) == 3 && White(text, 5) == 5;
    OneReadsBack(text, 4);
    assert Occurs(text, 6, b);
    WhiteOver(text, 6, b);
    MemberThenEnd(text, 2, ['a' as int], 3, 4, Number(one), 5, []);
    ParseObjectFirst(text);
  }

  /** The value `1` followed by `,` is the Int 1. */
  lemma OneReadsBack(text: Text, at: nat)
    requires 1 <= at < |text| && Peek(text, at) == At('1' as int) && Peek(text, at + 1) == At(COMMA)
    ensures ParseValue(text, at) == Parsed(Number(TypedNumber(Int, Decimal(false, 1, 0))), at + 1)
  {
    var r := OneNumeral();
    OneNumber(text, at, r, Decimal(false, 1, 0));
    DispatchNumber(text, at);
    ValueAt(text, at, Number(TypedNumber(Int, Decimal(false, 1, 0))), at + 1);
  }

  /** `number()` reads a one-digit Int numeral followed by `,` as that Int. */
  lemma OneNumber(text: Text, at: nat, r: Numeral, d: Decimal)
    requires 1 <= at < |text| && Peek(text, at + 1) == At(COMMA)
    requires WellFormedNumeral(r) && IsNumeric(r) && |r.intDigits| > 0 && !r.dot
    requires NumeralDecimal(r) == Some(d) && InRange(d, Int)
    requires |NumeralText(r)| == 1 && Peek(text, at) == At(NumeralText(r)[0])
    ensures ParseNumber(text, at) == Parsed(Number(TypedNumber(Int, d)), at + 1)
  {
    var t := NumeralText(r);
    assert t + Suffix(Int) == [t[0]];
    PeekOccurs(text, at, t[0]);
    NumberFrom(text, at, TypedNumber(Int, d), r);
  }

  /** The numeral `1`: numeric, one digit, and denoting the decimal 1, an Int in range. */
  lemma OneNumeral() returns (r: Numeral)
    ensures WellFormedNumeral(r) && IsNumeric(r) && |r.intDigits| > 0 && !r.dot
    ensures NumeralText(r) == ['1' as int]
    ensures NumeralDecimal(r) == Some(Decimal(false, 1, 0)) && InRange(Decimal(false, 1, 0), Int)
  {
    r := Numeral(false, ['1' as int], false, [], NoExp);
    assert DigitsValue(['1' as int]) == 1 by {
      var none: Text := [];
      assert ['1' as int][..0] == none;
    }
    assert r.intDigits + r.fracDigits == ['1' as int];
    assert NumeralDecimal(r) == Some(Decimal(false, 1, 0));
    assert NumeralText(r) == ['1' as int];
  }

  /**
   * An empty array as the value of a member leaves the cursor on its `]`,
   * so the member loop looks for `,` or `}` there: "Expected ','".
   */
  lemma EmptyArrayMember(text: Text, at: nat, k: Text, a1: nat, a2: nat, p: nat, acc: seq<Entry>)
    requires 1 <= at <= |text| + 1 && WellKinded(Compound(acc))
    requires ParseKey(text, at) == Parsed(k, a1)
    requires a1 <= |text| + 1 && Peek(text, White(text, a1)) == At(COLON)
    requires a2 == White(text, a1) + 1 && Peek(text, White(text, a2)) == At(LBRACKET)
    requires p == White(text, White(text, a2) + 1) && Peek(text, p) == At(RBRACKET)
    ensures Members(text, at, acc) == Failed(SyntaxError(Expected(COMMA, At(RBRACKET)), p))
  {
    MemberRound(text, at, k, a1, a2, acc);
    EmptyArrayKeepsBracket(text, White(text, a2));
    assert ParseValue(text, a2) == Parsed(List([]), p) by {
      assert Dispatch(text, White(text, a2)) == ParseArray(text, White(text, a2));
    }
    assert White(text, p) == p;
  }

  /** So `{k:[]}`, for any key `k`, is a SyntaxError at the `]`. */
  lemma EmptyArrayInObject(k: Text, rest: Text)
    requires |k| >= 1 && forall i | 0 <= i < |k| :: IsKeyChar(k[i])
    ensures Parse([LBRACE] + k + [COLON, LBRACKET, RBRACKET] + rest)
      == Err(SyntaxError(Expected(COMMA, At(RBRACKET)), |k| + 4))
  {
    var text := [LBRACE] + k + [COLON, LBRACKET, RBRACKET] + rest;
    var n := |k|;
    assert Peek(text, 1) == At(LBRACE) && Peek(text, n + 2) == At(COLON);
    assert Peek(text, n + 3) == At(LBRACKET) && Peek(text, n + 4) == At(RBRACKET);
    assert Occurs(text, 2, k);
    KeyOver(text, 2, k);
    assert White(text, n + 2) == n + 2 && White(text, n + 3) == n + 3 && White(text, n + 4) == n + 4;
    EmptyArrayMember(text, 2, k, n + 2, n + 3, n + 4, []);
    assert text[1] == k[0];
    ParseObjectFirst(text);
  }

  /** `]` where an element should start is read by `word()`: "Unexpected ']'", as after a trailing `,`. */
  lemma ElementMissing(text: Text, at: nat, acc: Value)
    requires 1 <= at <= |text| + 1 && (acc.List? || acc.TypedArray?) && WellKinded(acc)
    requires Peek(text, at) == At(RBRACKET)
    ensures Elements(text, at, acc) == Failed(SyntaxError(Unexpected(At(RBRACKET)), at))
  {
    assert White(text, at) == at;
    assert !(Peek(text, at) in {At('t' as int), At('f' as int), At('n' as int)});
    assert Dispatch(text, at) == ParseWord(text, at);
  }

  /** `}` where a key should start is "bad key", as after a trailing `,`. */
  lemma MemberMissing(text: Text, at: nat, acc: seq<Entry>)
    requires 1 <= at <= |text| + 1 && WellKinded(Compound(acc))
    requires Peek(text, at) == At(RBRACE)
    ensures Members(text, at, acc) == Failed(SyntaxError(BadKey, at))
  {
  }

  /** A key that is not followed, after blanks, by `:` is "Expected ':'". */
  lemma ColonMissing(text: Text, at: nat, k: Text, a1: nat, acc: seq<Entry>)
    requires 1 <= at <= |text| + 1 && WellKinded(Compound(acc))
    requires ParseKey(text, at) == Parsed(k, a1)
    requires a1 <= |text| + 1 && Peek(text, White(text, a1)) != At(COLON)
    ensures var a := White(text, a1);
      Members(text, at, acc) == Failed(SyntaxError(Expected(COLON, Peek(text, a)), a))
  {
    assert !Peek(text, at).End?;
  }

  /**
   * An element that is not an instance of a typed array's base kind makes
   * `push` throw, and the element loop passes the TypeError on.
   */
  lemma ElementOfOtherKind(text: Text, at: nat, acc: Value, x: Value, a1: nat)
    requires 1 <= at <= |text| + 1 && acc.TypedArray? && WellKinded(acc)
    requires ParseValue(text, at) == Parsed(x, a1)
    requires !IsInstance(x, acc.base)
    ensures Elements(text, at, acc) == Failed(Raised(TypeError(acc.base)))
  {
    NothingAtEnd(text, at);
  }

  /** An element followed, after blanks, by neither `]` nor `,` is "Expected ','" there. */
  lemma ElementSeparatorMissing(text: Text, at: nat, acc: Value, x: Value, a1: nat)
    requires 1 <= at <= |text| + 1 && (acc.List? || acc.TypedArray?) && WellKinded(acc)
    requires ParseValue(text, at) == Parsed(x, a1)
    requires acc.TypedArray? ==> IsInstance(x, acc.base)
    requires Peek(text, White(text, a1)) != At(RBRACKET) && Peek(text, White(text, a1)) != At(COMMA)
    ensures var a := White(text, a1);
      Elements(text, at, acc) == Failed(SyntaxError(Expected(COMMA, Peek(text, a)), a))
  {
    NothingAtEnd(text, at);
  }

  /** A member's value followed, after blanks, by neither `}` nor `,` is "Expected ','" there. */
  lemma MemberSeparatorMissing(text: Text, at: nat, k: Text, a1: nat, a2: nat, x: Value, a3: nat, acc: seq<Entry>)
    requires 1 <= at <= |text| + 1 && WellKinded(Compound(acc))
    requires ParseKey(text, at) == Parsed(k, a1)
    requires a1 <= |text| + 1 && Peek(text, White(text, a1)) == At(COLON)
    requires a2 == White(text, a1) + 1
    requires ParseValue(text, a2) == Parsed(x, a3)
    requires Peek(text, White(text, a3)) != At(RBRACE) && Peek(text, White(text, a3)) != At(COMMA)
    ensures var a := White(text, a3);
      Members(text, at, acc) == Failed(SyntaxError(Expected(COMMA, Peek(text, a)), a))
  {
    MemberRound(text, at, k, a1, a2, acc);
  }

  /** No value is read at the end of input: `word()` finds nothing there. */
  lemma NothingAtEnd(text: Text, at: nat)
    requires 1 <= at <= |text| + 1
    ensures Peek(text, at).End? ==> ParseValue(text, at) == Failed(SyntaxError(Unexpected(End), at))
  {
    if Peek(text, at).End? {
      assert White(text, at) == at;
      assert Dispatch(text, at) == ParseWord(text, at);
    }
  }

  /** A plain-notation rendering of a decimal with a fraction has a point. */
  lemma FractionRendersPoint(d: Decimal)
    requires Canonical(d) && d.exp < 0 && -7 < LeadExponent(d) < 21
    ensures Render(d).dot && Render(d).exp == NoExp
  {
  }

  /** `parse` of a text that starts with `-` or a digit is `number()` from the first character. */
  lemma ParseNumberFirst(text: Text)
    requires 1 <= |text| && (Peek(text, 1) == At(MINUS) || IsDigitAt(Peek(text, 1)))
    ensures Parse(text) == match ParseNumber(text, 1) case Parsed(v, _) => Ok(v) case Failed(e) => Err(e)
  {
    assert White(text, 0) == 1 by {
      assert White(text, 1) == 1;
    }
    assert Dispatch(text, 1) == ParseNumber(text, 1);
  }

  /** A numeral the reader sees starts with `-` or a digit. */
  lemma NumeralFirst(text: Text, r: Numeral)
    requires WellFormedNumeral(r) && |r.intDigits| > 0 && Occurs(text, 1, NumeralText(r))
    ensures 1 <= |text| && (Peek(text, 1) == At(MINUS) || IsDigitAt(Peek(text, 1)))
  {
    var t := NumeralText(r);
    assert t[0] == MINUS || IsDigit(t[0]) by {
      if !r.neg {
        assert t[0] == r.intDigits[0];
      }
    }
    OccursPeek(text, 1, t, 0);
  }

  /** `number()` on a scanned numeral whose value lies in the range of the kind it gets. */
  lemma NumberRead(text: Text, r: Numeral, d: Decimal, k: Kind, end: nat)
    requires 1 <= |text| && (Peek(text, 1) == At(MINUS) || IsDigitAt(Peek(text, 1)))
    requires WellFormedNumeral(r) && NumeralDecimal(r) == Some(d)
    requires ScanNumeral(text, 1) == Scan(r, end)
    requires k == KindForSuffix(Peek(text, end), r.dot) && InRange(d, k)
    ensures ParseNumber(text, 1).Parsed? && ParseNumber(text, 1).value == Number(TypedNumber(k, d))
  {
  }

  /** A text that starts with the numeral `r` of `d` is read as a number of the kind its next character names. */
  lemma ReadsNumeral(text: Text, r: Numeral, d: Decimal, k: Kind)
    requires WellFormedNumeral(r) && |r.intDigits| > 0 && NumeralDecimal(r) == Some(d)
    requires Occurs(text, 1, NumeralText(r)) && EndsNumeral(Peek(text, 1 + |NumeralText(r)|))
    requires k == KindForSuffix(Peek(text, 1 + |NumeralText(r)|), r.dot) && InRange(d, k)
    ensures Parse(text) == Ok(Number(TypedNumber(k, d)))
  {
    NumeralScanned(text, r);
    NumberParsed(text, r, d, k, 1 + |NumeralText(r)|);
  }

  /** The numeral at the start of the text opens a number and is scanned whole. */
  lemma NumeralScanned(text: Text, r: Numeral)
    requires WellFormedNumeral(r) && |r.intDigits| > 0
    requires Occurs(text, 1, NumeralText(r)) && EndsNumeral(Peek(text, 1 + |NumeralText(r)|))
    ensures 1 <= |text| && (Peek(text, 1) == At(MINUS) || IsDigitAt(Peek(text, 1)))
    ensures ScanNumeral(text, 1) == Scan(r, 1 + |NumeralText(r)|)
  {
    ScanNumeralOver(text, 1, r);
    NumeralFirst(text, r);
  }

  lemma NumberParsed(text: Text, r: Numeral, d: Decimal, k: Kind, end: nat)
    requires 1 <= |text| && (Peek(text, 1) == At(MINUS) || IsDigitAt(Peek(text, 1)))
    requires WellFormedNumeral(r) && NumeralDecimal(r) == Some(d)
    requires ScanNumeral(text, 1) == Scan(r, end)
    requires k == KindForSuffix(Peek(text, end), r.dot) && InRange(d, k)
    ensures Parse(text) == Ok(Number(TypedNumber(k, d)))
  {
    NumberRead(text, r, d, k, end);
    ParseNumberFirst(text);
  }

  /**
   * An Int with a fraction, such as `1.5i`, is accepted: the range check
   * does not ask for an integer. Its `toJSON` has no suffix, so the text
   * written for it is read back as a Double.
   */
  lemma IntFractionReadsBackAsDouble(d: Decimal)
    requires Canonical(d) && d.exp < 0 && -7 < LeadExponent(d) < 21
    requires InRange(d, Int) && InRange(d, Double)
    ensures Parse(ToString(d) + ['i' as int]) == Ok(Number(TypedNumber(Int, d)))
    ensures ToJSON(TypedNumber(Int, d)) == ToString(d)
    ensures Parse(ToJSON(TypedNumber(Int, d))) == Ok(Number(TypedNumber(Double, d)))
  {
    var r := Render(d);
    var t := ToString(d);
    RenderRoundTrip(d);
    RenderStart(d);
    FractionRendersPoint(d);
    assert ToJSON(TypedNumber(Int, d)) == t;
    var text := t + ['i' as int];
    assert Occurs(text, 1, t);
    assert Peek(text, 1 + |t|) == At('i' as int);
    assert KindForSuffix(At('i' as int), true) == Int by {
      assert UpperCase('i' as int) == 'I' as int;
    }
    ReadsNumeral(text, r, d, Int);
    assert Occurs(t, 1, t);
    ReadsNumeral(t, r, d, Double);
  }

  /**
   * A raw control character inside quotes is read as itself, but the
   * writer escapes it as `\u` and two hex digits, which the reader's
   * four-digit `\u` rejects at the closing quote.
   */
  lemma ControlUnitDoesNotReadBack(c: CodeUnit, o: Options, rest: Text)
    requires c < 0x20 && c != LF && c != CR
    ensures Parse([DQUOTE, c, DQUOTE] + rest) == Ok(Str([c]))
    ensures Stringify(Str([c]), o) == Ok([DQUOTE] + ControlEscape(c) + [DQUOTE])
    ensures Parse([DQUOTE] + ControlEscape(c) + [DQUOTE] + rest) == Err(SyntaxError(BadUnicodeEscape, 6))
  {
    var raw := [DQUOTE, c, DQUOTE] + rest;
    assert Peek(raw, 1) == At(DQUOTE) && Peek(raw, 2) == At(c) && Peek(raw, 3) == At(DQUOTE);
    assert White(raw, 0) == 1 by {
      assert White(raw, 1) == 1;
    }
    var none: Text := [];
    assert none + [c] == [c];
    assert StringLoop(raw, 1, DQUOTE, none) == StringLoop(raw, 2, DQUOTE, [c]);
    assert Dispatch(raw, 1) == ParseString(raw, 1);

    EscapeChainIsUnitwise([c]);
    assert EscapeAll([c]) == ControlEscape(c);

    var w := [DQUOTE] + ControlEscape(c) + [DQUOTE] + rest;
    assert Peek(w, 1) == At(DQUOTE) && Peek(w, 2) == At(BACKSLASH) && Peek(w, 3) == At('u' as int);
    assert Peek(w, 6) == At(DQUOTE);
    assert HexDigit(Peek(w, 4)).Some? && HexDigit(Peek(w, 5)).Some?;
    assert UnicodeEscape(w, 3, 0, 0).Failed?;
    assert White(w, 0) == 1 by {
      assert White(w, 1) == 1;
    }
    assert Dispatch(w, 1) == ParseString(w, 1);
  }

  /** Text that opens with a quote is read by `string()` from its first character. */
  lemma ParseQuotedFirst(text: Text)
    requires 1 <= |text| && IsQuote(text[0])
    ensures Parse(text) == match ParseString(text, 1) case Parsed(v, _) => Ok(v) case Failed(e) => Err(e)
  {
    assert Peek(text, 1) == At(text[0]);
    assert White(text, 0) == 1 by {
      assert White(text, 1) == 1;
    }
    assert Dispatch(text, 1) == ParseString(text, 1);
  }

  /**
   * Either quote reads back any text escaped for the reader: only `\` and
   * the opening quote need a backslash, and the string ends only at an
   * unescaped copy of the opening quote.
   */
  lemma QuotedReadsBack(q: CodeUnit, s: Text, rest: Text)
    requires IsQuote(q)
    ensures Parse([q] + ReaderEscape(q, s) + [q] + rest) == Ok(Str(s))
  {
    var w := [q] + ReaderEscape(q, s) + [q];
    OccursPrefix(w, rest);
    ReaderQuoteOver(w + rest, 1, q, s);
    ParseQuotedFirst(w + rest);
  }

  lemma {:induction false} NothingToEscape(q: CodeUnit, s: Text)
    requires forall i | 0 <= i < |s| :: s[i] != BACKSLASH && s[i] != q
    ensures ReaderEscape(q, s) == s
    decreases |s|
  {
    if s != [] {
      NothingToEscape(q, s[1..]);
      assert s == [s[0]] + s[1..];
    }
  }

  /** A single-quoted string ends only at `'`: a `"` inside it is an ordinary character. */
  lemma SingleQuotedKeepsDouble(s: Text, rest: Text)
    requires forall i | 0 <= i < |s| :: s[i] != BACKSLASH && s[i] != SQUOTE
    ensures Parse([SQUOTE] + s + [SQUOTE] + rest) == Ok(Str(s))
  {
    NothingToEscape(SQUOTE, s);
    QuotedReadsBack(SQUOTE, s, rest);
  }

  /**
   * A backslash and a key of the escape table give the table's value:
   * `\f`, `\n`, `\r`, `\t` their control characters, and `\b` the letter `b`.
   */
  lemma EscapeReads(q: CodeUnit, e: CodeUnit, rest: Text)
    requires IsQuote(q) && IsEscapee(e)
    ensures Parse([q, BACKSLASH, e, q] + rest) == Ok(Str([Escapee(e)]))
    ensures e == 'b' as int ==> Parse([q, BACKSLASH, e, q] + rest) == Ok(Str(['b' as int]))
    ensures e == 't' as int ==> Parse([q, BACKSLASH, e, q] + rest) == Ok(Str([TAB]))
  {
    var text := [q, BACKSLASH, e, q] + rest;
    assert Peek(text, 2) == At(BACKSLASH) && Peek(text, 3) == At(e) && Peek(text, 4) == At(q);
    var none: Text := [];
    assert none + [Escapee(e)] == [Escapee(e)];
    assert StringLoop(text, 1, q, none) == StringLoop(text, 3, q, [Escapee(e)]);
    ParseQuotedFirst(text);
  }

  /** The hex value of digits depends only on the characters the cursor meets. */
  lemma {:induction false} HexNumberShift(t1: Text, f1: nat, t2: Text, f2: nat, n: nat)
    requires forall i | f1 <= i < f1 + n :: Peek(t1, i) == Peek(t2, f2 + (i - f1))
    ensures HexNumber(t1, f1, n) == HexNumber(t2, f2, n)
    decreases n
  {
    if n > 0 {
      assert Peek(t1, f1) == Peek(t2, f2 + (f1 - f1));
      HexNumberShift(t1, f1 + 1, t2, f2 + 1, n - 1);
    }
  }

  /** `\u` and four hex digits give the code unit the digits denote, most significant first. */
  lemma UnicodeEscapeReads(q: CodeUnit, d: Text, rest: Text)
    requires IsQuote(q) && |d| == 4
    requires forall j | 0 <= j < 4 :: HexDigit(At(d[j])).Some?
    ensures HexNumber(d, 1, 4) < 0x1_0000
    ensures Parse([q, BACKSLASH, 'u' as int] + d + [q] + rest) == Ok(Str([HexNumber(d, 1, 4)]))
  {
    var text := [q, BACKSLASH, 'u' as int] + d + [q] + rest;
    assert Peek(text, 2) == At(BACKSLASH) && Peek(text, 3) == At('u' as int) && Peek(text, 8) == At(q);
    forall i | 4 <= i < 8
      ensures Peek(text, i) == Peek(d, 1 + (i - 4)) && HexDigit(Peek(text, i)).Some?
    {
      assert text[i - 1] == d[i - 4];
    }
    HexNumberShift(text, 4, d, 1, 4);
    var u := UnicodeEscape(text, 3, 0, 0);
    assert u == Parsed(HexNumber(d, 1, 4), 7);
    var none: Text := [];
    assert none + [u.value] == [u.value];
    assert StringLoop(text, 1, q, none) == StringLoop(text, 7, q, [u.value]);
    ParseQuotedFirst(text);
  }

  /** Input that ends inside a string is "Bad string" one past the end. */
  lemma UnterminatedString(q: CodeUnit, s: Text)
    requires IsQuote(q)
    ensures var text := [q] + ReaderEscape(q, s);
      Parse(text) == Err(SyntaxError(BadString, |text| + 1))
  {
    var text := [q] + ReaderEscape(q, s);
    var none: Text := [];
    OccursPrefix([q], ReaderEscape(q, s));
    OccursSplit(text, 1, [q], ReaderEscape(q, s));
    ReaderLoop(text, 1, q, s, none);
    ParseQuotedFirst(text);
  }

  /** The string loop stops with "Bad string" at a backslash that starts no escape. */
  lemma EscapeBreaks(text: Text, at: nat, q: CodeUnit, s: Text)
    requires IsQuote(q)
    requires Occurs(text, at, [q] + ReaderEscape(q, s) + [BACKSLASH])
    requires !IsEscape(Peek(text, at + |ReaderEscape(q, s)| + 2))
    ensures Peek(text, at) == At(q)
    ensures ParseString(text, at) == Failed(SyntaxError(BadString, at + |ReaderEscape(q, s)| + 2))
  {
    var e := ReaderEscape(q, s);
    OccursSplit(text, at, [q] + e, [BACKSLASH]);
    OccursSplit(text, at, [q], e);
    OccursPeek(text, at, [q], 0);
    OccursPeek(text, at + 1 + |e|, [BACKSLASH], 0);
    var none: Text := [];
    ReaderLoop(text, at, q, s, none);
  }

  /**
   * A backslash followed by anything but `u` or a key of the escape table,
   * or by the end of input, is "Bad string" at that character.
   */
  lemma UnknownEscape(q: CodeUnit, s: Text, tail: Text)
    requires IsQuote(q)
    requires tail == [] || !IsEscape(At(tail[0]))
    ensures var a := |ReaderEscape(q, s)| + 3;
      Parse([q] + ReaderEscape(q, s) + [BACKSLASH] + tail) == Err(SyntaxError(BadString, a))
  {
    var w := [q] + ReaderEscape(q, s) + [BACKSLASH];
    var text := w + tail;
    OccursPrefix(w, tail);
    assert Peek(text, |w| + 1) == if tail == [] then End else At(tail[0]);
    EscapeBreaks(text, 1, q, s);
    ParseQuotedFirst(text);
  }

  /**
   * A list whose first element is `null` is written with nothing before its
   * first `,`, and the reader rejects that `,` as "Unexpected ','".
   */
  lemma NullElementDoesNotReadBack(x: Value, t: Text)
    requires Emit(x, 1, Defaults) == Ok(t)
    ensures Stringify(List([Null, x]), Defaults) == Ok([LBRACKET, COMMA] + t + [RBRACKET])
    ensures Parse([LBRACKET, COMMA] + t + [RBRACKET]) == Err(SyntaxError(Unexpected(At(COMMA)), 2))
  {
    NullListWritten(x, t, Defaults);
    LeadingComma(t + [RBRACKET]);
    assert [LBRACKET, COMMA] + (t + [RBRACKET]) == [LBRACKET, COMMA] + t + [RBRACKET];
  }

  /** With no indent, `[null, x]` is written with nothing before its `,`. */
  lemma NullListWritten(x: Value, t: Text, o: Options)
    requires o.indent == None && Emit(x, 1, o) == Ok(t)
    ensures Stringify(List([Null, x]), o) == Ok([LBRACKET, COMMA] + t + [RBRACKET])
  {
    NullFirstInList(x, t, 0, o);
    UnindentedNullList(t, Newline(o, 1), Newline(o, 0));
  }

  /** The text of `[null, x]` once both line breaks are empty. */
  lemma UnindentedNullList(t: Text, nl1: Text, nl0: Text)
    requires nl1 == [] && nl0 == []
    ensures [LBRACKET] + nl1 + [COMMA] + nl1 + t + nl0 + [RBRACKET] == [LBRACKET, COMMA] + t + [RBRACKET]
  {
  }

  /** `,` right after `[` is read by `word()`: "Unexpected ','". */
  lemma LeadingComma(rest: Text)
    ensures Parse([LBRACKET, COMMA] + rest) == Err(SyntaxError(Unexpected(At(COMMA)), 2))
  {
    var text := [LBRACKET, COMMA] + rest;
    assert Peek(text, 1) == At(LBRACKET) && Peek(text, 2) == At(COMMA);
    assert White(text, 0) == 1 by {
      assert White(text, 1) == 1;
    }
    assert Dispatch(text, 1) == ParseArray(text, 1);
    assert White(text, 2) == 2;
    assert !IsTypedNumberSuffix(At(COMMA)) by {
      assert UpperCase(COMMA) == COMMA;
    }
    assert ParseArray(text, 1) == Elements(text, 2, List([]));
    assert Dispatch(text, 2) == ParseWord(text, 2);
    assert ParseValue(text, 2) == Failed(SyntaxError(Unexpected(At(COMMA)), 2));
    assert Elements(text, 2, List([])) == Failed(SyntaxError(Unexpected(At(COMMA)), 2));
  }
}

=== FILE: decimals.dfy ===
/**
 * The arbitrary-precision decimals the typed numbers wrap. A number is
 * held as the decimal library holds it: a sign, a coefficient with no
 * trailing zeros, and a power of ten. This module fixes which numerals the
 * library accepts, the exact value a numeral denotes, and the text
 * `toString` gives back.
 */
module Decimals {
  import opened Results
  import opened Texts

  function DigitUnit(d: nat): CodeUnit
    requires d < 10
  {
    ZERO + d
  }

  function DigitOf(c: CodeUnit): nat
    requires IsDigit(c)
  {
    c - ZERO
  }

  /** The natural number a run of decimal digits denotes; leading zeros are allowed. */
  function DigitsValue(s: Text): nat
    requires AllDigits(s)
  {
    if s == [] then 0 else DigitsValue(s[..|s| - 1]) * 10 + DigitOf(s[|s| - 1])
  }

  function Zeros(n: nat): (s: Text)
    ensures |s| == n && AllDigits(s)
    ensures forall i | 0 <= i < n :: s[i] == ZERO
  {
    if n == 0 then [] else Zeros(n - 1) + [ZERO]
  }

  /** 10^n as a natural number. */
  function Nat10(n: nat): (r: nat)
    ensures r >= 1
  {
    if n == 0 then 1 else 10 * Nat10(n - 1)
  }

  /** The decimal digits of `n` with no leading zero, as JavaScript writes an integer. */
  function NatDigits(n: nat): (s: Text)
    ensures |s| >= 1 && AllDigits(s)
    ensures DigitsValue(s) == n
    ensures n > 0 ==> s[0] != ZERO
    ensures Nat10(|s| - 1) <= n || n == 0
    ensures n < Nat10(|s|)
  {
    if n < 10 then [DigitUnit(n)]
    else
      var s := NatDigits(n / 10) + [DigitUnit(n % 10)];
      assert s[..|s| - 1] == NatDigits(n / 10);
      s
  }

  lemma {:induction false} Nat10Add(a: nat, b: nat)
    ensures Nat10(a + b) == Nat10(a) * Nat10(b)
  {
    if b > 0 {
      Nat10Add(a, b - 1);
      assert Nat10(a + b) == 10 * Nat10(a + b - 1);
    }
  }

  lemma {:induction false} Nat10Monotone(a: nat, b: nat)
    requires a <= b
    ensures Nat10(a) <= Nat10(b)
    decreases b - a
  {
    if a < b {
      Nat10Monotone(a + 1, b);
    }
  }

  lemma MulMonotone(x: nat, y: nat, z: nat)
    requires x <= y
    ensures x * z <= y * z
  {
  }

  lemma {:induction false} DigitsValueAppend(a: Text, b: Text)
    requires AllDigits(a) && AllDigits(b)
    ensures AllDigits(a + b)
    ensures DigitsValue(a + b) == DigitsValue(a) * Nat10(|b|) + DigitsValue(b)
    decreases |b|
  {
    if b == [] {
      assert a + b == a;
    } else {
      var b' := b[..|b| - 1];
      var last := DigitOf(b[|b| - 1]);
      assert (a + b)[..|a + b| - 1] == a + b';
      DigitsValueAppend(a, b');
      var x, n := DigitsValue(a), Nat10(|b'|);
      assert DigitsValue(a + b) == DigitsValue(a + b') * 10 + last;
      ShiftDigit(x, n, DigitsValue(b'), last);
    }
  }

  /** Appending one digit multiplies by ten and adds the digit. */
  lemma ShiftDigit(x: nat, n: nat, v: nat, last: nat)
    ensures (x * n + v) * 10 + last == x * (n * 10) + (v * 10 + last)
  {
  }

  lemma {:induction false} DigitsValueZeros(n: nat)
    ensures DigitsValue(Zeros(n)) == 0
  {
    if n > 0 {
      assert Zeros(n)[..n - 1] == Zeros(n - 1);
      DigitsValueZeros(n - 1);
    }
  }

  /** A decimal number: sign, coefficient and power of ten. */
  datatype Decimal = Decimal(neg: bool, coef: nat, exp: int)

  const Zero: Decimal := Decimal(false, 0, 0)

  /**
   * The library's normal form: no trailing zero in the coefficient, and a
   * single zero. The sign of zero is dropped: `-0` and `0` are the same
   * decimal here. The library keeps a negative zero apart, but its
   * `toString` writes both as `0` and its comparisons treat them alike.
   */
  predicate Canonical(d: Decimal) {
    if d.coef == 0 then d == Zero else d.coef % 10 != 0
  }

  function SignOf(neg: bool): int {
    if neg then -1 else 1
  }

  /**
   * The value of `d` counted in units of 10^e, for an `e` at or below the
   * exponent of `d`: the exact value is `Units(d, e) * 10^e`.
   */
  function Units(d: Decimal, e: int): int
    requires e <= d.exp
  {
    SignOf(d.neg) * (d.coef * Nat10(d.exp - e))
  }

  function MinInt(a: int, b: int): int {
    if a <= b then a else b
  }

  /** `a <= b` on exact values, the library's `lte` (and `gte` with the arguments swapped). */
  predicate AtMost(a: Decimal, b: Decimal) {
    var e := MinInt(a.exp, b.exp);
    Units(a, e) <= Units(b, e)
  }

  /** Strips trailing zeros from the coefficient into the exponent. */
  function Normalize(neg: bool, coef: nat, exp: int): (d: Decimal)
    ensures Canonical(d)
    decreases coef
  {
    if coef == 0 then Zero
    else if coef % 10 != 0 then Decimal(neg, coef, exp)
    else Normalize(neg, coef / 10, exp + 1)
  }

  lemma UnitsShift(d: Decimal, e: int)
    requires e < d.exp
    ensures Units(d, e) == 10 * Units(d, e + 1)
  {
    var n := Nat10(d.exp - e - 1);
    assert Nat10(d.exp - e) == 10 * n;
    assert d.coef * (10 * n) == 10 * (d.coef * n);
  }

  /** Normalising keeps the value exactly: the library's constructor does not round. */
  lemma {:induction false} NormalizeUnits(neg: bool, coef: nat, exp: int)
    requires coef != 0
    ensures Normalize(neg, coef, exp).exp >= exp
    ensures Units(Normalize(neg, coef, exp), exp) == SignOf(neg) * coef
    decreases coef
  {
    if coef % 10 == 0 {
      var c := coef / 10;
      NormalizeUnits(neg, c, exp + 1);
      UnitsShift(Normalize(neg, c, exp + 1), exp);
      assert coef == 10 * c;
    }
  }

  lemma {:induction false} NormalizeScaled(neg: bool, c: nat, k: nat, e: int)
    requires c % 10 != 0
    ensures Normalize(neg, c * Nat10(k), e) == Decimal(neg, c, e + k)
  {
    if k > 0 {
      var c' := c * Nat10(k - 1);
      assert c * Nat10(k) == c' * 10;
      NormalizeTen(neg, c', e);
      NormalizeScaled(neg, c, k - 1, e + 1);
    }
  }

  /** A trailing zero moves into the exponent. */
  lemma NormalizeTen(neg: bool, m: nat, e: int)
    requires m > 0
    ensures Normalize(neg, m * 10, e) == Normalize(neg, m, e + 1)
  {
    assert (m * 10) % 10 == 0 && (m * 10) / 10 == m;
  }

  lemma NormalizeCanonical(d: Decimal)
    requires Canonical(d)
    ensures Normalize(d.neg, d.coef, d.exp) == d
  {
  }

  datatype ExpSign = NoSign | Minus | Plus

  /** The optional exponent of a numeral: its `e`/`E`, optional sign and digits. */
  datatype ExpPart = NoExp | Exp(marker: CodeUnit, sign: ExpSign, digits: Text)

  /**
   * A numeral as the scanner collects it: `-`?, digits, optionally `.` and
   * digits, optionally an exponent. Every part may be empty.
   */
  datatype Numeral = Numeral(neg: bool, intDigits: Text, dot: bool, fracDigits: Text, exp: ExpPart)

  predicate IsExpMarker(c: CodeUnit) {
    c == 'e' as int || c == 'E' as int
  }

  predicate WellFormedNumeral(n: Numeral) {
    && AllDigits(n.intDigits)
    && AllDigits(n.fracDigits)
    && (!n.dot ==> n.fracDigits == [])
    && (n.exp.Exp? ==> IsExpMarker(n.exp.marker) && AllDigits(n.exp.digits))
  }

  function SignText(s: ExpSign): Text {
    match s
    case NoSign => []
    case Minus => [MINUS]
    case Plus => [PLUS]
  }

  function ExpText(e: ExpPart): Text {
    match e
    case NoExp => []
    case Exp(m, s, ds) => [m] + SignText(s) + ds
  }

  /** The numeral's text: what the scanner accumulates and hands to the constructor. */
  function NumeralText(n: Numeral): Text {
    (if n.neg then [MINUS] else [])
    + n.intDigits
    + (if n.dot then [DOT] + n.fracDigits else [])
    + ExpText(n.exp)
  }

  /**
   * The decimal library's numeric-string pattern
   * `-?(\d+(\.\d*)?|\.\d+)(e[+-]?\d+)?`, case-insensitive: some digit
   * before or after the point, and digits after an exponent marker.
   */
  predicate IsNumeric(n: Numeral) {
    && (|n.intDigits| > 0 || |n.fracDigits| > 0)
    && (n.exp.Exp? ==> |n.exp.digits| > 0)
  }

  function ExpValue(e: ExpPart): int
    requires e.Exp? ==> AllDigits(e.digits)
  {
    match e
    case NoExp => 0
    case Exp(_, s, ds) => if s == Minus then -(DigitsValue(ds) as int) else DigitsValue(ds)
  }

  /**
   * What the decimal library's constructor makes of a numeral: nothing (NaN)
   * when the pattern does not match, otherwise the normalised decimal.
   */
  function NumeralDecimal(n: Numeral): (r: Option<Decimal>)
    requires WellFormedNumeral(n)
    ensures r.Some? <==> IsNumeric(n)
    ensures r.Some? ==> Canonical(r.value)
  {
    if !IsNumeric(n) then None
    else
      DigitsValueAppend(n.intDigits, n.fracDigits);
      Some(Normalize(n.neg, DigitsValue(n.intDigits + n.fracDigits), ExpValue(n.exp) - |n.fracDigits|))
  }

  /** A numeral the library accepts denotes exactly the decimal it builds. */
  lemma NumeralUnits(n: Numeral)
    requires WellFormedNumeral(n) && IsNumeric(n)
    ensures AllDigits(n.intDigits + n.fracDigits)
    ensures var x := ExpValue(n.exp) - |n.fracDigits|;
      var d := NumeralDecimal(n).value;
      DigitsValue(n.intDigits + n.fracDigits) == 0 ==> d == Zero
    ensures var x := ExpValue(n.exp) - |n.fracDigits|;
      var d := NumeralDecimal(n).value;
      DigitsValue(n.intDigits + n.fracDigits) != 0 ==>
        d.exp >= x && Units(d, x) == SignOf(n.neg) * DigitsValue(n.intDigits + n.fracDigits)
  {
    DigitsValueAppend(n.intDigits, n.fracDigits);
    var c := DigitsValue(n.intDigits + n.fracDigits);
    if c != 0 {
      NormalizeUnits(n.neg, c, ExpValue(n.exp) - |n.fracDigits|);
    }
  }

  /**
   * The numeral `toString` writes for a decimal: exponential notation when
   * the position of the leading digit is at most -7 or at least 21,
   * fixed-point otherwise, a `-` only in front of a non-zero value.
   */
  function Render(d: Decimal): Numeral {
    if d.coef == 0 then Numeral(false, [ZERO], false, [], NoExp)
    else
      var ds := NatDigits(d.coef);
      var n := |ds|;
      var e := d.exp + n - 1;
      if e <= -7 || e >= 21 then
        Numeral(d.neg, ds[..1], n > 1, ds[1..], ExpOf(e))
      else if e < 0 then
        Numeral(d.neg, [ZERO], true, Zeros(-e - 1) + ds, NoExp)
      else if e + 1 >= n then
        Numeral(d.neg, ds + Zeros(e + 1 - n), false, [], NoExp)
      else
        Numeral(d.neg, ds[..e + 1], true, ds[e + 1..], NoExp)
  }

  /** The exponent `toString` writes: `e`, always a sign, then the magnitude. */
  function ExpOf(e: int): (x: ExpPart)
    ensures x.Exp? && x.marker == 'e' as int && x.sign != NoSign && AllDigits(x.digits)
    ensures ExpValue(x) == e
  {
    Exp('e' as int, if e < 0 then Minus else Plus, NatDigits(if e < 0 then -e else e))
  }

  /** `toString()` of a decimal. */
  function ToString(d: Decimal): Text {
    NumeralText(Render(d))
  }

  /** Exponential notation `d.ddde±x` reads back. */
  lemma RenderExponentialRoundTrip(d: Decimal)
    requires Canonical(d) && d.coef != 0
    requires LeadExponent(d) <= -7 || LeadExponent(d) >= 21
    ensures WellFormedNumeral(Render(d)) && IsNumeric(Render(d))
    ensures NumeralDecimal(Render(d)) == Some(d)
  {
    var ds := NatDigits(d.coef);
    var e := LeadExponent(d);
    var r := Numeral(d.neg, ds[..1], |ds| > 1, ds[1..], ExpOf(e));
    assert Render(d) == r;
    assert r.intDigits + r.fracDigits == ds;
    NumeralReadsBack(r);
    NormalizeCanonical(d);
  }

  /** A fraction below one, `0.00ddd`, reads back. */
  lemma RenderFractionRoundTrip(d: Decimal)
    requires Canonical(d) && d.coef != 0
    requires -7 < LeadExponent(d) < 0
    ensures WellFormedNumeral(Render(d)) && IsNumeric(Render(d))
    ensures NumeralDecimal(Render(d)) == Some(d)
  {
    var ds := NatDigits(d.coef);
    var k := -LeadExponent(d) - 1;
    var r := Numeral(d.neg, [ZERO], true, Zeros(k) + ds, NoExp);
    assert Render(d) == r;
    LeadingZerosValue(k, ds);
    NumeralReadsBack(r);
    NormalizeCanonical(d);
  }

  /** Zeros in front of the digits, and one before the point, add nothing. */
  lemma LeadingZerosValue(k: nat, ds: Text)
    requires AllDigits(ds)
    ensures AllDigits([ZERO] + (Zeros(k) + ds))
    ensures DigitsValue([ZERO] + (Zeros(k) + ds)) == DigitsValue(ds)
  {
    ZerosCons(k);
    assert [ZERO] + (Zeros(k) + ds) == Zeros(k + 1) + ds;
    DigitsValueAppend(Zeros(k + 1), ds);
    DigitsValueZeros(k + 1);
  }

  lemma ZerosCons(n: nat)
    ensures [ZERO] + Zeros(n) == Zeros(n + 1)
  {
    assert forall i | 0 <= i < n + 1 :: ([ZERO] + Zeros(n))[i] == ZERO;
  }

  /** What the library builds from an accepted numeral. */
  lemma NumeralReadsBack(n: Numeral)
    requires WellFormedNumeral(n) && IsNumeric(n)
    ensures NumeralDecimal(n) == Some(Normalize(n.neg, DigitsValue(n.intDigits + n.fracDigits), ExpValue(n.exp) - |n.fracDigits|))
  {
  }

  /** A whole number, digits followed by zeros, reads back. */
  lemma RenderWholeRoundTrip(d: Decimal)
    requires Canonical(d) && d.coef != 0
    requires 0 <= LeadExponent(d) < 21 && LeadExponent(d) + 1 >= |NatDigits(d.coef)|
    ensures WellFormedNumeral(Render(d)) && IsNumeric(Render(d))
    ensures NumeralDecimal(Render(d)) == Some(d)
  {
    var ds := NatDigits(d.coef);
    var r := Numeral(d.neg, ds + Zeros(d.exp), false, [], NoExp);
    assert Render(d) == r;
    assert r.intDigits + r.fracDigits == ds + Zeros(d.exp);
    DigitsValueAppend(ds, Zeros(d.exp));
    DigitsValueZeros(d.exp);
    NumeralReadsBack(r);
    NormalizeScaled(d.neg, d.coef, d.exp, 0);
  }

  /** A number with digits on both sides of the point reads back. */
  lemma RenderPointRoundTrip(d: Decimal)
    requires Canonical(d) && d.coef != 0
    requires 0 <= LeadExponent(d) < 21 && LeadExponent(d) + 1 < |NatDigits(d.coef)|
    ensures WellFormedNumeral(Render(d)) && IsNumeric(Render(d))
    ensures NumeralDecimal(Render(d)) == Some(d)
  {
    var ds := NatDigits(d.coef);
    var k := |ds| + d.exp;
    RenderPoint(d, ds, k);
    var r := Numeral(d.neg, ds[..k], true, ds[k..], NoExp);
    assert r.intDigits + r.fracDigits == ds;
    NumeralOfDigits(r, d);
  }

  /** The numeral `toString` writes with the point inside the digits. */
  lemma RenderPoint(d: Decimal, ds: Text, k: int)
    requires d.coef != 0 && ds == NatDigits(d.coef) && k == |ds| + d.exp
    requires 0 <= LeadExponent(d) < 21 && LeadExponent(d) + 1 < |ds|
    ensures 0 < k < |ds| && Render(d) == Numeral(d.neg, ds[..k], true, ds[k..], NoExp)
  {
    var e := d.exp + |ds| - 1;
    assert e == LeadExponent(d) && k == e + 1;
  }

  /** A numeral whose digits spell the coefficient, scaled by the exponent, reads back. */
  lemma NumeralOfDigits(r: Numeral, d: Decimal)
    requires Canonical(d) && WellFormedNumeral(r) && IsNumeric(r) && r.neg == d.neg
    requires r.intDigits + r.fracDigits == NatDigits(d.coef)
    requires ExpValue(r.exp) - |r.fracDigits| == d.exp
    ensures NumeralDecimal(r) == Some(d)
  {
    NumeralReadsBack(r);
    NormalizeCanonical(d);
  }

  /** Reading back what `toString` wrote gives the same decimal. */
  lemma RenderRoundTrip(d: Decimal)
    requires Canonical(d)
    ensures WellFormedNumeral(Render(d)) && IsNumeric(Render(d))
    ensures NumeralDecimal(Render(d)) == Some(d)
  {
    if d.coef == 0 {
      var r := Render(d);
      assert [ZERO][..0] == [];
      assert DigitsValue(r.intDigits + r.fracDigits) == 0;
    } else {
      var e := LeadExponent(d);
      if e <= -7 || e >= 21 {
        RenderExponentialRoundTrip(d);
      } else if e < 0 {
        RenderFractionRoundTrip(d);
      } else if e + 1 >= |NatDigits(d.coef)| {
        RenderWholeRoundTrip(d);
      } else {
        RenderPointRoundTrip(d);
      }
    }
  }

  /** The position of the leading digit, the exponent the library keeps. */
  function LeadExponent(d: Decimal): int {
    |NatDigits(d.coef)| - 1 + d.exp
  }

  lemma Nat10Large(a: nat)
    ensures a >= 10 ==> Nat10(a) >= 10000000000
  {
    if a >= 10 {
      Nat10Monotone(10, a);
      assert Nat10(10) == 10000000000;
    }
  }

  /**
   * A non-zero decimal without fraction that lies in the Int range has its
   * leading digit at position 9 or below.
   */
  lemma IntegerLeadExponent(d: Decimal)
    requires d.coef != 0 && d.exp >= 0
    requires d.coef * Nat10(d.exp) <= 2147483648
    ensures LeadExponent(d) <= 9
  {
    var n := |NatDigits(d.coef)|;
    Nat10Add(n - 1, d.exp);
    MulMonotone(Nat10(n - 1), d.coef, Nat10(d.exp));
    Nat10Large(LeadExponent(d));
  }

  /** A decimal whose leading digit sits below position 21 and that has no fraction is written plainly. */
  lemma IntegerRendersPlain(d: Decimal)
    requires Canonical(d) && d.exp >= 0 && LeadExponent(d) < 21
    ensures !Render(d).dot && Render(d).exp == NoExp
  {
  }
}

=== FILE: parser.dfy ===
/**
 * `SNBT.parse` (index.js): a recursive-descent reader with one character of
 * lookahead. The reader's state is its cursor `at`; its current character
 * `ch` is always `Peek(text, at)`. Every reader below takes the cursor with
 * `ch` on the first character it looks at and returns the value it read
 * together with the cursor it leaves, or the error it raises.
 */
module Parser {
  import opened Results
  import opened Texts
  import opened Decimals
  import opened Structures
  import opened Values

  /** Why a SyntaxError was raised. */
  datatype Reason =
    | Expected(want: CodeUnit, found: Cur)
    | BadUnicodeEscape
    | BadString
    | Unexpected(found: Cur)
    | BadArray
    | BadKey

  /** A SyntaxError reports the cursor; the structures raise their own errors. */
  datatype Error =
    | SyntaxError(reason: Reason, at: nat)
    | Raised(thrown: Thrown)

  /** What one reader returns: its value and the cursor after it, or an error. */
  datatype Step<T> = Parsed(value: T, at: nat) | Failed(error: Error)

  /** `next(c)`: fails unless `ch` is `c`, then moves on by one. */
  function Next(text: Text, at: nat, c: CodeUnit): (r: Step<()>)
    ensures r.Parsed? <==> Peek(text, at) == At(c)
    ensures r.Parsed? ==> r.at == at + 1 && r.at <= |text| + 1
    ensures r.Failed? ==> r.error == SyntaxError(Expected(c, Peek(text, at)), at)
  {
    if Peek(text, at) == At(c) then Parsed((), at + 1)
    else Failed(SyntaxError(Expected(c, Peek(text, at)), at))
  }

  /** `white()`: skips every code unit up to U+0020 and stops on the first other one or at the end. */
  function White(text: Text, at: nat): (r: nat)
    requires at <= |text| + 1
    ensures at <= r <= |text| + 1 && 1 <= r
    ensures !IsBlank(Peek(text, r))
    decreases |text| + 1 - at
  {
    if IsBlank(Peek(text, at)) then White(text, at + 1) else at
  }

  /** `bulkNext(w)`: matches the characters of `w` one by one. */
  function BulkNext(text: Text, at: nat, w: Text): (r: Step<()>)
    requires 1 <= at <= |text| + 1
    ensures r.Parsed? <==> Occurs(text, at, w)
    ensures r.Parsed? ==> r.at == at + |w|
    ensures r.Failed? ==> r.error.SyntaxError? && r.error.reason.Expected?
    decreases |w|
  {
    if w == [] then Parsed((), at)
    else
      match Next(text, at, w[0])
      case Failed(e) => Failed(e)
      case Parsed(_, a) =>
        var r := BulkNext(text, a, w[1..]);
        OccursSplit(text, at, [w[0]], w[1..]);
        assert [w[0]] + w[1..] == w;
        r
  }

  const TRUE: Text := Lit("true")
  const FALSE: Text := Lit("false")
  const NULL: Text := Lit("null")

  /** `word()`: `true`, `false` or `null`, chosen by the first letter and checked letter by letter. */
  function ParseWord(text: Text, at: nat): (r: Step<Value>)
    requires 1 <= at <= |text| + 1
    ensures r.Parsed? ==> r.value in {Bool(true), Bool(false), Null}
    ensures r.Parsed? ==> Occurs(text, at, if r.value == Bool(true) then TRUE else if r.value == Null then NULL else FALSE)
    ensures r.Parsed? ==> r.at == at + if r.value == Bool(false) then 5 else 4
    ensures Occurs(text, at, TRUE) ==> r == Parsed(Bool(true), at + 4)
    ensures Occurs(text, at, FALSE) ==> r == Parsed(Bool(false), at + 5)
    ensures Occurs(text, at, NULL) ==> r == Parsed(Null, at + 4)
    ensures Peek(text, at) in {At('t' as int), At('f' as int), At('n' as int)} && r.Failed? ==>
      r.error.SyntaxError? && r.error.reason.Expected?
    ensures !(Peek(text, at) in {At('t' as int), At('f' as int), At('n' as int)}) ==>
      r == Failed(SyntaxError(Unexpected(Peek(text, at)), at))
  {
    assert TRUE[0] == 't' as int && FALSE[0] == 'f' as int && NULL[0] == 'n' as int;
    var c := Peek(text, at);
    if c == At('t' as int) then
      match BulkNext(text, at, TRUE)
      case Failed(e) => Failed(e)
      case Parsed(_, a) => Parsed(Bool(true), a)
    else if c == At('f' as int) then
      match BulkNext(text, at, FALSE)
      case Failed(e) => Failed(e)
      case Parsed(_, a) => Parsed(Bool(false), a)
    else if c == At('n' as int) then
      match BulkNext(text, at, NULL)
      case Failed(e) => Failed(e)
      case Parsed(_, a) => Parsed(Null, a)
    else Failed(SyntaxError(Unexpected(c), at))
  }

  /** The `while (ch >= '0' && ch <= '9')` loops: the cursor after a run of digits. */
  function Digits(text: Text, at: nat): (r: nat)
    requires 1 <= at <= |text| + 1
    ensures at <= r <= |text| + 1
    ensures !IsDigitAt(Peek(text, r))
    decreases |text| + 1 - at
  {
    if IsDigitAt(Peek(text, at)) then Digits(text, at + 1) else at
  }

  /** Every character the digit loop passes over is a digit. */
  lemma {:induction false} DigitsPassed(text: Text, at: nat)
    requires 1 <= at <= |text| + 1
    ensures forall i | at <= i < Digits(text, at) :: IsDigitAt(Peek(text, i))
    decreases |text| + 1 - at
  {
    if IsDigitAt(Peek(text, at)) {
      DigitsPassed(text, at + 1);
    }
  }

  lemma DigitSpan(text: Text, a: nat, b: nat)
    requires 1 <= a <= b <= |text| + 1
    requires forall i | a <= i < b :: IsDigitAt(Peek(text, i))
    ensures AllDigits(Span(text, a, b))
  {
    var s := Span(text, a, b);
    forall i | 0 <= i < |s|
      ensures IsDigit(s[i])
    {
      assert Peek(text, a + i) == At(s[i]);
    }
  }

  /** The run of digits the cursor passes from `at` on. */
  function DigitRun(text: Text, at: nat): (s: Text)
    requires 1 <= at <= |text| + 1
    ensures AllDigits(s) && Occurs(text, at, s) && at + |s| == Digits(text, at)
  {
    var b := Digits(text, at);
    DigitsPassed(text, at);
    DigitSpan(text, at, b);
    Span(text, at, b)
  }

  /** The exponent part of a numeral and the cursor after it. */
  datatype ExpScan = ExpScan(exp: ExpPart, at: nat)

  /** The `e`/`E`, optional sign and digits that `number()` collects, if `ch` is a marker. */
  function ScanExp(text: Text, at: nat): (r: ExpScan)
    requires 1 <= at <= |text| + 1 && !IsDigitAt(Peek(text, at))
    ensures at <= r.at <= |text| + 1
    ensures r.exp.Exp? ==> IsExpMarker(r.exp.marker) && AllDigits(r.exp.digits)
    ensures r.at == at + |ExpText(r.exp)| && Occurs(text, at, ExpText(r.exp))
    ensures !IsDigitAt(Peek(text, r.at))
    ensures r.exp.NoExp? <==> !(Peek(text, at).At? && IsExpMarker(Peek(text, at).c))
  {
    var c := Peek(text, at);
    if c.At? && IsExpMarker(c.c) then
      var s := Peek(text, at + 1);
      var sign := if s == At(MINUS) then Minus else if s == At(PLUS) then Plus else NoSign;
      var b := if sign == NoSign then at + 1 else at + 2;
      var ds := DigitRun(text, b);
      OccursSplit(text, at, [c.c], SignText(sign));
      OccursSplit(text, at, [c.c] + SignText(sign), ds);
      ExpScan(Exp(c.c, sign, ds), b + |ds|)
    else ExpScan(NoExp, at)
  }

  /** The optional `.` and fraction digits of a numeral and the cursor after them. */
  datatype FracScan = FracScan(dot: bool, digits: Text, at: nat)

  function PointText(f: FracScan): Text {
    if f.dot then [DOT] + f.digits else []
  }

  /** The `if (ch === '.')` part of `number()`; the `.` alone sets the float flag. */
  function ScanFraction(text: Text, at: nat): (r: FracScan)
    requires 1 <= at <= |text| + 1 && !IsDigitAt(Peek(text, at))
    ensures AllDigits(r.digits) && (!r.dot ==> r.digits == [])
    ensures r.dot <==> Peek(text, at) == At(DOT)
    ensures r.at == at + |PointText(r)| && Occurs(text, at, PointText(r))
    ensures r.at <= |text| + 1 && !IsDigitAt(Peek(text, r.at))
  {
    if Peek(text, at) == At(DOT) then
      var ds := DigitRun(text, at + 1);
      OccursSplit(text, at, [DOT], ds);
      FracScan(true, ds, at + 1 + |ds|)
    else FracScan(false, [], at)
  }

  /** What follows the integer digits of a numeral: the fraction and the exponent. */
  datatype TailScan = TailScan(dot: bool, digits: Text, exp: ExpPart, at: nat)

  function TailText(t: TailScan): Text {
    (if t.dot then [DOT] + t.digits else []) + ExpText(t.exp)
  }

  /** The fraction part and then the exponent part of `number()`. */
  function ScanTail(text: Text, at: nat): (r: TailScan)
    requires 1 <= at <= |text| + 1 && !IsDigitAt(Peek(text, at))
    ensures AllDigits(r.digits) && (!r.dot ==> r.digits == [])
    ensures r.exp.Exp? ==> IsExpMarker(r.exp.marker) && AllDigits(r.exp.digits)
    ensures r.at == at + |TailText(r)| <= |text| + 1 && Occurs(text, at, TailText(r))
    ensures !IsDigitAt(Peek(text, r.at))
  {
    var f := ScanFraction(text, at);
    var e := ScanExp(text, f.at);
    var t := TailScan(f.dot, f.digits, e.exp, e.at);
    OccursSplit(text, at, PointText(f), ExpText(e.exp));
    t
  }

  /** A scanned numeral and the cursor after it. */
  datatype Scan = Scan(numeral: Numeral, at: nat)

  /**
   * The scanning part of `number()`: an optional `-`, digits, an optional
   * `.` with digits, an optional exponent. Nothing is checked here; the
   * decimal library judges the collected text.
   */
  function ScanNumeral(text: Text, at: nat): Scan
    requires 1 <= at <= |text| + 1
  {
    var neg := Peek(text, at) == At(MINUS);
    ScanUnsigned(text, neg, at + if neg then 1 else 0)
  }

  /** What follows the optional `-`: the integer digits, then the tail. */
  function ScanUnsigned(text: Text, neg: bool, a1: nat): Scan
    requires 1 <= a1 <= |text| + 1
  {
    var ints := DigitRun(text, a1);
    var t := ScanTail(text, a1 + |ints|);
    Scan(Numeral(neg, ints, t.dot, t.digits, t.exp), t.at)
  }

  /** The scanned numeral is well formed and is exactly the text the cursor passed over. */
  lemma ScanNumeralSpan(text: Text, at: nat)
    requires 1 <= at <= |text| + 1
    ensures var r := ScanNumeral(text, at);
      && WellFormedNumeral(r.numeral)
      && r.at == at + |NumeralText(r.numeral)| <= |text| + 1
      && Occurs(text, at, NumeralText(r.numeral))
      && !IsDigitAt(Peek(text, r.at))
      && (r.numeral.neg <==> Peek(text, at) == At(MINUS))
  {
    var neg := Peek(text, at) == At(MINUS);
    var a1 := at + if neg then 1 else 0;
    var ints := DigitRun(text, a1);
    var t := ScanTail(text, a1 + |ints|);
    var n := Numeral(neg, ints, t.dot, t.digits, t.exp);
    ScanNumeralIs(text, at, neg, a1, ints, t);
    NumeralOfParts(text, at, a1, ints, t, n);
  }

  /** `ScanNumeral` spelled out: the sign, the digit run, and the tail scan. */
  lemma ScanNumeralIs(text: Text, at: nat, neg: bool, a1: nat, ints: Text, t: TailScan)
    requires 1 <= at <= |text| + 1
    requires neg == (Peek(text, at) == At(MINUS))
    requires a1 == at + if neg then 1 else 0
    requires a1 <= |text| + 1 && ints == DigitRun(text, a1)
    requires t == ScanTail(text, a1 + |ints|)
    ensures ScanNumeral(text, at) == Scan(Numeral(neg, ints, t.dot, t.digits, t.exp), t.at)
  {
    assert ScanNumeral(text, at) == ScanUnsigned(text, neg, a1);
  }

  /** A numeral's text occurs where its sign, digits and tail occur one after another. */
  lemma NumeralOfParts(text: Text, at: nat, a1: nat, ints: Text, t: TailScan, n: Numeral)
    requires 1 <= at && (n.neg ==> Peek(text, at) == At(MINUS))
    requires n == Numeral(n.neg, ints, t.dot, t.digits, t.exp)
    requires a1 == at + if n.neg then 1 else 0
    requires Occurs(text, a1, ints) && Occurs(text, a1 + |ints|, TailText(t))
    ensures |NumeralText(n)| == (if n.neg then 1 else 0) + |ints| + |TailText(t)|
    ensures Occurs(text, at, NumeralText(n))
  {
    var sign: Text := if n.neg then [MINUS] else [];
    if n.neg {
      PeekOccurs(text, at, MINUS);
    }
    assert NumeralText(n) == sign + ints + TailText(t);
    OccursSplit(text, at, sign, ints);
    OccursSplit(text, at, sign + ints, TailText(t));
  }

  /**
   * `number()`: the kind comes from the character after the numeral (a
   * suffix letter in either case, otherwise Double when a `.` was seen and
   * Int when not), the constructor checks the range, and the suffix is
   * consumed only when it is one of the six letters.
   */
  function ParseNumber(text: Text, at: nat): (r: Step<Value>)
    requires 1 <= at <= |text| + 1
    requires Peek(text, at) == At(MINUS) || IsDigitAt(Peek(text, at))
    ensures var s := ScanNumeral(text, at);
      var c := Peek(text, s.at);
      var k := KindForSuffix(c, s.numeral.dot);
      && (r.Parsed? <==> IsNumeric(s.numeral) && InRange(NumeralDecimal(s.numeral).value, k))
      && (r.Parsed? ==> r.value == Number(TypedNumber(k, NumeralDecimal(s.numeral).value)))
      && (r.Parsed? ==> r.at == if IsTypedNumberSuffix(c) then s.at + 1 else s.at)
      && (r.Failed? ==> r.error == Raised(RangeError(k)))
    ensures r.Parsed? ==> at < r.at <= |text| + 1
  {
    ScanNumeralSpan(text, at);
    var s := ScanNumeral(text, at);
    var c := Peek(text, s.at);
    match Construct(KindForSuffix(c, s.numeral.dot), s.numeral)
    case Err(e) => Failed(Raised(e))
    case Ok(n) =>
      assert IsNumeric(s.numeral);
      Parsed(Number(n), if IsTypedNumberSuffix(c) then s.at + 1 else s.at)
  }

  /** `parseInt(ch, 16)` of a single character: its digit value, or NaN. */
  function HexDigit(c: Cur): (r: Option<nat>)
    ensures r.Some? ==> r.value < 16
  {
    if c.End? then None
    else if '0' as int <= c.c <= '9' as int then Some(c.c - '0' as int)
    else if 'a' as int <= c.c <= 'f' as int then Some(c.c - 'a' as int + 10)
    else if 'A' as int <= c.c <= 'F' as int then Some(c.c - 'A' as int + 10)
    else None
  }

  function Pow16(n: nat): nat {
    if n == 0 then 1 else 16 * Pow16(n - 1)
  }

  /**
   * The number the `n` hex digits the cursor meets from `from` on denote,
   * the first digit the most significant (a non-digit counts as 0).
   */
  function HexNumber(text: Text, from: nat, n: nat): (r: nat)
    ensures r < Pow16(n)
    decreases n
  {
    if n == 0 then 0
    else
      var h := match HexDigit(Peek(text, from)) case Some(h) => h case None => 0;
      DigitPlace(h, Pow16(n - 1), HexNumber(text, from + 1, n - 1));
      h * Pow16(n - 1) + HexNumber(text, from + 1, n - 1)
  }

  /** A digit below 16 in front of a smaller place value stays below the next place. */
  lemma DigitPlace(h: nat, p: nat, rest: nat)
    requires h < 16 && rest < p
    ensures h * p + rest < 16 * p
  {
    assert h * p <= 15 * p;
  }

  /**
   * The four `next()` calls after `\u`, from the `i`-th on: each character
   * must be a hex digit, else "Bad unicode escape" at that character.
   */
  function UnicodeEscape(text: Text, at: nat, i: nat, acc: nat): (r: Step<CodeUnit>)
    requires 1 <= at <= |text| && i <= 4 && acc < Pow16(i)
    ensures r.Parsed? <==> forall j | at < j <= at + 4 - i :: HexDigit(Peek(text, j)).Some?
    ensures r.Parsed? ==> r.at == at + 4 - i <= |text|
    ensures r.Parsed? ==> r.value == acc * Pow16(4 - i) + HexNumber(text, at + 1, 4 - i)
    ensures r.Failed? ==> r.error.SyntaxError? && r.error.reason == BadUnicodeEscape
    decreases 4 - i
  {
    if i == 4 then Parsed(acc, at)
    else
      match HexDigit(Peek(text, at + 1))
      case None => Failed(SyntaxError(BadUnicodeEscape, at + 1))
      case Some(h) =>
        assert (acc + 1) * 16 <= Pow16(i) * 16;
        var r := UnicodeEscape(text, at + 1, i + 1, acc * 16 + h);
        assert r.Parsed? ==> HexDigit(Peek(text, at + 1)).Some?;
        assert r.Parsed? ==> r.value == acc * Pow16(4 - i) + HexNumber(text, at + 1, 4 - i) by {
          var P := Pow16(3 - i);
          assert Pow16(4 - i) == 16 * P;
          assert (acc * 16 + h) * P == acc * (16 * P) + h * P;
        }
        r
  }

  /** The keys of the escape table. */
  predicate IsEscapee(c: CodeUnit) {
    c in [DQUOTE, SQUOTE, BACKSLASH, SLASH, 'b' as int, 'f' as int, 'n' as int, 'r' as int, 't' as int]
  }

  /**
   * The escape table: `\f`, `\n`, `\r` and `\t` give their control
   * characters, and every other escapee gives itself, so `\b` gives the
   * letter `b`, not a backspace.
   */
  function Escapee(c: CodeUnit): (r: CodeUnit)
    requires IsEscapee(c)
    ensures r == c <==> c !in ['f' as int, 'n' as int, 'r' as int, 't' as int]
    ensures r != c ==> r < SPACE
  {
    if c == 'f' as int then FORMFEED
    else if c == 'n' as int then LF
    else if c == 'r' as int then CR
    else if c == 't' as int then TAB
    else c
  }

  /** What may follow a backslash without breaking the loop: `u` or a key of the escape table. */
  predicate IsEscape(e: Cur) {
    e == At('u' as int) || (e.At? && IsEscapee(e.c))
  }

  /**
   * The `while (next())` loop of `string()`. The cursor is on the last
   * character handled; `acc` is the text read so far.
   */
  function StringLoop(text: Text, at: nat, quote: CodeUnit, acc: Text): (r: Step<Value>)
    requires 1 <= at <= |text|
    ensures r.Parsed? ==> at < r.at <= |text| + 1 && r.value.Str?
    ensures r.Failed? ==> r.error.SyntaxError? && r.error.reason in {BadString, BadUnicodeEscape}
    ensures Peek(text, at + 1) == End ==> r == Failed(SyntaxError(BadString, at + 1))
    ensures Peek(text, at + 1) == At(BACKSLASH) && !IsEscape(Peek(text, at + 2)) ==>
      r == Failed(SyntaxError(BadString, at + 2))
    decreases |text| + 1 - at
  {
    var p := at + 1;
    match Peek(text, p)
    case End => Failed(SyntaxError(BadString, p))
    case At(c) =>
      if c == BACKSLASH then
        var e := Peek(text, p + 1);
        if e == At('u' as int) then
          match UnicodeEscape(text, p + 1, 0, 0)
          case Failed(err) => Failed(err)
          case Parsed(u, a) => StringLoop(text, a, quote, acc + [u])
        else if e.At? && IsEscapee(e.c) then StringLoop(text, p + 1, quote, acc + [Escapee(e.c)])
        else Failed(SyntaxError(BadString, p + 1))
      else if c == quote then Parsed(Str(acc), p + 1)
      else StringLoop(text, p, quote, acc + [c])
  }

  /** `string()`: reads up to the same quote character that opened the string. */
  function ParseString(text: Text, at: nat): (r: Step<Value>)
    requires 1 <= at <= |text| + 1
    requires Peek(text, at) == At(DQUOTE) || Peek(text, at) == At(SQUOTE)
    ensures r.Parsed? ==> at < r.at <= |text| + 1 && r.value.Str?
  {
    StringLoop(text, at, Peek(text, at).c, [])
  }

  /** The `while (ch)` loop of `key()`, once the first character is known to be a key character. */
  function KeyRest(text: Text, at: nat, acc: Text): (r: Step<Text>)
    requires 1 <= at <= |text| + 1
    ensures r.Parsed? ==> at <= r.at <= |text|
    ensures r.Failed? ==> r.error == SyntaxError(BadKey, |text| + 1)
    decreases |text| + 1 - at
  {
    match Peek(text, at)
    case End => Failed(SyntaxError(BadKey, at))
    case At(c) =>
      if IsKeyChar(c) then KeyRest(text, at + 1, acc + [c])
      else Parsed(acc, at)
  }

  /** The key loop collects exactly the key characters it passes and stops on the first other one. */
  lemma {:induction false} KeyRestRead(text: Text, at: nat, acc: Text)
    requires 1 <= at <= |text| + 1
    requires forall i | 0 <= i < |acc| :: IsKeyChar(acc[i])
    ensures var r := KeyRest(text, at, acc);
      && (r.Parsed? ==> r.value == acc + Span(text, at, r.at))
      && (r.Parsed? ==> forall i | 0 <= i < |r.value| :: IsKeyChar(r.value[i]))
      && (r.Parsed? ==> !IsKeyChar(text[r.at - 1]))
    decreases |text| + 1 - at
  {
    if Peek(text, at).At? && IsKeyChar(Peek(text, at).c) {
      var c := Peek(text, at).c;
      KeyRestRead(text, at + 1, acc + [c]);
      var r := KeyRest(text, at + 1, acc + [c]);
      if r.Parsed? {
        assert [c] + Span(text, at + 1, r.at) == Span(text, at, r.at);
        assert (acc + [c]) + Span(text, at + 1, r.at) == acc + Span(text, at, r.at);
      }
    }
  }

  /** `key()`: one or more of `[a-zA-Z0-9]`, ended by some other character. */
  function ParseKey(text: Text, at: nat): (r: Step<Text>)
    requires 1 <= at <= |text| + 1
    ensures r.Parsed? ==> at < r.at <= |text|
    ensures r.Failed? ==> r.error.SyntaxError? && r.error.reason == BadKey
    ensures !(Peek(text, at).At? && IsKeyChar(Peek(text, at).c)) ==> r == Failed(SyntaxError(BadKey, at))
  {
    var c := Peek(text, at);
    if c.At? && IsKeyChar(c.c) then KeyRest(text, at, [])
    else Failed(SyntaxError(BadKey, at))
  }

  /** What `key()` reads: the run of key characters under the cursor, ended by some other character. */
  lemma ParseKeyRead(text: Text, at: nat)
    requires 1 <= at <= |text| + 1
    ensures var r := ParseKey(text, at);
      && (r.Parsed? ==> |r.value| >= 1 && Occurs(text, at, r.value) && r.at == at + |r.value|)
      && (r.Parsed? ==> forall i | 0 <= i < |r.value| :: IsKeyChar(r.value[i]))
      && (r.Parsed? ==> Peek(text, r.at).At? && !IsKeyChar(Peek(text, r.at).c))
  {
    if Peek(text, at).At? && IsKeyChar(Peek(text, at).c) {
      KeyRestRead(text, at, []);
      var r := KeyRest(text, at, []);
      if r.Parsed? {
        assert r.value == Span(text, at, r.at);
      }
    }
  }

  /** `value()`: skips blanks, then dispatches on the first character. */
  function ParseValue(text: Text, at: nat): (r: Step<Value>)
    requires at <= |text| + 1
    ensures r.Parsed? ==> at < r.at <= |text| + 1
    ensures r.Parsed? ==> WellKinded(r.value)
    decreases |text| + 1 - at, 4
  {
    Dispatch(text, White(text, at))
  }

  /** The `switch (ch)` of `value()`. */
  function Dispatch(text: Text, at: nat): (r: Step<Value>)
    requires 1 <= at <= |text| + 1
    ensures r.Parsed? ==> at < r.at <= |text| + 1
    ensures r.Parsed? ==> WellKinded(r.value)
    decreases |text| + 1 - at, 3
  {
    var c := Peek(text, at);
    if c == At(LBRACE) then ParseObject(text, at)
    else if c == At(LBRACKET) then ParseArray(text, at)
    else if c == At(DQUOTE) || c == At(SQUOTE) then ParseString(text, at)
    else if c == At(MINUS) || IsDigitAt(c) then ParseNumber(text, at)
    else ParseWord(text, at)
  }

  /**
   * `array()`: after `[` and blanks, a suffix letter opens a typed array
   * whose header must go on with `;`. An empty array returns with the
   * cursor still on its `]`.
   */
  function ParseArray(text: Text, at: nat): (r: Step<Value>)
    requires 1 <= at <= |text| + 1 && Peek(text, at) == At(LBRACKET)
    ensures r.Parsed? ==> at < r.at <= |text| + 1
    ensures r.Parsed? ==> WellKinded(r.value) && (r.value.List? || r.value.TypedArray?)
    decreases |text| + 1 - at, 2
  {
    var a1 := White(text, at + 1);
    var c := Peek(text, a1);
    if IsTypedNumberSuffix(c) then
      match Next(text, a1 + 1, SEMICOLON)
      case Failed(e) => Failed(e)
      case Parsed(_, a2) =>
        var a3 := White(text, a2);
        var empty := NewTypedArray(KindForSuffix(c, false), []);
        if Peek(text, a3) == At(RBRACKET) then Parsed(empty, a3) else Elements(text, a3, empty)
    else if c == At(RBRACKET) then Parsed(List([]), a1)
    else Elements(text, a1, List([]))
  }

  /**
   * The element loop of `array()`: a value, pushed onto the result, then
   * `]` to finish or `,` to go on; the end of input is "bad array".
   */
  function Elements(text: Text, at: nat, acc: Value): (r: Step<Value>)
    requires 1 <= at <= |text| + 1
    requires (acc.List? || acc.TypedArray?) && WellKinded(acc)
    ensures r.Parsed? ==> at < r.at <= |text| + 1
    ensures r.Parsed? ==> WellKinded(r.value) && (r.value.List? || r.value.TypedArray?)
    decreases |text| + 1 - at, 5
  {
    if Peek(text, at).End? then Failed(SyntaxError(BadArray, at))
    else AfterElement(text, at, ParseValue(text, at), acc)
  }

  /** The rest of one round of the element loop, once the element at `at` has been read as `read`. */
  function AfterElement(text: Text, at: nat, read: Step<Value>, acc: Value): (r: Step<Value>)
    requires 1 <= at <= |text| + 1
    requires read.Parsed? ==> at < read.at <= |text| + 1 && WellKinded(read.value)
    requires (acc.List? || acc.TypedArray?) && WellKinded(acc)
    ensures r.Parsed? ==> at < r.at <= |text| + 1
    ensures r.Parsed? ==> WellKinded(r.value) && (r.value.List? || r.value.TypedArray?)
    decreases |text| + 1 - at, 4
  {
    match read
    case Failed(e) => Failed(e)
    case Parsed(v, a1) =>
      match PushOne(acc, v)
      case Err(t) => Failed(Raised(t))
      case Ok(acc') =>
        PushOneKinded(acc, v);
        var a2 := White(text, a1);
        if Peek(text, a2) == At(RBRACKET) then Parsed(acc', a2 + 1)
        else
          match Next(text, a2, COMMA)
          case Failed(e) => Failed(e)
          case Parsed(_, a3) => Elements(text, White(text, a3), acc')
  }

  /**
   * `object()`: `{}` or key-value pairs. A later duplicate key overwrites
   * the earlier value. Input that ends where a key should start makes the
   * loop stop and the function return `undefined`.
   */
  function ParseObject(text: Text, at: nat): (r: Step<Value>)
    requires 1 <= at <= |text| + 1 && Peek(text, at) == At(LBRACE)
    ensures r.Parsed? ==> at < r.at <= |text| + 1
    ensures r.Parsed? ==> WellKinded(r.value) && (r.value.Compound? || r.value.Undefined?)
    decreases |text| + 1 - at, 2
  {
    var a1 := White(text, at + 1);
    if Peek(text, a1) == At(RBRACE) then Parsed(Compound([]), a1 + 1)
    else Members(text, a1, [])
  }

  /** The member loop of `object()`; `acc` holds the properties read so far. */
  function Members(text: Text, at: nat, acc: seq<Entry>): (r: Step<Value>)
    requires 1 <= at <= |text| + 1
    requires WellKinded(Compound(acc))
    ensures r.Parsed? ==> at <= r.at <= |text| + 1
    ensures r.Parsed? ==> WellKinded(r.value) && (r.value.Compound? || r.value.Undefined?)
    decreases |text| + 1 - at, 5
  {
    if Peek(text, at).End? then Parsed(Undefined, at)
    else
      match ParseKey(text, at)
      case Failed(e) => Failed(e)
      case Parsed(k, a1) =>
        match Next(text, White(text, a1), COLON)
        case Failed(e) => Failed(e)
        case Parsed(_, a2) => AfterMember(text, a2, k, ParseValue(text, a2), acc)
  }

  /** The rest of one round of the member loop, once the value of key `k` at `at` has been read as `read`. */
  function AfterMember(text: Text, at: nat, k: Text, read: Step<Value>, acc: seq<Entry>): (r: Step<Value>)
    requires 1 <= at <= |text| + 1
    requires read.Parsed? ==> at < read.at <= |text| + 1 && WellKinded(read.value)
    requires WellKinded(Compound(acc))
    ensures r.Parsed? ==> at <= r.at <= |text| + 1
    ensures r.Parsed? ==> WellKinded(r.value) && (r.value.Compound? || r.value.Undefined?)
    decreases |text| + 1 - at, 4
  {
    match read
    case Failed(e) => Failed(e)
    case Parsed(v, a3) =>
      var acc' := Put(acc, k, v);
      PutKinded(acc, k, v);
      var a4 := White(text, a3);
      if Peek(text, a4) == At(RBRACE) then Parsed(Compound(acc'), a4 + 1)
      else
        match Next(text, a4, COMMA)
        case Failed(e) => Failed(e)
        case Parsed(_, a5) => Members(text, White(text, a5), acc')
  }

  /** `SNBT.parse(text)`: the first value; whatever follows it is never looked at. */
  function Parse(text: Text): (r: Result<Value, Error>)
    ensures r.Ok? ==> WellKinded(r.value)
  {
    match ParseValue(text, 0)
    case Parsed(v, _) => Ok(v)
    case Failed(e) => Err(e)
  }
}

=== FILE: parsesteps.dfy ===
/**
 * The steps of the array and object readers, each started on text laid out
 * the way the writer lays it out: an opening bracket and blanks, values
 * separated by `,` and blanks, blanks and a closing bracket. The values
 * themselves are taken as already read; the lemmas say where each loop
 * goes next and what it has built so far.
 */
module ParseSteps {
  import opened Results
  import opened Texts
  import opened Structures
  import opened Values
  import opened Parser
  import opened Scanning

  /** The reader's view of an extended array: plain arrays and typed arrays alike. */
  function Extend(acc: Value, ys: seq<Value>): (r: Value)
    requires acc.List? || acc.TypedArray?
    ensures r.List? || r.TypedArray?
  {
    if acc.List? then List(acc.items + ys) else TypedArray(acc.base, acc.elems + ys)
  }

  lemma ExtendTwice(acc: Value, ys: seq<Value>, zs: seq<Value>)
    requires acc.List? || acc.TypedArray?
    ensures Extend(Extend(acc, ys), zs) == Extend(acc, ys + zs)
  {
    if acc.List? {
      assert acc.items + ys + zs == acc.items + (ys + zs);
    } else {
      assert acc.elems + ys + zs == acc.elems + (ys + zs);
    }
  }

  /** Pushing a value the array accepts extends it by that value, and keeps the invariant. */
  lemma PushExtends(acc: Value, x: Value)
    requires (acc.List? || acc.TypedArray?) && WellKinded(acc) && WellKinded(x)
    requires acc.TypedArray? ==> IsInstance(x, acc.base)
    ensures PushOne(acc, x) == Ok(Extend(acc, [x]))
    ensures WellKinded(Extend(acc, [x]))
  {
    PushOneKinded(acc, x);
  }

  /** `white()` does not move off a character that is not blank. */
  lemma WhiteStays(text: Text, at: nat)
    requires 1 <= at <= |text| + 1 && !IsBlank(Peek(text, at))
    ensures White(text, at) == at
  {
  }

  /** `value()` on a character that is not blank dispatches right there. */
  lemma ValueAt(text: Text, at: nat, x: Value, a1: nat)
    requires 1 <= at <= |text| + 1 && !IsBlank(Peek(text, at))
    requires Dispatch(text, at) == Parsed(x, a1)
    ensures ParseValue(text, at) == Parsed(x, a1)
    ensures WellKinded(x)
  {
    WhiteStays(text, at);
  }

  /** Which reader the switch of `value()` hands the text to, by the character at the cursor. */
  lemma DispatchNumber(text: Text, at: nat)
    requires 1 <= at <= |text| + 1
    requires Peek(text, at) == At(MINUS) || IsDigitAt(Peek(text, at))
    ensures Dispatch(text, at) == ParseNumber(text, at)
  {
  }

  lemma DispatchString(text: Text, at: nat)
    requires 1 <= at <= |text| + 1 && (Peek(text, at) == At(DQUOTE) || Peek(text, at) == At(SQUOTE))
    ensures Dispatch(text, at) == ParseString(text, at)
  {
  }

  lemma DispatchArray(text: Text, at: nat)
    requires 1 <= at <= |text| + 1 && Peek(text, at) == At(LBRACKET)
    ensures Dispatch(text, at) == ParseArray(text, at)
  {
  }

  lemma DispatchObject(text: Text, at: nat)
    requires 1 <= at <= |text| + 1 && Peek(text, at) == At(LBRACE)
    ensures Dispatch(text, at) == ParseObject(text, at)
  {
  }

  lemma DispatchWord(text: Text, at: nat)
    requires 1 <= at <= |text| + 1
    requires Peek(text, at) != At(LBRACE) && Peek(text, at) != At(LBRACKET)
    requires Peek(text, at) != At(DQUOTE) && Peek(text, at) != At(SQUOTE)
    requires Peek(text, at) != At(MINUS) && !IsDigitAt(Peek(text, at))
    ensures Dispatch(text, at) == ParseWord(text, at)
  {
  }

  /** `[`, blanks, then an element that names no kind: a plain array. */
  lemma ArrayOpen(text: Text, at: nat, nl: Text)
    requires Peek(text, at) == At(LBRACKET) && Occurs(text, at + 1, nl) && AllBlank(nl)
    requires var c := Peek(text, at + 1 + |nl|);
      !IsBlank(c) && !IsTypedNumberSuffix(c) && c != At(RBRACKET)
    ensures ParseArray(text, at) == Elements(text, at + 1 + |nl|, List([]))
  {
    WhiteOver(text, at + 1, nl);
  }

  /** `[`, a tag, `;`, blanks, then an element: a typed array of the tag's kind. */
  lemma TypedArrayOpen(text: Text, at: nat, k: Kind, nl: Text)
    requires Occurs(text, at, [LBRACKET, Tag(k), SEMICOLON]) && Occurs(text, at + 3, nl) && AllBlank(nl)
    requires Peek(text, at) == At(LBRACKET)
    requires var c := Peek(text, at + 3 + |nl|);
      !IsBlank(c) && c != At(RBRACKET)
    ensures ParseArray(text, at) == Elements(text, at + 3 + |nl|, TypedArray(k, []))
  {
    OccursPeek(text, at, [LBRACKET, Tag(k), SEMICOLON], 0);
    OccursPeek(text, at, [LBRACKET, Tag(k), SEMICOLON], 1);
    OccursPeek(text, at, [LBRACKET, Tag(k), SEMICOLON], 2);
    SuffixReadsBack(k);
    WhiteStays(text, at + 1);
    WhiteOver(text, at + 3, nl);
    TypedArrayOpenIs(text, at, k, at + 3 + |nl|);
  }

  lemma TypedArrayOpenIs(text: Text, at: nat, k: Kind, a3: nat)
    requires 1 <= at && at + 3 <= |text| + 1 && Peek(text, at) == At(LBRACKET)
    requires White(text, at + 1) == at + 1 && Peek(text, at + 1) == At(Tag(k)) && SuffixKind(At(Tag(k))) == Some(k)
    requires Peek(text, at + 2) == At(SEMICOLON)
    requires White(text, at + 3) == a3 && Peek(text, a3) != At(RBRACKET)
    ensures ParseArray(text, at) == Elements(text, a3, TypedArray(k, []))
  {
  }

  /** One round of the element loop: read a value, then carry on. */
  lemma ElementsRound(text: Text, at: nat, acc: Value)
    requires 1 <= at <= |text| && (acc.List? || acc.TypedArray?) && WellKinded(acc)
    ensures Elements(text, at, acc) == AfterElement(text, at, ParseValue(text, at), acc)
  {
  }

  /** One round of the element loop whose value reads as `x` and stops at `a1`. */
  lemma ElementsRead(text: Text, at: nat, acc: Value, x: Value, a1: nat)
    requires 1 <= at <= |text| && (acc.List? || acc.TypedArray?) && WellKinded(acc)
    requires Reads(text, at, x, a1)
    ensures at < a1 <= |text| + 1 && WellKinded(x)
    ensures Elements(text, at, acc) == AfterElement(text, at, Parsed(x, a1), acc)
  {
    ElementsRound(text, at, acc);
  }

  /** The last element: blanks and `]` end the array. */
  lemma ElementsLast(text: Text, at: nat, acc: Value, x: Value, a1: nat, nl: Text)
    requires 1 <= at < a1 <= |text| + 1 && WellKinded(x)
    requires (acc.List? || acc.TypedArray?) && WellKinded(acc)
    requires acc.TypedArray? ==> IsInstance(x, acc.base)
    requires Occurs(text, a1, nl) && AllBlank(nl) && Peek(text, a1 + |nl|) == At(RBRACKET)
    ensures AfterElement(text, at, Parsed(x, a1), acc) == Parsed(Extend(acc, [x]), a1 + |nl| + 1)
  {
    WhiteOver(text, a1, nl);
    PushExtends(acc, x);
  }

  /** An element followed by `,` and blanks: the loop goes on at the next element. */
  lemma ElementsStep(text: Text, at: nat, acc: Value, x: Value, a1: nat, nl: Text)
    requires 1 <= at < a1 <= |text| + 1 && WellKinded(x)
    requires (acc.List? || acc.TypedArray?) && WellKinded(acc)
    requires acc.TypedArray? ==> IsInstance(x, acc.base)
    requires Peek(text, a1) == At(COMMA) && Occurs(text, a1 + 1, nl) && AllBlank(nl)
    requires !IsBlank(Peek(text, a1 + 1 + |nl|))
    ensures WellKinded(Extend(acc, [x]))
    ensures AfterElement(text, at, Parsed(x, a1), acc) == Elements(text, a1 + 1 + |nl|, Extend(acc, [x]))
  {
    WhiteStays(text, a1);
    WhiteOver(text, a1 + 1, nl);
    PushExtends(acc, x);
  }

  /** `{`, blanks, then a key: the member loop starts there with no properties. */
  lemma ObjectOpen(text: Text, at: nat, nl: Text)
    requires Peek(text, at) == At(LBRACE) && Occurs(text, at + 1, nl) && AllBlank(nl)
    requires var c := Peek(text, at + 1 + |nl|); !IsBlank(c) && c != At(RBRACE)
    ensures ParseObject(text, at) == Members(text, at + 1 + |nl|, [])
  {
    WhiteOver(text, at + 1, nl);
  }

  /** `{`, blanks, `}`: the empty object. */
  lemma ObjectEmpty(text: Text, at: nat, nl: Text)
    requires Peek(text, at) == At(LBRACE) && Occurs(text, at + 1, nl) && AllBlank(nl)
    requires Peek(text, at + 1 + |nl|) == At(RBRACE)
    ensures ParseObject(text, at) == Parsed(Compound([]), at + 2 + |nl|)
  {
    WhiteOver(text, at + 1, nl);
  }

  /** A key and `:` at the head of a round of the member loop whose value reads as `x` and stops at `a1`. */
  lemma {:induction false} MembersRound(text: Text, at: nat, k: Text, acc: seq<Entry>, x: Value, a1: nat)
    requires |k| >= 1 && Occurs(text, at, k) && Peek(text, at + |k|) == At(COLON)
    requires forall i | 0 <= i < |k| :: IsKeyChar(k[i])
    requires WellKinded(Compound(acc))
    requires at + |k| + 1 <= |text| + 1 && Reads(text, at + |k| + 1, x, a1)
    ensures at + |k| + 1 < a1 <= |text| + 1 && WellKinded(x)
    ensures Members(text, at, acc) == AfterMember(text, at + |k| + 1, k, Parsed(x, a1), acc)
  {
    OccursPeek(text, at, k, 0);
    KeyOver(text, at, k);
    WhiteStays(text, at + |k|);
    MembersRoundIs(text, at, k, acc);
  }

  lemma {:induction false} MembersRoundIs(text: Text, at: nat, k: Text, acc: seq<Entry>)
    requires 1 <= at <= |text| && at + |k| + 1 <= |text| + 1 && WellKinded(Compound(acc))
    requires ParseKey(text, at) == Parsed(k, at + |k|)
    requires White(text, at + |k|) == at + |k| && Peek(text, at + |k|) == At(COLON)
    ensures Members(text, at, acc) == AfterMember(text, at + |k| + 1, k, ParseValue(text, at + |k| + 1), acc)
  {
    assert Next(text, White(text, at + |k|), COLON) == Parsed((), at + |k| + 1);
  }

  /** The last property: blanks and `}` end the object. */
  lemma MembersLast(text: Text, at: nat, k: Text, acc: seq<Entry>, x: Value, a1: nat, nl: Text)
    requires 1 <= at < a1 <= |text| + 1 && WellKinded(x) && WellKinded(Compound(acc))
    requires Occurs(text, a1, nl) && AllBlank(nl) && Peek(text, a1 + |nl|) == At(RBRACE)
    ensures AfterMember(text, at, k, Parsed(x, a1), acc) == Parsed(Compound(Put(acc, k, x)), a1 + |nl| + 1)
  {
    WhiteOver(text, a1, nl);
  }

  /** A property followed by `,` and blanks: the loop goes on at the next key. */
  lemma MembersStep(text: Text, at: nat, k: Text, acc: seq<Entry>, x: Value, a1: nat, nl: Text)
    requires 1 <= at < a1 <= |text| + 1 && WellKinded(x) && WellKinded(Compound(acc))
    requires Peek(text, a1) == At(COMMA) && Occurs(text, a1 + 1, nl) && AllBlank(nl)
    requires !IsBlank(Peek(text, a1 + 1 + |nl|))
    ensures WellKinded(Compound(Put(acc, k, x)))
    ensures AfterMember(text, at, k, Parsed(x, a1), acc) == Members(text, a1 + 1 + |nl|, Put(acc, k, x))
  {
    WhiteStays(text, a1);
    WhiteOver(text, a1 + 1, nl);
    PutKinded(acc, k, x);
  }

  /**
   * `value()` started at `at`. A plain wrapper, so that facts stated through
   * it do not unfold the reader.
   */
  function Read(text: Text, at: nat): Step<Value>
    requires at <= |text| + 1
  {
    ParseValue(text, at)
  }

  /** `value()` started at `at` reads `x` and leaves the cursor at `a1`. */
  predicate Reads(text: Text, at: nat, x: Value, a1: nat)
    requires at <= |text| + 1
  {
    Read(text, at) == Parsed(x, a1)
  }

  /** Where `value()` started at `at` leaves the cursor, when it reads a value. */
  function ReadEnd(text: Text, at: nat): nat
    requires at <= |text| + 1
  {
    var r := Read(text, at);
    if r.Parsed? then r.at else 0
  }

  /** An element followed by `,` and blanks: the loop starts over after them with the element pushed. */
  lemma ElementsNext(text: Text, at: nat, acc: Value, x: Value, a1: nat, gap: Text)
    requires 1 <= at <= |text| && (acc.List? || acc.TypedArray?) && WellKinded(acc)
    requires Reads(text, at, x, a1)
    requires acc.TypedArray? ==> IsInstance(x, acc.base)
    requires Peek(text, a1) == At(COMMA) && Occurs(text, a1 + 1, gap) && AllBlank(gap)
    requires !IsBlank(Peek(text, a1 + 1 + |gap|))
    ensures a1 + 1 + |gap| <= |text| + 1 && WellKinded(Extend(acc, [x]))
    ensures Elements(text, at, acc) == Elements(text, a1 + 1 + |gap|, Extend(acc, [x]))
  {
    ElementsStep(text, at, acc, x, a1, gap);
    ElementsRead(text, at, acc, x, a1);
  }

  /** The last element, followed by blanks and `]`: the loop ends with the element pushed. */
  lemma ElementsEnd(text: Text, at: nat, acc: Value, x: Value, a1: nat, nl: Text)
    requires 1 <= at <= |text| && (acc.List? || acc.TypedArray?) && WellKinded(acc)
    requires Reads(text, at, x, a1)
    requires acc.TypedArray? ==> IsInstance(x, acc.base)
    requires Occurs(text, a1, nl) && AllBlank(nl) && Peek(text, a1 + |nl|) == At(RBRACKET)
    ensures Elements(text, at, acc) == Parsed(Extend(acc, [x]), a1 + |nl| + 1)
  {
    ElementsRead(text, at, acc, x, a1);
    ElementsLast(text, at, acc, x, a1, nl);
  }

  /**
   * Array elements as the writer lays them out from `at` on: each of `xs`
   * read where it starts, `,` and the blank `gap` after every one but the
   * last, then blanks `nl` and `]`. The element loop stops at `end`, right
   * after the `]`.
   */
  predicate ElementsLaid(text: Text, at: nat, xs: seq<Value>, gap: Text, nl: Text, end: nat)
    decreases |xs|
  {
    && |xs| > 0 && 1 <= at <= |text| + 1 && !IsBlank(Peek(text, at))
    && var a1 := ReadEnd(text, at);
    && Reads(text, at, xs[0], a1)
    && if |xs| == 1 then Occurs(text, a1, nl) && Peek(text, a1 + |nl|) == At(RBRACKET) && end == a1 + |nl| + 1
       else Peek(text, a1) == At(COMMA) && Occurs(text, a1 + 1, gap) && ElementsLaid(text, a1 + 1 + |gap|, xs[1..], gap, nl, end)
  }

  /** The element loop reads a laid-out run of elements, in order, and stops after `]`. */
  lemma {:induction false} ElementsLaidRead(text: Text, at: nat, acc: Value, xs: seq<Value>, gap: Text, nl: Text, end: nat)
    requires ElementsLaid(text, at, xs, gap, nl, end) && AllBlank(gap) && AllBlank(nl)
    requires (acc.List? || acc.TypedArray?) && WellKinded(acc)
    requires acc.TypedArray? ==> forall i | 0 <= i < |xs| :: IsInstance(xs[i], acc.base)
    ensures Elements(text, at, acc) == Parsed(Extend(acc, xs), end)
    decreases |xs|
  {
    var a1 := ReadEnd(text, at);
    if |xs| == 1 {
      ElementsEnd(text, at, acc, xs[0], a1, nl);
      assert xs == [xs[0]];
    } else {
      PushExtends(acc, xs[0]);
      ElementsLaidRead(text, a1 + 1 + |gap|, Extend(acc, [xs[0]]), xs[1..], gap, nl, end);
      ElementsNext(text, at, acc, xs[0], a1, gap);
      ExtendTwice(acc, [xs[0]], xs[1..]);
      assert [xs[0]] + xs[1..] == xs;
    }
  }

  /** `[`, blanks, then a laid-out run whose first element names no kind: a plain array. */
  lemma {:induction false} ArrayLaid(text: Text, at: nat, nl1: Text, xs: seq<Value>, gap: Text, nl0: Text, end: nat)
    requires Peek(text, at) == At(LBRACKET) && Occurs(text, at + 1, nl1) && AllBlank(nl1)
    requires ElementsLaid(text, at + 1 + |nl1|, xs, gap, nl0, end) && AllBlank(gap) && AllBlank(nl0)
    requires var c := Peek(text, at + 1 + |nl1|); !IsTypedNumberSuffix(c) && c != At(RBRACKET)
    ensures Dispatch(text, at) == Parsed(List(xs), end)
  {
    ElementsLaidRead(text, at + 1 + |nl1|, List([]), xs, gap, nl0, end);
    DispatchArray(text, at);
    ArrayOpen(text, at, nl1);
    assert [] + xs == xs;
  }

  /** `[`, a tag, `;`, blanks, then a laid-out run of numbers of the tag's kind: a typed array. */
  lemma {:induction false} TypedArrayLaid(text: Text, at: nat, k: Kind, nl1: Text, xs: seq<Value>, gap: Text, nl0: Text, end: nat)
    requires Occurs(text, at, [LBRACKET, Tag(k), SEMICOLON]) && Occurs(text, at + 3, nl1) && AllBlank(nl1)
    requires ElementsLaid(text, at + 3 + |nl1|, xs, gap, nl0, end) && AllBlank(gap) && AllBlank(nl0)
    requires Peek(text, at + 3 + |nl1|) != At(RBRACKET)
    requires forall i | 0 <= i < |xs| :: IsInstance(xs[i], k)
    ensures Dispatch(text, at) == Parsed(TypedArray(k, xs), end)
  {
    ElementsLaidRead(text, at + 3 + |nl1|, TypedArray(k, []), xs, gap, nl0, end);
    OccursPeek(text, at, [LBRACKET, Tag(k), SEMICOLON], 0);
    DispatchArray(text, at);
    TypedArrayOpen(text, at, k, nl1);
    assert [] + xs == xs;
  }

  /** A property followed by `,` and blanks: the loop starts over at the next key with the property added. */
  lemma MembersNext(text: Text, a: nat, k: Text, acc: seq<Entry>, x: Value, a1: nat, gap: Text)
    requires 1 <= a < a1 <= |text| + 1 && WellKinded(x) && WellKinded(Compound(acc)) && k !in Keys(acc)
    requires Peek(text, a1) == At(COMMA) && Occurs(text, a1 + 1, gap) && AllBlank(gap)
    requires !IsBlank(Peek(text, a1 + 1 + |gap|))
    ensures a1 + 1 + |gap| <= |text| + 1 && WellKinded(Compound(acc + [Entry(k, x)]))
    ensures AfterMember(text, a, k, Parsed(x, a1), acc) == Members(text, a1 + 1 + |gap|, acc + [Entry(k, x)])
  {
    MembersStep(text, a, k, acc, x, a1, gap);
    PutFresh(acc, k, x);
  }

  /** The last property, followed by blanks and `}`: the loop ends with the property added. */
  lemma MembersEnd(text: Text, a: nat, k: Text, acc: seq<Entry>, x: Value, a1: nat, nl: Text)
    requires 1 <= a < a1 <= |text| + 1 && WellKinded(x) && WellKinded(Compound(acc)) && k !in Keys(acc)
    requires Occurs(text, a1, nl) && AllBlank(nl) && Peek(text, a1 + |nl|) == At(RBRACE)
    ensures AfterMember(text, a, k, Parsed(x, a1), acc) == Parsed(Compound(acc + [Entry(k, x)]), a1 + |nl| + 1)
  {
    MembersLast(text, a, k, acc, x, a1, nl);
    PutFresh(acc, k, x);
  }

  /**
   * Object properties as the writer lays them out from `at` on: each key,
   * `:` and the value read right after it, `,` and the blank `gap` after
   * every property but the last, then blanks `nl` and `}`. The member loop
   * stops at `end`, right after the `}`.
   */
  predicate MembersLaid(text: Text, at: nat, es: seq<Entry>, gap: Text, nl: Text, end: nat)
    decreases |es|
  {
    && |es| > 0
    && var k := es[0].key;
    && |k| >= 1 && (forall i | 0 <= i < |k| :: IsKeyChar(k[i]))
    && Occurs(text, at, k) && Peek(text, at + |k|) == At(COLON)
    && var a1 := ReadEnd(text, at + |k| + 1);
    && Reads(text, at + |k| + 1, es[0].val, a1)
    && if |es| == 1 then Occurs(text, a1, nl) && Peek(text, a1 + |nl|) == At(RBRACE) && end == a1 + |nl| + 1
       else Peek(text, a1) == At(COMMA) && Occurs(text, a1 + 1, gap) && MembersLaid(text, a1 + 1 + |gap|, es[1..], gap, nl, end)
  }

  /** A laid-out key starts with a key character: neither blank nor `}`. */
  lemma MembersLaidStart(text: Text, at: nat, es: seq<Entry>, gap: Text, nl: Text, end: nat)
    requires MembersLaid(text, at, es, gap, nl, end)
    ensures var c := Peek(text, at); !IsBlank(c) && c != At(RBRACE)
  {
    OccursPeek(text, at, es[0].key, 0);
  }

  /**
   * The member loop reads a laid-out run of properties whose keys are
   * distinct from each other and from those already read, in order, and
   * stops after `}`.
   */
  lemma {:induction false} MembersLaidRead(text: Text, at: nat, acc: seq<Entry>, es: seq<Entry>, gap: Text, nl: Text, end: nat)
    requires MembersLaid(text, at, es, gap, nl, end) && AllBlank(gap) && AllBlank(nl)
    requires WellKinded(Compound(acc)) && UniqueKeys(acc + es)
    ensures Members(text, at, acc) == Parsed(Compound(acc + es), end)
    decreases |es|
  {
    var k := es[0].key;
    var a := at + |k| + 1;
    var a1 := ReadEnd(text, a);
    MembersRound(text, at, k, acc, es[0].val, a1);
    FreshHead(acc, es);
    if |es| == 1 {
      MembersEnd(text, a, k, acc, es[0].val, a1, nl);
      assert es == [es[0]];
    } else {
      var next := a1 + 1 + |gap|;
      MembersLaidStart(text, next, es[1..], gap, nl, end);
      MembersNext(text, a, k, acc, es[0].val, a1, gap);
      MembersLaidRead(text, next, acc + [es[0]], es[1..], gap, nl, end);
    }
  }

  /** With all keys distinct, the next key is not among those already read. */
  lemma FreshHead(acc: seq<Entry>, es: seq<Entry>)
    requires |es| > 0 && UniqueKeys(acc + es)
    ensures es[0].key !in Keys(acc)
    ensures acc + [es[0]] + es[1..] == acc + es
  {
    assert es == [es[0]] + es[1..];
    forall i | 0 <= i < |acc|
      ensures Keys(acc)[i] != es[0].key
    {
      assert (acc + es)[i] == acc[i] && (acc + es)[|acc|] == es[0];
    }
  }

  /** `{`, blanks, then a laid-out run of properties with distinct keys: an object. */
  lemma {:induction false} ObjectLaid(text: Text, at: nat, nl1: Text, es: seq<Entry>, gap: Text, nl0: Text, end: nat)
    requires Peek(text, at) == At(LBRACE) && Occurs(text, at + 1, nl1) && AllBlank(nl1)
    requires MembersLaid(text, at + 1 + |nl1|, es, gap, nl0, end) && AllBlank(gap) && AllBlank(nl0)
    requires UniqueKeys(es)
    ensures Dispatch(text, at) == Parsed(Compound(es), end)
  {
    MembersLaidStart(text, at + 1 + |nl1|, es, gap, nl0, end);
    assert [] + es == es;
    MembersLaidRead(text, at + 1 + |nl1|, [], es, gap, nl0, end);
    DispatchObject(text, at);
    ObjectOpen(text, at, nl1);
  }

  /** A single element read at `at`, then blanks and `]`: a laid-out run of one. */
  lemma ElementsLaidOne(text: Text, at: nat, x: Value, a1: nat, gap: Text, nl: Text)
    requires 1 <= at <= |text| + 1 && !IsBlank(Peek(text, at)) && Reads(text, at, x, a1)
    requires Occurs(text, a1, nl) && Peek(text, a1 + |nl|) == At(RBRACKET)
    ensures ElementsLaid(text, at, [x], gap, nl, a1 + |nl| + 1)
  {
  }

  /** An element read at `at`, `,` and `gap`, then a laid-out run: a laid-out run one longer. */
  lemma ElementsLaidCons(text: Text, at: nat, x: Value, a1: nat, next: nat, xs: seq<Value>, gap: Text, nl: Text, end: nat)
    requires 1 <= at <= |text| + 1 && !IsBlank(Peek(text, at)) && Reads(text, at, x, a1)
    requires Peek(text, a1) == At(COMMA) && Occurs(text, a1 + 1, gap) && next == a1 + 1 + |gap|
    requires ElementsLaid(text, next, xs, gap, nl, end)
    ensures ElementsLaid(text, at, [x] + xs, gap, nl, end)
  {
    assert ([x] + xs)[1..] == xs;
  }

  /** A single property, then blanks and `}`: a laid-out run of one. */
  lemma MembersLaidOne(text: Text, at: nat, k: Text, x: Value, a1: nat, gap: Text, nl: Text)
    requires |k| >= 1 && forall i | 0 <= i < |k| :: IsKeyChar(k[i])
    requires Occurs(text, at, k) && Peek(text, at + |k|) == At(COLON)
    requires at + |k| + 1 <= |text| + 1 && Reads(text, at + |k| + 1, x, a1)
    requires Occurs(text, a1, nl) && Peek(text, a1 + |nl|) == At(RBRACE)
    ensures MembersLaid(text, at, [Entry(k, x)], gap, nl, a1 + |nl| + 1)
  {
  }

  /** A property, `,` and `gap`, then a laid-out run: a laid-out run one longer. */
  lemma MembersLaidCons(text: Text, at: nat, k: Text, x: Value, a1: nat, next: nat, es: seq<Entry>, gap: Text, nl: Text, end: nat)
    requires |k| >= 1 && forall i | 0 <= i < |k| :: IsKeyChar(k[i])
    requires Occurs(text, at, k) && Peek(text, at + |k|) == At(COLON)
    requires at + |k| + 1 <= |text| + 1 && Reads(text, at + |k| + 1, x, a1)
    requires Peek(text, a1) == At(COMMA) && Occurs(text, a1 + 1, gap) && next == a1 + 1 + |gap|
    requires MembersLaid(text, next, es, gap, nl, end)
    ensures MembersLaid(text, at, [Entry(k, x)] + es, gap, nl, end)
  {
    assert ([Entry(k, x)] + es)[1..] == es;
  }
}

=== FILE: results.dfy ===
/** Failure-carrying values shared by every module of the model. */
module Results {

  /** A value that may be absent. */
  datatype Option<+T> = None | Some(value: T)

  /** The outcome of an operation that either produces a value or throws. */
  datatype Result<+T, +E> = Ok(value: T) | Err(error: E)
}

=== FILE: roundtrip.dfy ===
/**
 * What `SNBT.parse` makes of the text `SNBT.stringify` wrote. The writer
 * and the reader are not exact inverses: `null` writes nothing, empty
 * arrays leave the reader's cursor on their `]`, `[false` reads as the
 * header of a Float array, control characters are written with two hex
 * digits where the reader wants four, and booleans under the byte flag come
 * back as bytes. `WellFormed` names the values clear of all of these, and
 * `Canon` says what the rest become; for those values the reader gives back
 * exactly `Canon(v)`.
 */
module RoundTrip {
  import opened Results
  import opened Texts
  import opened Decimals
  import opened Structures
  import opened Values
  import opened Parser
  import opened Serializer
  import opened Scanning
  import opened ParseSteps

  /** Line breaks the reader can skip: no indent, or an indent of blanks only. */
  predicate BlankIndent(o: Options) {
    o.indent.Some? ==> AllBlank(o.indent.value)
  }

  /** The characters that may follow a written value: what the writer itself puts after one. */
  predicate Follower(c: Cur) {
    c.End? || IsBlank(c) || c == At(COMMA) || c == At(RBRACKET) || c == At(RBRACE)
  }

  /** A number the reader reads back as itself: an Int must not carry a fraction. */
  predicate NumberWellFormed(n: TypedNumber) {
    && Canonical(n.value)
    && InRange(n.value, n.kind)
    && (n.kind == Int ==> n.value.exp >= 0)
  }

  /**
   * An object key that reads back: one or more of `[a-zA-Z0-9]`, and not
   * digits alone, since JavaScript enumerates integer keys before the others.
   */
  predicate ValidKey(k: Text) {
    && |k| >= 1
    && (forall i | 0 <= i < |k| :: IsKeyChar(k[i]))
    && !AllDigits(k)
  }

  /**
   * The values whose written text reads back: strings without control
   * characters other than line breaks, non-empty arrays, typed arrays of
   * numbers of their own kind, no `false` opening a plain array unless
   * booleans are written as bytes, and objects whose keys read back.
   * `null` and `undefined` may only appear as skipped properties.
   */
  predicate WellFormed(v: Value, o: Options)
    ensures WellFormed(v, o) ==> Writable(v)
    decreases v, 1
  {
    || (v.Number? && NumberWellFormed(v.n))
    || (v.Str? && PlainString(v.s))
    || v.Bool?
    || (&& v.TypedArray? && |v.elems| > 0
        && forall i | 0 <= i < |v.elems| :: v.elems[i].Number? && v.elems[i].n.kind == v.base && NumberWellFormed(v.elems[i].n))
    || (&& v.List? && |v.items| > 0
        && (o.useByteFlag || v.items[0] != Bool(false))
        && ItemsWellFormed(v, v.items, o))
    || (v.Compound? && UniqueKeys(v.entries) && EntriesWellFormed(v, v.entries, o))
  }

  /** Every element of a list is well-formed. */
  predicate ItemsWellFormed(parent: Value, xs: seq<Value>, o: Options)
    requires forall i | 0 <= i < |xs| :: xs[i] < parent
    ensures ItemsWellFormed(parent, xs, o) ==> forall i | 0 <= i < |xs| :: Writable(xs[i])
    decreases parent, 0
  {
    forall i | 0 <= i < |xs| :: WellFormed(xs[i], o)
  }

  /** Every property has a key that reads back, and a value that is skipped or well-formed. */
  predicate EntriesWellFormed(parent: Value, es: seq<Entry>, o: Options)
    requires forall i | 0 <= i < |es| :: es[i].val < parent
    ensures EntriesWellFormed(parent, es, o) ==> forall i | 0 <= i < |es| :: Skipped(es[i].val) || Writable(es[i].val)
    decreases parent, 0
  {
    forall i | 0 <= i < |es| :: ValidKey(es[i].key) && (Skipped(es[i].val) || WellFormed(es[i].val, o))
  }

  /** The byte `1b` or `0b` a boolean is written as under the byte flag. */
  function ByteOf(b: bool): TypedNumber {
    TypedNumber(Byte, if b then Decimal(false, 1, 0) else Zero)
  }

  /**
   * The value the reader builds from the text written for `v`: booleans
   * become bytes under the byte flag, and skipped properties are gone.
   */
  function Canon(v: Value, o: Options): Value
    decreases v, 1
  {
    match v
    case Bool(b) => if o.useByteFlag then Number(ByteOf(b)) else v
    case TypedArray(k, xs) => TypedArray(k, CanonItems(v, xs, o))
    case List(xs) => List(CanonItems(v, xs, o))
    case Compound(es) => Compound(CanonEntries(v, es, o))
    case _ => v
  }

  function CanonItems(parent: Value, xs: seq<Value>, o: Options): (r: seq<Value>)
    requires forall i | 0 <= i < |xs| :: xs[i] < parent
    ensures |r| == |xs|
    decreases parent, 0, |xs|
  {
    if xs == [] then [] else [Canon(xs[0], o)] + CanonItems(parent, xs[1..], o)
  }

  function CanonEntries(parent: Value, es: seq<Entry>, o: Options): seq<Entry>
    requires forall i | 0 <= i < |es| :: es[i].val < parent
    decreases parent, 0, |es|
  {
    if es == [] then []
    else if Skipped(es[0].val) then CanonEntries(parent, es[1..], o)
    else [Entry(es[0].key, Canon(es[0].val, o))] + CanonEntries(parent, es[1..], o)
  }

  /** The text written for `v`, or nothing when the writer throws. */
  function Written(v: Value, deep: nat, o: Options): Text {
    var r := Emit(v, deep, o);
    if r.Ok? then r.value else []
  }

  /** The text written for the elements `xs` of `parent`, or nothing when the writer throws. */
  function ItemsWritten(parent: Value, xs: seq<Value>, deep: nat, o: Options, first: bool): Text
    requires forall i | 0 <= i < |xs| :: xs[i] < parent
  {
    var r := EmitItems(parent, xs, deep, o, first);
    if r.Ok? then r.value else []
  }

  /** The text written for the properties `es` of `parent`, or nothing when the writer throws. */
  function EntriesWritten(parent: Value, es: seq<Entry>, deep: nat, o: Options, first: bool): Text
    requires forall i | 0 <= i < |es| :: es[i].val < parent
  {
    var r := EmitEntries(parent, es, deep, o, first);
    if r.Ok? then r.value else []
  }

  /** A blank line break: `white()` passes over it. */
  lemma NewlineBlank(o: Options, deep: nat)
    requires BlankIndent(o)
    ensures AllBlank(Newline(o, deep))
  {
    match o.indent
    case None =>
    case Some(unit) =>
      if unit != [] {
        RepeatBlank(unit, deep);
      }
  }

  lemma {:induction false} RepeatBlank(unit: Text, n: nat)
    requires AllBlank(unit)
    ensures AllBlank(Repeat(unit, n))
  {
    if n > 0 {
      RepeatBlank(unit, n - 1);
      var r := Repeat(unit, n);
      assert r == unit + Repeat(unit, n - 1);
      forall i | 0 <= i < |r|
        ensures r[i] <= SPACE
      {
        if i >= |unit| {
          assert r[i] == Repeat(unit, n - 1)[i - |unit|];
        }
      }
    }
  }

  /** The characters that may follow a value also end a numeral, and name no kind. */
  lemma FollowerEnds(c: Cur)
    requires Follower(c)
    ensures EndsNumeral(c) && !IsTypedNumberSuffix(c)
  {
  }

  /** An Int without a fraction is written as plain digits, with no point and no exponent. */
  lemma IntNoPoint(d: Decimal)
    requires Canonical(d) && InRange(d, Int) && d.exp >= 0
    ensures !Render(d).dot && Render(d).exp == NoExp
  {
    if d.coef != 0 {
      assert Units(d, 0) == SignOf(d.neg) * (d.coef * Nat10(d.exp));
      IntegerLeadExponent(d);
      IntegerRendersPlain(d);
    }
  }

  /** `toString` starts with `-` or a digit. */
  lemma RenderStart(d: Decimal)
    requires Canonical(d)
    ensures |Render(d).intDigits| > 0
    ensures var t := NumeralText(Render(d));
      |t| > 0 && (t[0] == MINUS || IsDigit(t[0]))
  {
    RenderRoundTrip(d);
    var r := Render(d);
    if d.coef != 0 {
      var ds := NatDigits(d.coef);
      var e := LeadExponent(d);
      assert |r.intDigits| > 0 by {
        if e <= -7 || e >= 21 {
        } else if e < 0 {
        } else if e + 1 >= |ds| {
        } else {
          assert |ds[..e + 1]| == e + 1;
        }
      }
    }
    var t := NumeralText(r);
    if !r.neg {
      assert t[0] == r.intDigits[0];
    }
  }

  /** The character after the numeral names the kind the number was written with. */
  lemma SuffixAfter(text: Text, end: nat, dot: bool, k: Kind)
    requires k == Int ==> !dot
    requires Occurs(text, end, Suffix(k))
    requires Follower(Peek(text, end + |Suffix(k)|))
    ensures EndsNumeral(Peek(text, end))
    ensures KindForSuffix(Peek(text, end), dot) == k
    ensures IsTypedNumberSuffix(Peek(text, end)) <==> k != Int
  {
    SuffixReadsBack(k);
    if k == Int {
      FollowerEnds(Peek(text, end));
    } else {
      OccursPeek(text, end, Suffix(k), 0);
    }
  }

  /** A numeral and a suffix, written one after the other, scan back apart. */
  lemma NumeralAndSuffix(text: Text, at: nat, r: Numeral, k: Kind, end: nat)
    requires WellFormedNumeral(r) && |r.intDigits| > 0
    requires k == Int ==> !r.dot
    requires Occurs(text, at, NumeralText(r) + Suffix(k)) && end == at + |NumeralText(r)|
    requires Follower(Peek(text, end + |Suffix(k)|))
    ensures ScanNumeral(text, at) == Scan(r, end)
    ensures KindForSuffix(Peek(text, end), r.dot) == k
    ensures IsTypedNumberSuffix(Peek(text, end)) <==> k != Int
  {
    OccursSplit(text, at, NumeralText(r), Suffix(k));
    SuffixAfter(text, end, r.dot, k);
    ScanNumeralOver(text, at, r);
  }

  /** `number()` reads back what `toJSON` wrote, suffix included. */
  lemma NumberRoundTrip(text: Text, at: nat, n: TypedNumber)
    requires NumberWellFormed(n)
    requires Occurs(text, at, ToJSON(n))
    requires Follower(Peek(text, at + |ToJSON(n)|))
    ensures Peek(text, at) == At(MINUS) || IsDigitAt(Peek(text, at))
    ensures ParseNumber(text, at) == Parsed(Number(n), at + |ToJSON(n)|)
  {
    RenderRoundTrip(n.value);
    RenderStart(n.value);
    if n.kind == Int {
      IntNoPoint(n.value);
    }
    NumberFrom(text, at, n, Render(n.value));
  }

  /** The same, for any numeral that denotes the number and starts like `toString`'s. */
  lemma NumberFrom(text: Text, at: nat, n: TypedNumber, r: Numeral)
    requires WellFormedNumeral(r) && IsNumeric(r) && NumeralDecimal(r) == Some(n.value)
    requires |r.intDigits| > 0 && (n.kind == Int ==> !r.dot)
    requires InRange(n.value, n.kind)
    requires Occurs(text, at, NumeralText(r) + Suffix(n.kind))
    requires Follower(Peek(text, at + |NumeralText(r)| + |Suffix(n.kind)|))
    ensures Peek(text, at) == At(MINUS) || IsDigitAt(Peek(text, at))
    ensures ParseNumber(text, at) == Parsed(Number(n), at + |NumeralText(r)| + |Suffix(n.kind)|)
  {
    var t := NumeralText(r);
    NumeralAndSuffix(text, at, r, n.kind, at + |t|);
    assert t[0] == MINUS || IsDigit(t[0]) by {
      if !r.neg {
        assert t[0] == r.intDigits[0];
      }
    }
    OccursPeek(text, at, t + Suffix(n.kind), 0);
    NumberIs(text, at, n, r, at + |t|);
  }

  lemma NumberIs(text: Text, at: nat, n: TypedNumber, r: Numeral, end: nat)
    requires 1 <= at <= |text| && (Peek(text, at) == At(MINUS) || IsDigitAt(Peek(text, at)))
    requires WellFormedNumeral(r) && IsNumeric(r) && NumeralDecimal(r) == Some(n.value)
    requires InRange(n.value, n.kind)
    requires ScanNumeral(text, at) == Scan(r, end)
    requires KindForSuffix(Peek(text, end), r.dot) == n.kind
    requires IsTypedNumberSuffix(Peek(text, end)) <==> n.kind != Int
    ensures ParseNumber(text, at) == Parsed(Number(n), end + |Suffix(n.kind)|)
  {
    SuffixReadsBack(n.kind);
  }

  /** Under the byte flag a boolean is written exactly as the byte 1 or 0. */
  lemma ByteFlagIsByte(b: bool, o: Options)
    requires o.useByteFlag
    ensures BoolText(b, o) == ToJSON(ByteOf(b))
    ensures NumberWellFormed(ByteOf(b))
  {
    var d := ByteOf(b).value;
    if b {
      assert NatDigits(1) == [DigitUnit(1)];
      assert Render(d) == Numeral(false, [DigitUnit(1)] + Zeros(0), false, [], NoExp);
    }
    assert Units(d, 0) == if b then 1 else 0;
  }

  /** `true` and `false` read back as themselves. */
  lemma WordRoundTrip(text: Text, at: nat, b: bool, o: Options)
    requires !o.useByteFlag
    requires Occurs(text, at, BoolText(b, o))
    ensures Dispatch(text, at) == Parsed(Bool(b), at + |BoolText(b, o)|)
  {
    OccursPeek(text, at, BoolText(b, o), 0);
  }

  /** A string without control characters other than line breaks reads back. */
  lemma StringRoundTrip(text: Text, at: nat, s: Text)
    requires PlainString(s)
    requires Occurs(text, at, Quote(s))
    ensures Dispatch(text, at) == Parsed(Str(s), at + |Quote(s)|)
  {
    StringOver(text, at, s);
  }

  /** The first character of the text written for a value. */
  predicate Opens(e: Text, v: Value, o: Options) {
    |e| > 0 && Starts(At(e[0]), v, o)
  }

  /**
   * A character that may begin the text written for `v`: not blank, closing
   * nothing, and the letter of a kind only for `false` written as a word.
   */
  predicate Starts(c: Cur, v: Value, o: Options) {
    && c.At? && !IsBlank(c) && c != At(RBRACKET) && c != At(RBRACE)
    && (IsTypedNumberSuffix(c) ==> v == Bool(false) && !o.useByteFlag)
  }

  /** A written value starts with a character that is not blank and closes nothing. */
  lemma EmitStart(v: Value, deep: nat, o: Options)
    requires WellFormed(v, o)
    ensures Opens(Written(v, deep, o), v, o)
  {
    if v.Number? || v.Bool? {
      ScalarStart(v, deep, o);
    } else {
      NestedStart(v, deep, o);
    }
  }

  lemma ScalarStart(v: Value, deep: nat, o: Options)
    requires WellFormed(v, o) && (v.Number? || v.Bool?)
    ensures Opens(Written(v, deep, o), v, o)
  {
    if v.Number? {
      NumberStart(v.n, v, o);
      assert Written(v, deep, o) == ToJSON(v.n);
    } else if o.useByteFlag {
      ByteFlagIsByte(v.b, o);
      NumberStart(ByteOf(v.b), v, o);
      assert Written(v, deep, o) == ToJSON(ByteOf(v.b));
    }
  }

  /** `toJSON` starts with `-` or a digit. */
  lemma NumberStart(n: TypedNumber, v: Value, o: Options)
    requires Canonical(n.value)
    ensures Opens(ToJSON(n), v, o)
    ensures ToJSON(n)[0] == MINUS || IsDigit(ToJSON(n)[0])
  {
    RenderStart(n.value);
    var t := NumeralText(Render(n.value));
    assert ToJSON(n)[0] == t[0];
    SuffixLetters(t[0]);
  }

  lemma NestedStart(v: Value, deep: nat, o: Options)
    requires WellFormed(v, o) && !v.Number? && !v.Bool?
    ensures Opens(Written(v, deep, o), v, o)
  {
    if v.List? || v.TypedArray? {
      ArrayWritten(v, deep, o);
    }
  }

  /** The elements of an array. */
  function Elems(v: Value): seq<Value>
    requires v.List? || v.TypedArray?
  {
    if v.List? then v.items else v.elems
  }

  /** What the writer puts between `[` and the elements: the tag of a typed array. */
  function ArrayTag(v: Value): Text
    requires v.List? || v.TypedArray?
  {
    if v.List? then [] else [Tag(v.base), SEMICOLON]
  }

  /** An array is written by `array()`. */
  lemma ArrayWritten(v: Value, deep: nat, o: Options)
    requires (v.List? || v.TypedArray?) && Writable(v)
    ensures var nl1, nl0 := Newline(o, deep + 1), Newline(o, deep);
      var body := ItemsWritten(v, Elems(v), deep + 1, o, true);
      Written(v, deep, o) == [LBRACKET] + ArrayTag(v) + nl1 + body + nl0 + [RBRACKET]
  {
    assert Emit(v, deep, o) == EmitArray(v, ArrayTag(v), Elems(v), deep, o);
  }

  /** Blank text followed by blank text is blank. */
  lemma BlankJoin(a: Text, b: Text)
    requires AllBlank(a) && AllBlank(b)
    ensures AllBlank(a + b)
  {
    forall i | 0 <= i < |a + b|
      ensures (a + b)[i] <= SPACE
    {
      if i >= |a| {
        assert (a + b)[i] == b[i - |a|];
      }
    }
  }

  /** Where the parts of an array lie: `[`, the tag, a line break, the elements, a line break, `]`. */
  lemma ArrayLayout(text: Text, at: nat, v: Value, deep: nat, o: Options)
    requires (v.List? || v.TypedArray?) && Writable(v)
    requires Occurs(text, at, Written(v, deep, o))
    ensures var tag, nl1, nl0 := ArrayTag(v), Newline(o, deep + 1), Newline(o, deep);
      var body := ItemsWritten(v, Elems(v), deep + 1, o, true);
      && Occurs(text, at, [LBRACKET] + tag)
      && Occurs(text, at + 1 + |tag|, nl1)
      && Occurs(text, at + 1 + |tag| + |nl1|, body)
      && Occurs(text, at + 1 + |tag| + |nl1| + |body|, nl0)
      && Occurs(text, at + 1 + |tag| + |nl1| + |body| + |nl0|, [RBRACKET])
      && |Written(v, deep, o)| == 1 + |tag| + |nl1| + |body| + |nl0| + 1
  {
    var nl1, nl0 := Newline(o, deep + 1), Newline(o, deep);
    var body := ItemsWritten(v, Elems(v), deep + 1, o, true);
    var open := [LBRACKET] + ArrayTag(v);
    ArrayWritten(v, deep, o);
    OccursSplit(text, at, open + nl1 + body + nl0, [RBRACKET]);
    OccursSplit(text, at, open + nl1 + body, nl0);
    OccursSplit(text, at, open + nl1, body);
    OccursSplit(text, at, open, nl1);
  }

  /** Where the parts of an array body lie: separator, first element, then the rest. */
  lemma ItemsOpen(text: Text, at: nat, parent: Value, xs: seq<Value>, deep: nat, o: Options, first: bool)
    requires |xs| > 0 && forall i | 0 <= i < |xs| :: xs[i] < parent && Writable(xs[i])
    requires Occurs(text, at, ItemsWritten(parent, xs, deep, o, first))
    ensures var sep := Separator(o, deep, first);
      var e0 := Written(xs[0], deep, o);
      var rest := ItemsWritten(parent, xs[1..], deep, o, false);
      && Occurs(text, at, sep)
      && Occurs(text, at + |sep|, e0)
      && Occurs(text, at + |sep| + |e0|, rest)
      && |ItemsWritten(parent, xs, deep, o, first)| == |sep| + |e0| + |rest|
  {
    var sep := Separator(o, deep, first);
    var e0 := Written(xs[0], deep, o);
    var rest := ItemsWritten(parent, xs[1..], deep, o, false);
    assert ItemsWritten(parent, xs, deep, o, first) == sep + e0 + rest;
    OccursSplit(text, at, sep + e0, rest);
    OccursSplit(text, at, sep, e0);
  }

  /** The separator before every element but the first: `,` and a blank line break. */
  lemma SeparatorOpen(text: Text, at: nat, o: Options, deep: nat)
    requires BlankIndent(o) && Occurs(text, at, Separator(o, deep, false))
    ensures var nl := Newline(o, deep);
      && |Separator(o, deep, false)| == 1 + |nl|
      && Occurs(text, at, [COMMA]) && Occurs(text, at + 1, nl) && AllBlank(nl)
      && Peek(text, at) == At(COMMA)
  {
    OccursSplit(text, at, [COMMA], Newline(o, deep));
    OccursPeek(text, at, [COMMA], 0);
    NewlineBlank(o, deep);
  }

  /** Blank text and then `c`: the first character is blank or is `c`. */
  lemma BlankThen(text: Text, at: nat, nl: Text, c: CodeUnit)
    requires Occurs(text, at, nl) && AllBlank(nl) && Peek(text, at + |nl|) == At(c)
    ensures Peek(text, at) == At(c) || IsBlank(Peek(text, at))
  {
    if nl != [] {
      OccursPeek(text, at, nl, 0);
    }
  }

  /** Numbers, strings and booleans read back as their canonical form. */
  lemma ScalarRoundTrip(text: Text, at: nat, v: Value, deep: nat, o: Options)
    requires (v.Number? || v.Str? || v.Bool?) && WellFormed(v, o)
    requires Occurs(text, at, Written(v, deep, o))
    requires Follower(Peek(text, at + |Written(v, deep, o)|))
    ensures Dispatch(text, at) == Parsed(Canon(v, o), at + |Written(v, deep, o)|)
  {
    match v
    case Number(n) =>
      WrittenNumberRoundTrip(text, at, n, deep, o);
    case Str(s) =>
      assert Written(v, deep, o) == Quote(s);
      StringRoundTrip(text, at, s);
    case Bool(b) =>
      if o.useByteFlag {
        WrittenByteRoundTrip(text, at, b, deep, o);
      } else {
        assert Written(v, deep, o) == BoolText(b, o);
        WordRoundTrip(text, at, b, o);
      }
  }

  /** A number is written by `toJSON` and read by `number()`. */
  lemma WrittenNumberRoundTrip(text: Text, at: nat, n: TypedNumber, deep: nat, o: Options)
    requires NumberWellFormed(n)
    requires Occurs(text, at, Written(Number(n), deep, o))
    requires Follower(Peek(text, at + |Written(Number(n), deep, o)|))
    ensures Dispatch(text, at) == Parsed(Number(n), at + |Written(Number(n), deep, o)|)
  {
    assert Written(Number(n), deep, o) == ToJSON(n);
    NumberRoundTrip(text, at, n);
    DispatchNumber(text, at);
  }

  /** Under the byte flag a boolean is written as a byte and read back as one. */
  lemma WrittenByteRoundTrip(text: Text, at: nat, b: bool, deep: nat, o: Options)
    requires o.useByteFlag
    requires Occurs(text, at, Written(Bool(b), deep, o))
    requires Follower(Peek(text, at + |Written(Bool(b), deep, o)|))
    ensures Dispatch(text, at) == Parsed(Number(ByteOf(b)), at + |Written(Bool(b), deep, o)|)
  {
    ByteFlagIsByte(b, o);
    assert Written(Bool(b), deep, o) == ToJSON(ByteOf(b));
    NumberRoundTrip(text, at, ByteOf(b));
    DispatchNumber(text, at);
  }

  /**
   * The text written for a well-formed value reads back as its canonical
   * form, and the reader stops right after it, whenever what follows is
   * what the writer itself may put after a value.
   */
  lemma ValueRoundTrip(text: Text, at: nat, v: Value, deep: nat, o: Options)
    requires WellFormed(v, o) && BlankIndent(o)
    requires Occurs(text, at, Written(v, deep, o))
    requires Follower(Peek(text, at + |Written(v, deep, o)|))
    ensures at <= |text| + 1 && Reads(text, at, Canon(v, o), at + |Written(v, deep, o)|)
    decreases v, 5
  {
    var e := Written(v, deep, o);
    ValueDispatch(text, at, v, deep, o);
    EmitStart(v, deep, o);
    OccursPeek(text, at, e, 0);
    ValueAt(text, at, Canon(v, o), at + |e|);
  }

  /** The reader's dispatch on the first character reads a written value back. */
  lemma ValueDispatch(text: Text, at: nat, v: Value, deep: nat, o: Options)
    requires WellFormed(v, o) && BlankIndent(o)
    requires Occurs(text, at, Written(v, deep, o))
    requires Follower(Peek(text, at + |Written(v, deep, o)|))
    ensures Dispatch(text, at) == Parsed(Canon(v, o), at + |Written(v, deep, o)|)
    decreases v, 4
  {
    if v.List? {
      ListRoundTrip(text, at, v, deep, o);
    } else if v.TypedArray? {
      TypedRoundTrip(text, at, v, deep, o);
    } else if v.Compound? {
      ObjectRoundTrip(text, at, v, deep, o);
    } else {
      ScalarRoundTrip(text, at, v, deep, o);
    }
  }

  /**
   * Where the parts of a written array lie for the reader: the opening, a
   * blank line break, the elements laid out as the element loop reads them,
   * and a blank line break before `]`.
   */
  lemma {:induction false} ArrayBody(text: Text, at: nat, v: Value, deep: nat, o: Options, a: nat, end: nat)
    requires (v.List? || v.TypedArray?) && WellFormed(v, o) && BlankIndent(o)
    requires Occurs(text, at, Written(v, deep, o))
    requires a == at + 1 + |ArrayTag(v)| + |Newline(o, deep + 1)| && end == at + |Written(v, deep, o)|
    ensures Occurs(text, at, [LBRACKET] + ArrayTag(v)) && Peek(text, at) == At(LBRACKET)
    ensures Occurs(text, at + 1 + |ArrayTag(v)|, Newline(o, deep + 1))
    ensures AllBlank(Newline(o, deep + 1)) && AllBlank(Newline(o, deep))
    ensures ElementsLaid(text, a, CanonItems(v, Elems(v), o), Newline(o, deep + 1), Newline(o, deep), end)
    ensures Starts(Peek(text, a), Elems(v)[0], o)
    decreases v, 1
  {
    ArrayLayout(text, at, v, deep, o);
    var body := ItemsWritten(v, Elems(v), deep + 1, o, true);
    NewlineBlank(o, deep + 1);
    NewlineBlank(o, deep);
    ArrayItemsLaid(text, v, deep, o, a, a + |body|, end);
    OccursPeek(text, at, [LBRACKET] + ArrayTag(v), 0);
  }

  /** The elements of a written array, followed by a blank line break and `]`, as the element loop reads them. */
  lemma ArrayItemsLaid(text: Text, v: Value, deep: nat, o: Options, a: nat, stop: nat, end: nat)
    requires (v.List? || v.TypedArray?) && WellFormed(v, o) && BlankIndent(o)
    requires Occurs(text, a, ItemsWritten(v, Elems(v), deep + 1, o, true))
    requires stop == a + |ItemsWritten(v, Elems(v), deep + 1, o, true)|
    requires Occurs(text, stop, Newline(o, deep)) && Occurs(text, stop + |Newline(o, deep)|, [RBRACKET])
    requires end == stop + |Newline(o, deep)| + 1
    ensures ElementsLaid(text, a, CanonItems(v, Elems(v), o), Newline(o, deep + 1), Newline(o, deep), end)
    ensures Starts(Peek(text, a), Elems(v)[0], o)
    decreases v, 0, |Elems(v)|, 2
  {
    var nl0 := Newline(o, deep);
    ElemsWellFormed(v, o);
    NewlineBlank(o, deep);
    OccursPeek(text, stop + |nl0|, [RBRACKET], 0);
    assert a + |Separator(o, deep + 1, true)| == a;
    ItemsLaid(text, a, v, Elems(v), deep + 1, o, true, a, stop, nl0, end);
  }

  /** A plain array: `[`, its elements, `]`. */
  lemma {:induction false} ListRoundTrip(text: Text, at: nat, v: Value, deep: nat, o: Options)
    requires v.List? && WellFormed(v, o) && BlankIndent(o)
    requires Occurs(text, at, Written(v, deep, o))
    ensures Dispatch(text, at) == Parsed(Canon(v, o), at + |Written(v, deep, o)|)
    decreases v, 2
  {
    var nl1 := Newline(o, deep + 1);
    var a := at + 1 + |nl1|;
    ArrayBody(text, at, v, deep, o, a, at + |Written(v, deep, o)|);
    ArrayLaid(text, at, nl1, CanonItems(v, v.items, o), nl1, Newline(o, deep), at + |Written(v, deep, o)|);
  }

  /** A typed array: `[`, the kind's letter and `;`, its numbers, `]`. */
  lemma {:induction false} TypedRoundTrip(text: Text, at: nat, v: Value, deep: nat, o: Options)
    requires v.TypedArray? && WellFormed(v, o) && BlankIndent(o)
    requires Occurs(text, at, Written(v, deep, o))
    ensures Dispatch(text, at) == Parsed(Canon(v, o), at + |Written(v, deep, o)|)
    decreases v, 2
  {
    var xs := v.elems;
    var nl1 := Newline(o, deep + 1);
    var a := at + 3 + |nl1|;
    ArrayBody(text, at, v, deep, o, a, at + |Written(v, deep, o)|);
    assert [LBRACKET] + ArrayTag(v) == [LBRACKET, Tag(v.base), SEMICOLON];
    CanonNumbers(v, xs, v.base, o);
    TypedArrayLaid(text, at, v.base, nl1, xs, nl1, Newline(o, deep), at + |Written(v, deep, o)|);
  }

  /** The elements of a well-formed array are well-formed. */
  lemma ElemsWellFormed(v: Value, o: Options)
    requires (v.List? || v.TypedArray?) && WellFormed(v, o)
    ensures ItemsWellFormed(v, Elems(v), o)
  {
  }

  /** The elements of a typed array are numbers, which are their own canonical form. */
  lemma {:induction false} CanonNumbers(parent: Value, xs: seq<Value>, k: Kind, o: Options)
    requires forall i | 0 <= i < |xs| :: xs[i] < parent && IsInstance(xs[i], k)
    ensures CanonItems(parent, xs, o) == xs
    decreases |xs|
  {
    if xs != [] {
      CanonNumbers(parent, xs[1..], k, o);
    }
  }

  /** After the first element, a separator: `,` and a blank line break. */
  lemma ItemsSep(text: Text, at: nat, parent: Value, xs: seq<Value>, deep: nat, o: Options)
    requires |xs| > 0 && forall i | 0 <= i < |xs| :: xs[i] < parent && Writable(xs[i])
    requires BlankIndent(o) && Occurs(text, at, ItemsWritten(parent, xs, deep, o, false))
    ensures var gap := Newline(o, deep);
      && Peek(text, at) == At(COMMA) && Occurs(text, at + 1, gap) && AllBlank(gap)
      && |Separator(o, deep, false)| == 1 + |gap|
  {
    ItemsOpen(text, at, parent, xs, deep, o, false);
    SeparatorOpen(text, at, o, deep);
  }

  /** What follows an element is a separator or what followed the whole run. */
  lemma ItemsFollow(text: Text, at: nat, parent: Value, xs: seq<Value>, deep: nat, o: Options)
    requires forall i | 0 <= i < |xs| :: xs[i] < parent && Writable(xs[i])
    requires BlankIndent(o) && Occurs(text, at, ItemsWritten(parent, xs, deep, o, false))
    requires Follower(Peek(text, at + |ItemsWritten(parent, xs, deep, o, false)|))
    ensures Follower(Peek(text, at))
  {
    if xs != [] {
      ItemsSep(text, at, parent, xs, deep, o);
    }
  }

  /**
   * The first element of a run reads back as its canonical form right where
   * it was written, and the rest of the run follows it.
   */
  lemma {:induction false} ItemHead(text: Text, at: nat, parent: Value, xs: seq<Value>, deep: nat, o: Options, first: bool, s: nat) returns (a1: nat)
    requires |xs| > 0 && forall i | 0 <= i < |xs| :: xs[i] < parent
    requires ItemsWellFormed(parent, xs, o) && BlankIndent(o)
    requires Occurs(text, at, ItemsWritten(parent, xs, deep, o, first))
    requires Follower(Peek(text, at + |ItemsWritten(parent, xs, deep, o, first)|))
    requires s == at + |Separator(o, deep, first)|
    ensures 1 <= s <= |text| + 1 && !IsBlank(Peek(text, s)) && Starts(Peek(text, s), xs[0], o)
    ensures Reads(text, s, Canon(xs[0], o), a1)
    ensures var rest := ItemsWritten(parent, xs[1..], deep, o, false);
      Occurs(text, a1, rest) && a1 + |rest| == at + |ItemsWritten(parent, xs, deep, o, first)|
    decreases parent, 0, |xs|, 0
  {
    var e0 := Written(xs[0], deep, o);
    ItemsOpen(text, at, parent, xs, deep, o, first);
    a1 := s + |e0|;
    EmitStart(xs[0], deep, o);
    OccursPeek(text, s, e0, 0);
    ItemsFollow(text, a1, parent, xs[1..], deep, o);
    ValueRoundTrip(text, s, xs[0], deep, o);
  }

  /** Dropping the first element keeps the rest well-formed. */
  lemma ItemsWellFormedTail(parent: Value, xs: seq<Value>, o: Options)
    requires |xs| > 0 && forall i | 0 <= i < |xs| :: xs[i] < parent
    requires ItemsWellFormed(parent, xs, o)
    ensures ItemsWellFormed(parent, xs[1..], o)
  {
    assert forall i | 0 <= i < |xs[1..]| :: xs[1..][i] == xs[i + 1];
  }

  /**
   * The text written for a run of elements lies out as the element loop
   * reads it: each element reads back as its canonical form right where it
   * was written, and `,` and a line break follow every one but the last.
   * The run stops at `stop`, where blanks and `]` follow.
   */
  lemma {:induction false} ItemsLaid(text: Text, at: nat, parent: Value, xs: seq<Value>, deep: nat, o: Options, first: bool, s: nat, stop: nat, nl: Text, end: nat)
    requires |xs| > 0 && forall i | 0 <= i < |xs| :: xs[i] < parent
    requires ItemsWellFormed(parent, xs, o) && BlankIndent(o)
    requires Occurs(text, at, ItemsWritten(parent, xs, deep, o, first))
    requires s == at + |Separator(o, deep, first)|
    requires at + |ItemsWritten(parent, xs, deep, o, first)| == stop
    requires Occurs(text, stop, nl) && AllBlank(nl) && Peek(text, stop + |nl|) == At(RBRACKET) && end == stop + |nl| + 1
    ensures ElementsLaid(text, s, CanonItems(parent, xs, o), Newline(o, deep), nl, end)
    ensures Starts(Peek(text, s), xs[0], o)
    decreases parent, 0, |xs|, 1
  {
    var gap := Newline(o, deep);
    var c0 := Canon(xs[0], o);
    BlankThen(text, stop, nl, RBRACKET);
    var a1 := ItemHead(text, at, parent, xs, deep, o, first, s);
    assert CanonItems(parent, xs, o) == [c0] + CanonItems(parent, xs[1..], o);
    if |xs| == 1 {
      assert CanonItems(parent, xs, o) == [c0];
      ElementsLaidOne(text, s, c0, a1, gap, nl);
    } else {
      var next := a1 + |Separator(o, deep, false)|;
      ItemsSep(text, a1, parent, xs[1..], deep, o);
      ItemsWellFormedTail(parent, xs, o);
      ItemsLaid(text, a1, parent, xs[1..], deep, o, false, next, stop, nl, end);
      ElementsLaidCons(text, s, c0, a1, next, CanonItems(parent, xs[1..], o), gap, nl, end);
    }
  }

  /** Where the parts of an object lie: `{`, a line break, the properties, a line break, `}`. */
  lemma ObjectLayout(text: Text, at: nat, v: Value, deep: nat, o: Options)
    requires v.Compound? && Writable(v)
    requires Occurs(text, at, Written(v, deep, o))
    ensures var nl1, nl0 := Newline(o, deep + 1), Newline(o, deep);
      var body := EntriesWritten(v, v.entries, deep + 1, o, true);
      && Peek(text, at) == At(LBRACE)
      && Occurs(text, at + 1, nl1)
      && Occurs(text, at + 1 + |nl1|, body)
      && Occurs(text, at + 1 + |nl1| + |body|, nl0)
      && Peek(text, at + 1 + |nl1| + |body| + |nl0|) == At(RBRACE)
      && |Written(v, deep, o)| == 1 + |nl1| + |body| + |nl0| + 1
  {
    var nl1, nl0 := Newline(o, deep + 1), Newline(o, deep);
    var body := EntriesWritten(v, v.entries, deep + 1, o, true);
    assert Written(v, deep, o) == [LBRACE] + nl1 + body + nl0 + [RBRACE];
    OccursSplit(text, at, [LBRACE] + nl1 + body + nl0, [RBRACE]);
    OccursSplit(text, at, [LBRACE] + nl1 + body, nl0);
    OccursSplit(text, at, [LBRACE] + nl1, body);
    OccursSplit(text, at, [LBRACE], nl1);
    OccursPeek(text, at, [LBRACE], 0);
    OccursPeek(text, at + 1 + |nl1| + |body| + |nl0|, [RBRACE], 0);
  }

  /** Where the parts of a property lie: separator, key, `:`, value, then the rest. */
  lemma EntriesOpen(text: Text, at: nat, parent: Value, es: seq<Entry>, deep: nat, o: Options, first: bool)
    requires |es| > 0 && !Skipped(es[0].val)
    requires forall i | 0 <= i < |es| :: es[i].val < parent && (Skipped(es[i].val) || Writable(es[i].val))
    requires Occurs(text, at, EntriesWritten(parent, es, deep, o, first))
    ensures var sep, k := Separator(o, deep, first), es[0].key;
      var t := Written(es[0].val, deep, o);
      var rest := EntriesWritten(parent, es[1..], deep, o, false);
      && Occurs(text, at, sep)
      && Occurs(text, at + |sep|, k + [COLON])
      && Occurs(text, at + |sep| + |k| + 1, t)
      && Occurs(text, at + |sep| + |k| + 1 + |t|, rest)
      && |EntriesWritten(parent, es, deep, o, first)| == |sep| + |k| + 1 + |t| + |rest|
  {
    var sep, k := Separator(o, deep, first), es[0].key;
    var t := Written(es[0].val, deep, o);
    var rest := EntriesWritten(parent, es[1..], deep, o, false);
    EntriesWrittenCons(parent, es, deep, o, first);
    OccursProperty(text, at, sep, k, t, rest);
  }

  /** A written property is its separator, key, `:` and value, followed by the rest of the run. */
  lemma EntriesWrittenCons(parent: Value, es: seq<Entry>, deep: nat, o: Options, first: bool)
    requires |es| > 0 && !Skipped(es[0].val)
    requires forall i | 0 <= i < |es| :: es[i].val < parent && (Skipped(es[i].val) || Writable(es[i].val))
    ensures EntriesWritten(parent, es, deep, o, first)
      == Separator(o, deep, first) + es[0].key + [COLON] + Written(es[0].val, deep, o) + EntriesWritten(parent, es[1..], deep, o, false)
  {
    var t := Emit(es[0].val, deep, o);
    var rest := EmitEntries(parent, es[1..], deep, o, false);
    assert t.Ok? && rest.Ok?;
    assert EmitEntries(parent, es, deep, o, first) == Ok(Separator(o, deep, first) + es[0].key + [COLON] + t.value + rest.value);
  }

  /** The pieces of a separator, key, `:`, value and rest lie one after another. */
  lemma OccursProperty(text: Text, at: nat, sep: Text, k: Text, t: Text, rest: Text)
    requires Occurs(text, at, sep + k + [COLON] + t + rest)
    ensures Occurs(text, at, sep) && Occurs(text, at + |sep|, k + [COLON])
    ensures Occurs(text, at + |sep| + |k| + 1, t) && Occurs(text, at + |sep| + |k| + 1 + |t|, rest)
  {
    OccursSplit(text, at, sep + k + [COLON] + t, rest);
    OccursSplit(text, at, sep + k + [COLON], t);
    OccursSplit(text, at, sep + k, [COLON]);
    OccursSplit(text, at, sep, k);
    OccursSplit(text, at + |sep|, k, [COLON]);
  }

  /** A key followed by `:`. */
  lemma KeyColon(text: Text, at: nat, k: Text)
    requires Occurs(text, at, k + [COLON])
    ensures Occurs(text, at, k) && Peek(text, at + |k|) == At(COLON)
  {
    OccursSplit(text, at, k, [COLON]);
    OccursPeek(text, at + |k|, [COLON], 0);
  }

  /** When every property is skipped, nothing is written. */
  lemma {:induction false} NoneWritten(parent: Value, es: seq<Entry>, deep: nat, o: Options, first: bool)
    requires forall i | 0 <= i < |es| :: es[i].val < parent
    requires CanonEntries(parent, es, o) == []
    ensures EntriesWritten(parent, es, deep, o, first) == []
    decreases |es|
  {
    if es != [] {
      NoneWritten(parent, es[1..], deep, o, first);
    }
  }

  /** Leaving skipped properties out never brings a key in. */
  lemma {:induction false} CanonKeyAbsent(parent: Value, es: seq<Entry>, o: Options, k: Text)
    requires forall i | 0 <= i < |es| :: es[i].val < parent && es[i].key != k
    ensures forall i | 0 <= i < |CanonEntries(parent, es, o)| :: CanonEntries(parent, es, o)[i].key != k
    decreases |es|
  {
    if es != [] {
      CanonKeyAbsent(parent, es[1..], o, k);
    }
  }

  /** The properties the reader gets back have distinct keys when the written object's do. */
  lemma {:induction false} CanonUnique(parent: Value, es: seq<Entry>, o: Options)
    requires forall i | 0 <= i < |es| :: es[i].val < parent
    requires UniqueKeys(es)
    ensures UniqueKeys(CanonEntries(parent, es, o))
    decreases |es|
  {
    if es != [] {
      CanonUnique(parent, es[1..], o);
      if !Skipped(es[0].val) {
        forall i | 0 <= i < |es[1..]|
          ensures es[1..][i].key != es[0].key
        {
          assert es[1..][i] == es[i + 1];
        }
        CanonKeyAbsent(parent, es[1..], o, es[0].key);
        var c := CanonEntries(parent, es[1..], o);
        var r := CanonEntries(parent, es, o);
        assert r == [Entry(es[0].key, Canon(es[0].val, o))] + c;
        forall i, j | 0 <= i < j < |r|
          ensures r[i].key != r[j].key
        {
          assert r[j] == c[j - 1];
          if i > 0 {
            assert r[i] == c[i - 1];
          }
        }
      }
    }
  }

  /** The properties of a well-formed object are well-formed, and their keys distinct. */
  lemma EntriesOf(v: Value, o: Options)
    requires v.Compound? && WellFormed(v, o)
    ensures EntriesWellFormed(v, v.entries, o) && UniqueKeys(v.entries)
  {
  }

  /** Dropping properties from the front keeps the rest well-formed. */
  lemma EntriesWellFormedDrop(parent: Value, es: seq<Entry>, o: Options, j: nat)
    requires j <= |es| && forall i | 0 <= i < |es| :: es[i].val < parent
    requires EntriesWellFormed(parent, es, o)
    ensures EntriesWellFormed(parent, es[j..], o)
  {
    assert forall i | 0 <= i < |es[j..]| :: es[j..][i] == es[i + j];
  }

  /** An object: `{`, its written properties, `}`. */
  lemma {:induction false} ObjectRoundTrip(text: Text, at: nat, v: Value, deep: nat, o: Options)
    requires v.Compound? && WellFormed(v, o) && BlankIndent(o)
    requires Occurs(text, at, Written(v, deep, o))
    ensures Dispatch(text, at) == Parsed(Canon(v, o), at + |Written(v, deep, o)|)
    decreases v, 3
  {
    EntriesOf(v, o);
    if CanonEntries(v, v.entries, o) == [] {
      NoneWritten(v, v.entries, deep + 1, o, true);
      ObjectNone(text, at, v, deep, o);
    } else {
      ObjectSome(text, at, v, deep, o);
    }
  }

  /** An object none of whose properties is written: `{`, blank line breaks, `}`. */
  lemma ObjectNone(text: Text, at: nat, v: Value, deep: nat, o: Options)
    requires v.Compound? && Writable(v) && BlankIndent(o)
    requires Occurs(text, at, Written(v, deep, o))
    requires EntriesWritten(v, v.entries, deep + 1, o, true) == []
    ensures Dispatch(text, at) == Parsed(Compound([]), at + |Written(v, deep, o)|)
  {
    ObjectLayout(text, at, v, deep, o);
    var nl1, nl0 := Newline(o, deep + 1), Newline(o, deep);
    NewlineBlank(o, deep + 1);
    NewlineBlank(o, deep);
    EmptyObjectRead(text, at, nl1, nl0);
  }

  /** An object some of whose properties are written. */
  lemma {:induction false} ObjectSome(text: Text, at: nat, v: Value, deep: nat, o: Options)
    requires v.Compound? && Writable(v) && BlankIndent(o)
    requires EntriesWellFormed(v, v.entries, o) && UniqueKeys(v.entries)
    requires CanonEntries(v, v.entries, o) != []
    requires Occurs(text, at, Written(v, deep, o))
    ensures Dispatch(text, at) == Parsed(Compound(CanonEntries(v, v.entries, o)), at + |Written(v, deep, o)|)
    decreases v, 2
  {
    var es := v.entries;
    ObjectLayout(text, at, v, deep, o);
    var nl1, nl0 := Newline(o, deep + 1), Newline(o, deep);
    var body := EntriesWritten(v, es, deep + 1, o, true);
    var a := at + 1 + |nl1|;
    var end := at + |Written(v, deep, o)|;
    NewlineBlank(o, deep + 1);
    NewlineBlank(o, deep);
    assert a + |Separator(o, deep + 1, true)| == a;
    EntriesLaid(text, a, v, es, deep + 1, o, true, a, a + |body|, nl0, end);
    CanonUnique(v, es, o);
    ObjectLaid(text, at, nl1, CanonEntries(v, es, o), nl1, nl0, end);
  }

  /** `{`, blank line breaks, `}`: an empty object. */
  lemma EmptyObjectRead(text: Text, at: nat, nl1: Text, nl0: Text)
    requires Peek(text, at) == At(LBRACE) && Occurs(text, at + 1, nl1) && Occurs(text, at + 1 + |nl1|, nl0)
    requires AllBlank(nl1) && AllBlank(nl0) && Peek(text, at + 1 + |nl1| + |nl0|) == At(RBRACE)
    ensures Dispatch(text, at) == Parsed(Compound([]), at + 1 + |nl1| + |nl0| + 1)
  {
    OccursSplit(text, at + 1, nl1, nl0);
    BlankJoin(nl1, nl0);
    DispatchObject(text, at);
    ObjectEmpty(text, at, nl1 + nl0);
  }

  /** After a written property, a separator: `,` and a blank line break. */
  lemma EntriesSep(text: Text, at: nat, parent: Value, es: seq<Entry>, deep: nat, o: Options)
    requires |es| > 0 && !Skipped(es[0].val)
    requires forall i | 0 <= i < |es| :: es[i].val < parent && (Skipped(es[i].val) || Writable(es[i].val))
    requires BlankIndent(o) && Occurs(text, at, EntriesWritten(parent, es, deep, o, false))
    ensures var gap := Newline(o, deep);
      && Peek(text, at) == At(COMMA) && Occurs(text, at + 1, gap) && AllBlank(gap)
      && |Separator(o, deep, false)| == 1 + |gap|
  {
    EntriesOpen(text, at, parent, es, deep, o, false);
    SeparatorOpen(text, at, o, deep);
  }

  /** What follows a property's value is a separator or what followed the whole object body. */
  lemma {:induction false} EntriesFollow(text: Text, at: nat, parent: Value, es: seq<Entry>, deep: nat, o: Options)
    requires forall i | 0 <= i < |es| :: es[i].val < parent && (Skipped(es[i].val) || Writable(es[i].val))
    requires BlankIndent(o) && Occurs(text, at, EntriesWritten(parent, es, deep, o, false))
    requires Follower(Peek(text, at + |EntriesWritten(parent, es, deep, o, false)|))
    ensures Follower(Peek(text, at))
    decreases |es|
  {
    if es != [] {
      if Skipped(es[0].val) {
        EntriesFollow(text, at, parent, es[1..], deep, o);
      } else {
        EntriesSep(text, at, parent, es, deep, o);
      }
    }
  }

  /**
   * The first property of a run, which is written: its key and `:` lie where
   * they were written, and its value reads back as its canonical form right
   * after the colon, with the rest of the run after it.
   */
  lemma {:induction false} EntryHead(text: Text, at: nat, parent: Value, es: seq<Entry>, deep: nat, o: Options, first: bool, s: nat) returns (a1: nat)
    requires |es| > 0 && !Skipped(es[0].val) && forall i | 0 <= i < |es| :: es[i].val < parent
    requires EntriesWellFormed(parent, es, o) && BlankIndent(o)
    requires Occurs(text, at, EntriesWritten(parent, es, deep, o, first))
    requires Follower(Peek(text, at + |EntriesWritten(parent, es, deep, o, first)|))
    requires s == at + |Separator(o, deep, first)|
    ensures ValidKey(es[0].key) && Occurs(text, s, es[0].key) && Peek(text, s + |es[0].key|) == At(COLON)
    ensures s + |es[0].key| + 1 <= |text| + 1 && Reads(text, s + |es[0].key| + 1, Canon(es[0].val, o), a1)
    ensures var rest := EntriesWritten(parent, es[1..], deep, o, false);
      Occurs(text, a1, rest) && a1 + |rest| == at + |EntriesWritten(parent, es, deep, o, first)|
    decreases parent, 0, |es|, 0
  {
    var k, x := es[0].key, es[0].val;
    var t := Written(x, deep, o);
    EntriesOpen(text, at, parent, es, deep, o, first);
    a1 := s + |k| + 1 + |t|;
    EntriesFollow(text, a1, parent, es[1..], deep, o);
    KeyColon(text, s, k);
    ValueRoundTrip(text, s + |k| + 1, x, deep, o);
  }


  /**
   * The text written for a run of properties lies out as the member loop
   * reads it: each written key with `:`, its value read back as its
   * canonical form right after the colon, and `,` and a line break after
   * every one but the last. Skipped properties leave no trace. The run
   * stops at `stop`, where blanks and `}` follow.
   */
  lemma {:induction false} EntriesLaid(text: Text, at: nat, parent: Value, es: seq<Entry>, deep: nat, o: Options, first: bool, s: nat, stop: nat, nl: Text, end: nat)
    requires (forall i | 0 <= i < |es| :: es[i].val < parent) && CanonEntries(parent, es, o) != []
    requires EntriesWellFormed(parent, es, o) && BlankIndent(o)
    requires Occurs(text, at, EntriesWritten(parent, es, deep, o, first))
    requires s == at + |Separator(o, deep, first)|
    requires at + |EntriesWritten(parent, es, deep, o, first)| == stop
    requires Occurs(text, stop, nl) && AllBlank(nl) && Peek(text, stop + |nl|) == At(RBRACE) && end == stop + |nl| + 1
    ensures MembersLaid(text, s, CanonEntries(parent, es, o), Newline(o, deep), nl, end)
    decreases parent, 0, |es|, 2
  {
    if Skipped(es[0].val) {
      assert EntriesWritten(parent, es, deep, o, first) == EntriesWritten(parent, es[1..], deep, o, first);
      EntriesWellFormedDrop(parent, es, o, 1);
      EntriesLaid(text, at, parent, es[1..], deep, o, first, s, stop, nl, end);
    } else {
      EntryLaid(text, at, parent, es, deep, o, first, s, stop, nl, end);
    }
  }

  /** The same, when the first property of the run is written. */
  lemma {:induction false} EntryLaid(text: Text, at: nat, parent: Value, es: seq<Entry>, deep: nat, o: Options, first: bool, s: nat, stop: nat, nl: Text, end: nat)
    requires |es| > 0 && !Skipped(es[0].val) && forall i | 0 <= i < |es| :: es[i].val < parent
    requires EntriesWellFormed(parent, es, o) && BlankIndent(o)
    requires Occurs(text, at, EntriesWritten(parent, es, deep, o, first))
    requires s == at + |Separator(o, deep, first)|
    requires at + |EntriesWritten(parent, es, deep, o, first)| == stop
    requires Occurs(text, stop, nl) && AllBlank(nl) && Peek(text, stop + |nl|) == At(RBRACE) && end == stop + |nl| + 1
    ensures MembersLaid(text, s, CanonEntries(parent, es, o), Newline(o, deep), nl, end)
    decreases parent, 0, |es|, 1
  {
    var gap := Newline(o, deep);
    var k, c0 := es[0].key, Canon(es[0].val, o);
    BlankThen(text, stop, nl, RBRACE);
    var a1 := EntryHead(text, at, parent, es, deep, o, first, s);
    assert CanonEntries(parent, es, o) == [Entry(k, c0)] + CanonEntries(parent, es[1..], o);
    var next := a1 + 1 + |gap|;
    var r := CanonEntries(parent, es[1..], o);
    EntriesWellFormedDrop(parent, es, o, 1);
    EntriesRest(text, a1, parent, es[1..], deep, o, next, stop, nl, end);
    if r == [] {
      assert CanonEntries(parent, es, o) == [Entry(k, c0)];
      MembersLaidOne(text, s, k, c0, a1, gap, nl);
    } else {
      MembersLaidCons(text, s, k, c0, a1, next, r, gap, nl, end);
    }
  }

  /**
   * What follows a written property: nothing more before `stop` when no
   * later property is written, and otherwise `,`, a line break and the
   * later properties laid out as the member loop reads them.
   */
  lemma {:induction false} EntriesRest(text: Text, at: nat, parent: Value, es: seq<Entry>, deep: nat, o: Options, next: nat, stop: nat, nl: Text, end: nat)
    requires forall i | 0 <= i < |es| :: es[i].val < parent
    requires EntriesWellFormed(parent, es, o) && BlankIndent(o)
    requires Occurs(text, at, EntriesWritten(parent, es, deep, o, false))
    requires at + |EntriesWritten(parent, es, deep, o, false)| == stop && next == at + 1 + |Newline(o, deep)|
    requires Occurs(text, stop, nl) && AllBlank(nl) && Peek(text, stop + |nl|) == At(RBRACE) && end == stop + |nl| + 1
    ensures CanonEntries(parent, es, o) == [] ==> at == stop
    ensures CanonEntries(parent, es, o) != [] ==>
      && Peek(text, at) == At(COMMA) && Occurs(text, at + 1, Newline(o, deep))
      && MembersLaid(text, next, CanonEntries(parent, es, o), Newline(o, deep), nl, end)
    decreases parent, 0, |es|, 3
  {
    if CanonEntries(parent, es, o) == [] {
      NoneWritten(parent, es, deep, o, false);
    } else if Skipped(es[0].val) {
      assert EntriesWritten(parent, es, deep, o, false) == EntriesWritten(parent, es[1..], deep, o, false);
      EntriesWellFormedDrop(parent, es, o, 1);
      EntriesRest(text, at, parent, es[1..], deep, o, next, stop, nl, end);
    } else {
      EntriesSep(text, at, parent, es, deep, o);
      EntriesLaid(text, at, parent, es, deep, o, false, next, stop, nl, end);
    }
  }

  /**
   * `SNBT.parse(SNBT.stringify(v))` gives back `v` in canonical form, for
   * every well-formed value and line-break indent, even with more text
   * after it as long as that starts where a value may end.
   */
  lemma ParseRoundTrip(v: Value, o: Options, rest: Text)
    requires WellFormed(v, o) && BlankIndent(o)
    requires rest == [] || Follower(At(rest[0]))
    ensures Parse(Stringify(v, o).value + rest) == Ok(Canon(v, o))
  {
    var e := Stringify(v, o).value;
    var text := e + rest;
    assert Occurs(text, 1, e);
    EmitStart(v, 0, o);
    if rest != [] {
      assert Peek(text, 1 + |e|) == At(rest[0]);
    }
    ValueRoundTrip(text, 1, v, 0, o);
    ParseStart(text, Canon(v, o), 1 + |e|);
  }

  /** `parse` starts at the first character when that is not blank. */
  lemma ParseStart(text: Text, x: Value, a: nat)
    requires |text| > 0 && !IsBlank(At(text[0]))
    requires Dispatch(text, 1) == Parsed(x, a)
    ensures Parse(text) == Ok(x)
  {
    assert White(text, 1) == 1;
    assert White(text, 0) == 1;
  }
}

=== FILE: scanning.dfy ===
/**
 * The pieces of the reader run backwards: each reader, started on text that
 * a writer produced, reads back exactly what was written and stops right
 * after it.
 */
module Scanning {
  import opened Results
  import opened Texts
  import opened Decimals
  import opened Structures
  import opened Values
  import opened Parser
  import opened Serializer

  /** Every unit of `s` is a blank. */
  predicate AllBlank(s: Text) {
    forall i | 0 <= i < |s| :: s[i] <= SPACE
  }

  /** `white()` skips exactly a run of blanks that ends before a non-blank. */
  lemma {:induction false} WhiteOver(text: Text, at: nat, b: Text)
    requires Occurs(text, at, b) && AllBlank(b)
    requires !IsBlank(Peek(text, at + |b|))
    ensures White(text, at) == at + |b|
    decreases |b|
  {
    if b != [] {
      OccursPeek(text, at, b, 0);
      OccursSplit(text, at, [b[0]], b[1..]);
      assert [b[0]] + b[1..] == b;
      WhiteOver(text, at + 1, b[1..]);
    }
  }

  /** The digit loop reads exactly a run of digits that ends before a non-digit. */
  lemma {:induction false} DigitsOver(text: Text, at: nat, ds: Text)
    requires Occurs(text, at, ds) && AllDigits(ds)
    requires !IsDigitAt(Peek(text, at + |ds|))
    ensures Digits(text, at) == at + |ds|
    ensures DigitRun(text, at) == ds
    decreases |ds|
  {
    if ds != [] {
      OccursPeek(text, at, ds, 0);
      OccursSplit(text, at, [ds[0]], ds[1..]);
      assert [ds[0]] + ds[1..] == ds;
      DigitsOver(text, at + 1, ds[1..]);
    }
    OccursSpan(text, at, ds);
  }

  /** A character that cannot continue a numeral. */
  predicate EndsNumeral(c: Cur) {
    !IsDigitAt(c) && !(c.At? && (c.c == DOT || IsExpMarker(c.c) || c.c == PLUS || c.c == MINUS))
  }

  /** The sign the exponent scanner sees right after the marker. */
  lemma ExpSignOver(text: Text, at: nat, sign: ExpSign, ds: Text)
    requires AllDigits(ds)
    requires Occurs(text, at, SignText(sign) + ds)
    requires EndsNumeral(Peek(text, at + |SignText(sign)| + |ds|))
    ensures Peek(text, at) == At(MINUS) <==> sign == Minus
    ensures Peek(text, at) == At(PLUS) <==> sign == Plus
  {
    if sign != NoSign {
      OccursPeek(text, at, SignText(sign) + ds, 0);
    } else if ds != [] {
      OccursPeek(text, at, SignText(sign) + ds, 0);
      assert IsDigit((SignText(sign) + ds)[0]);
    }
  }

  lemma ScanExpMarkerOver(text: Text, at: nat, m: CodeUnit, sign: ExpSign, ds: Text)
    requires IsExpMarker(m) && AllDigits(ds)
    requires Occurs(text, at, [m] + (SignText(sign) + ds))
    requires EndsNumeral(Peek(text, at + 1 + |SignText(sign)| + |ds|))
    ensures Peek(text, at) == At(m)
    ensures ScanExp(text, at) == ExpScan(Exp(m, sign, ds), at + 1 + |SignText(sign)| + |ds|)
  {
    OccursSplit(text, at, [m], SignText(sign) + ds);
    OccursPeek(text, at, [m], 0);
    ExpSignOver(text, at + 1, sign, ds);
    OccursSplit(text, at + 1, SignText(sign), ds);
    DigitsOver(text, at + 1 + |SignText(sign)|, ds);
    ScanExpFrom(text, at, m, sign, ds);
  }

  /** The exponent scanner assembled from the marker, the sign it sees, and the digit run. */
  lemma ScanExpFrom(text: Text, at: nat, m: CodeUnit, sign: ExpSign, ds: Text)
    requires 1 <= at <= |text| && Peek(text, at) == At(m) && IsExpMarker(m)
    requires Peek(text, at + 1) == At(MINUS) <==> sign == Minus
    requires Peek(text, at + 1) == At(PLUS) <==> sign == Plus
    requires at + 1 + |SignText(sign)| <= |text| + 1
    requires DigitRun(text, at + 1 + |SignText(sign)|) == ds
    ensures ScanExp(text, at) == ExpScan(Exp(m, sign, ds), at + 1 + |SignText(sign)| + |ds|)
  {
  }

  lemma ScanExpOver(text: Text, at: nat, e: ExpPart)
    requires e.Exp? ==> IsExpMarker(e.marker) && AllDigits(e.digits)
    requires Occurs(text, at, ExpText(e))
    requires EndsNumeral(Peek(text, at + |ExpText(e)|))
    requires !IsDigitAt(Peek(text, at))
    ensures ScanExp(text, at) == ExpScan(e, at + |ExpText(e)|)
  {
    match e
    case NoExp =>
    case Exp(m, sign, ds) =>
      assert ExpText(e) == [m] + (SignText(sign) + ds);
      ScanExpMarkerOver(text, at, m, sign, ds);
  }

  /** The fraction scanner reads back a point and its digits. */
  lemma ScanFractionDot(text: Text, at: nat, frac: Text)
    requires AllDigits(frac) && Occurs(text, at, [DOT] + frac)
    requires !IsDigitAt(Peek(text, at + 1 + |frac|))
    ensures Peek(text, at) == At(DOT)
    ensures ScanFraction(text, at) == FracScan(true, frac, at + 1 + |frac|)
  {
    OccursSplit(text, at, [DOT], frac);
    OccursPeek(text, at, [DOT], 0);
    DigitsOver(text, at + 1, frac);
  }

  /** With no point at the cursor, the fraction scanner takes nothing. */
  lemma ScanFractionNone(text: Text, at: nat)
    requires 1 <= at <= |text| + 1 && !IsDigitAt(Peek(text, at)) && Peek(text, at) != At(DOT)
    ensures ScanFraction(text, at) == FracScan(false, [], at)
  {
  }

  /** The sign part of a numeral's text. */
  function SignPart(n: Numeral): Text {
    if n.neg then [MINUS] else []
  }

  /** The point-and-fraction part of a numeral's text. */
  function PointPart(n: Numeral): Text {
    if n.dot then [DOT] + n.fracDigits else []
  }

  /** A numeral's text, found in the input, is found there part by part. */
  lemma NumeralParts(text: Text, at: nat, n: Numeral)
    requires Occurs(text, at, NumeralText(n))
    ensures Occurs(text, at, SignPart(n))
    ensures Occurs(text, at + |SignPart(n)|, n.intDigits)
    ensures Occurs(text, at + |SignPart(n)| + |n.intDigits|, PointPart(n))
    ensures Occurs(text, at + |SignPart(n)| + |n.intDigits| + |PointPart(n)|, ExpText(n.exp))
    ensures |NumeralText(n)| == |SignPart(n)| + |n.intDigits| + |PointPart(n)| + |ExpText(n.exp)|
  {
    var sign, point, ex := SignPart(n), PointPart(n), ExpText(n.exp);
    assert NumeralText(n) == sign + n.intDigits + point + ex;
    OccursSplit(text, at, sign + n.intDigits + point, ex);
    OccursSplit(text, at, sign + n.intDigits, point);
    OccursSplit(text, at, sign, n.intDigits);
  }

  /** Right after the exponent's place comes its marker or the end of the numeral. */
  lemma BeforeExp(text: Text, at: nat, e: ExpPart)
    requires e.Exp? ==> IsExpMarker(e.marker)
    requires Occurs(text, at, ExpText(e))
    requires EndsNumeral(Peek(text, at + |ExpText(e)|))
    ensures !IsDigitAt(Peek(text, at))
    ensures Peek(text, at) != At(DOT)
  {
    if e.Exp? {
      OccursPeek(text, at, ExpText(e), 0);
    }
  }

  /** Right after the integer digits comes the point, the exponent marker, or the end. */
  lemma BeforePoint(text: Text, at: nat, n: Numeral)
    requires WellFormedNumeral(n)
    requires Occurs(text, at, PointPart(n))
    requires Occurs(text, at + |PointPart(n)|, ExpText(n.exp))
    requires EndsNumeral(Peek(text, at + |PointPart(n)| + |ExpText(n.exp)|))
    ensures !IsDigitAt(Peek(text, at))
    ensures !n.dot ==> Peek(text, at) != At(DOT)
  {
    if n.dot {
      OccursPeek(text, at, PointPart(n), 0);
    } else {
      BeforeExp(text, at, n.exp);
    }
  }

  /** The sign the scanner sees first is the numeral's own. */
  lemma SignOver(text: Text, at: nat, n: Numeral)
    requires WellFormedNumeral(n) && |n.intDigits| > 0
    requires Occurs(text, at, SignPart(n))
    requires Occurs(text, at + |SignPart(n)|, n.intDigits)
    ensures Peek(text, at) == At(MINUS) <==> n.neg
  {
    if n.neg {
      OccursPeek(text, at, SignPart(n), 0);
    } else {
      OccursPeek(text, at, n.intDigits, 0);
    }
  }

  /** The fraction scanner reads back a numeral's point part. */
  lemma ScanPointOver(text: Text, at: nat, n: Numeral)
    requires WellFormedNumeral(n)
    requires Occurs(text, at, PointPart(n))
    requires !IsDigitAt(Peek(text, at)) && !IsDigitAt(Peek(text, at + |PointPart(n)|))
    requires !n.dot ==> Peek(text, at) != At(DOT)
    ensures ScanFraction(text, at) == FracScan(n.dot, n.fracDigits, at + |PointPart(n)|)
  {
    if n.dot {
      assert PointPart(n) == [DOT] + n.fracDigits;
      ScanFractionDot(text, at, n.fracDigits);
    } else {
      ScanFractionNone(text, at);
    }
  }

  /** The fraction-and-exponent scanner reads back a numeral's tail. */
  lemma ScanTailOver(text: Text, at: nat, n: Numeral)
    requires WellFormedNumeral(n)
    requires Occurs(text, at, PointPart(n)) && Occurs(text, at + |PointPart(n)|, ExpText(n.exp))
    requires EndsNumeral(Peek(text, at + |PointPart(n)| + |ExpText(n.exp)|))
    ensures at <= |text| + 1 && !IsDigitAt(Peek(text, at))
    ensures ScanTail(text, at) == TailScan(n.dot, n.fracDigits, n.exp, at + |PointPart(n)| + |ExpText(n.exp)|)
  {
    var a3 := at + |PointPart(n)|;
    BeforePoint(text, at, n);
    BeforeExp(text, a3, n.exp);
    ScanPointOver(text, at, n);
    ScanExpOver(text, a3, n.exp);
    ScanTailFrom(text, at, n.dot, n.fracDigits, a3, n.exp, a3 + |ExpText(n.exp)|);
  }

  /** The tail scanner assembled from the fraction scan and the exponent scan. */
  lemma ScanTailFrom(text: Text, at: nat, dot: bool, frac: Text, a3: nat, e: ExpPart, end: nat)
    requires 1 <= at <= |text| + 1 && !IsDigitAt(Peek(text, at))
    requires ScanFraction(text, at) == FracScan(dot, frac, a3)
    requires ScanExp(text, a3) == ExpScan(e, end)
    ensures ScanTail(text, at) == TailScan(dot, frac, e, end)
  {
  }

  /**
   * The scanner of `number()` reads back any numeral with integer digits,
   * provided the character after it cannot continue it.
   */
  lemma ScanNumeralOver(text: Text, at: nat, n: Numeral)
    requires WellFormedNumeral(n) && |n.intDigits| > 0
    requires Occurs(text, at, NumeralText(n))
    requires EndsNumeral(Peek(text, at + |NumeralText(n)|))
    ensures ScanNumeral(text, at) == Scan(n, at + |NumeralText(n)|)
  {
    NumeralParts(text, at, n);
    var a1 := at + |SignPart(n)|;
    var a2 := a1 + |n.intDigits|;
    SignOver(text, at, n);
    BeforePoint(text, a2, n);
    DigitsOver(text, a1, n.intDigits);
    ScanTailOver(text, a2, n);
    ScanNumeralFrom(text, at, n, a1, a2, at + |NumeralText(n)|);
  }

  /** The numeral scanner assembled from the sign, the integer digits and the tail, each where it occurs. */
  lemma ScanNumeralFrom(text: Text, at: nat, n: Numeral, a1: nat, a2: nat, end: nat)
    requires 1 <= at <= |text| + 1 && (Peek(text, at) == At(MINUS) <==> n.neg)
    requires a1 == at + |SignPart(n)| && a1 <= |text| + 1 && DigitRun(text, a1) == n.intDigits
    requires a2 == a1 + |n.intDigits| && a2 <= |text| + 1 && !IsDigitAt(Peek(text, a2))
    requires ScanTail(text, a2) == TailScan(n.dot, n.fracDigits, n.exp, end)
    ensures ScanNumeral(text, at) == Scan(n, end)
  {
    assert ScanNumeral(text, at) == ScanUnsigned(text, n.neg, a1);
    assert ScanUnsigned(text, n.neg, a1) == Scan(Numeral(n.neg, n.intDigits, n.dot, n.fracDigits, n.exp), end);
  }

  /** `key()` reads back a key followed by a character that is not a key character. */
  lemma {:induction false} KeyRestOver(text: Text, at: nat, acc: Text, k: Text)
    requires 1 <= at && Occurs(text, at, k)
    requires forall i | 0 <= i < |acc| :: IsKeyChar(acc[i])
    requires forall i | 0 <= i < |k| :: IsKeyChar(k[i])
    requires Peek(text, at + |k|).At? && !IsKeyChar(Peek(text, at + |k|).c)
    ensures KeyRest(text, at, acc) == Parsed(acc + k, at + |k|)
    decreases |k|
  {
    if k == [] {
      assert acc + k == acc;
    } else {
      OccursPeek(text, at, k, 0);
      OccursSplit(text, at, [k[0]], k[1..]);
      assert [k[0]] + k[1..] == k;
      KeyRestOver(text, at + 1, acc + [k[0]], k[1..]);
      assert acc + [k[0]] + k[1..] == acc + k;
    }
  }

  lemma KeyOver(text: Text, at: nat, k: Text)
    requires |k| >= 1 && Occurs(text, at, k)
    requires forall i | 0 <= i < |k| :: IsKeyChar(k[i])
    requires Peek(text, at + |k|).At? && !IsKeyChar(Peek(text, at + |k|).c)
    ensures ParseKey(text, at) == Parsed(k, at + |k|)
  {
    OccursPeek(text, at, k, 0);
    KeyRestOver(text, at, [], k);
    assert [] + k == k;
  }

  /** A string the writer can write so that the reader reads it back: no control unit but LF and CR. */
  predicate PlainString(s: Text) {
    forall i | 0 <= i < |s| :: s[i] >= SPACE || s[i] == LF || s[i] == CR
  }

  /** One plain unit, as the writer escapes it, is one step of the string loop. */
  lemma StringLoopStep(text: Text, at: nat, u: CodeUnit, acc: Text)
    requires u >= SPACE || u == LF || u == CR
    requires 1 <= at && at + |EscapeUnit(u)| <= |text|
    requires Occurs(text, at + 1, EscapeUnit(u))
    ensures StringLoop(text, at, DQUOTE, acc) == StringLoop(text, at + |EscapeUnit(u)|, DQUOTE, acc + [u])
  {
    var e := EscapeUnit(u);
    OccursPeek(text, at + 1, e, 0);
    if |e| == 2 {
      OccursPeek(text, at + 1, e, 1);
    }
  }

  /** The closing quote ends the string loop with what it has read. */
  lemma StringLoopClose(text: Text, at: nat, acc: Text)
    requires 1 <= at && Occurs(text, at + 1, [DQUOTE])
    ensures StringLoop(text, at, DQUOTE, acc) == Parsed(Str(acc), at + 2)
  {
    OccursPeek(text, at + 1, [DQUOTE], 0);
  }

  lemma EscapeAllHead(s: Text)
    requires s != []
    ensures EscapeAll(s) + [DQUOTE] == EscapeUnit(s[0]) + (EscapeAll(s[1..]) + [DQUOTE])
    ensures |EscapeAll(s)| == |EscapeUnit(s[0])| + |EscapeAll(s[1..])|
  {
  }

  /** The string loop reads back an escaped body and its closing quote. */
  lemma {:induction false} StringLoopOver(text: Text, at: nat, s: Text, acc: Text)
    requires 1 <= at <= |text| && PlainString(s)
    requires Occurs(text, at + 1, EscapeAll(s) + [DQUOTE])
    ensures StringLoop(text, at, DQUOTE, acc) == Parsed(Str(acc + s), at + |EscapeAll(s)| + 2)
    decreases |s|
  {
    if s == [] {
      StringLoopEmpty(text, at, s, acc);
    } else {
      var e := EscapeUnit(s[0]);
      StringLoopHead(text, at, s, acc);
      StringLoopOver(text, at + |e|, s[1..], acc + [s[0]]);
      assert acc + s == (acc + [s[0]]) + s[1..];
    }
  }

  /** An empty body: the string loop meets the closing quote at once. */
  lemma StringLoopEmpty(text: Text, at: nat, s: Text, acc: Text)
    requires 1 <= at && s == [] && Occurs(text, at + 1, EscapeAll(s) + [DQUOTE])
    ensures StringLoop(text, at, DQUOTE, acc) == Parsed(Str(acc + s), at + |EscapeAll(s)| + 2)
  {
    assert EscapeAll(s) + [DQUOTE] == [DQUOTE];
    StringLoopClose(text, at, acc);
    assert acc + s == acc;
  }

  /** One round of the string loop over an escaped body: its first unit, read and collected. */
  lemma StringLoopHead(text: Text, at: nat, s: Text, acc: Text)
    requires 1 <= at <= |text| && PlainString(s) && s != []
    requires Occurs(text, at + 1, EscapeAll(s) + [DQUOTE])
    ensures var e := EscapeUnit(s[0]);
      && at + |e| <= |text| && PlainString(s[1..])
      && Occurs(text, at + |e| + 1, EscapeAll(s[1..]) + [DQUOTE])
      && |e| + |EscapeAll(s[1..])| == |EscapeAll(s)|
      && StringLoop(text, at, DQUOTE, acc) == StringLoop(text, at + |e|, DQUOTE, acc + [s[0]])
  {
    var e := EscapeUnit(s[0]);
    EscapeAllHead(s);
    OccursSplit(text, at + 1, e, EscapeAll(s[1..]) + [DQUOTE]);
    StringLoopStep(text, at, s[0], acc);
    assert PlainString(s[1..]);
  }

  /** The writer's quoting, unit by unit. */
  lemma QuoteUnitwise(s: Text)
    ensures Quote(s) == [DQUOTE] + (EscapeAll(s) + [DQUOTE])
    ensures |Quote(s)| == |EscapeAll(s)| + 2
  {
    EscapeChainIsUnitwise(s);
  }

  /** `string()` reads back what the writer's `string()` wrote. */
  lemma StringOver(text: Text, at: nat, s: Text)
    requires PlainString(s)
    requires Occurs(text, at, Quote(s))
    ensures Peek(text, at) == At(DQUOTE)
    ensures ParseString(text, at) == Parsed(Str(s), at + |Quote(s)|)
  {
    QuoteUnitwise(s);
    OccursSplit(text, at, [DQUOTE], EscapeAll(s) + [DQUOTE]);
    OccursPeek(text, at, [DQUOTE], 0);
    StringLoopOver(text, at, s, []);
    assert [] + s == s;
  }

  /** The two characters `string()` accepts as the opening quote. */
  predicate IsQuote(q: CodeUnit) {
    q == DQUOTE || q == SQUOTE
  }

  /**
   * The least escaping that `string()` reads back for the quote `q`: a
   * backslash before `\` and before `q`, every other unit as it is, the
   * other quote and control characters included.
   */
  function ReaderEscapeUnit(q: CodeUnit, u: CodeUnit): Text {
    if u == BACKSLASH || u == q then [BACKSLASH, u] else [u]
  }

  function ReaderEscape(q: CodeUnit, s: Text): Text {
    if s == [] then [] else ReaderEscapeUnit(q, s[0]) + ReaderEscape(q, s[1..])
  }

  /** One unit, escaped for the reader, is one step of the string loop. */
  lemma ReaderStep(text: Text, at: nat, q: CodeUnit, u: CodeUnit, acc: Text)
    requires IsQuote(q) && 1 <= at
    requires Occurs(text, at + 1, ReaderEscapeUnit(q, u))
    ensures StringLoop(text, at, q, acc) == StringLoop(text, at + |ReaderEscapeUnit(q, u)|, q, acc + [u])
  {
    var e := ReaderEscapeUnit(q, u);
    OccursPeek(text, at + 1, e, 0);
    if |e| == 2 {
      OccursPeek(text, at + 1, e, 1);
      assert Escapee(u) == u;
    }
  }

  lemma ReaderEscapeHead(q: CodeUnit, s: Text)
    requires s != []
    ensures ReaderEscape(q, s) == ReaderEscapeUnit(q, s[0]) + ReaderEscape(q, s[1..])
  {
  }

  /** The string loop passes a reader-escaped body unit by unit, collecting it unescaped. */
  lemma {:induction false} ReaderLoop(text: Text, at: nat, q: CodeUnit, s: Text, acc: Text)
    requires IsQuote(q) && 1 <= at
    requires Occurs(text, at + 1, ReaderEscape(q, s))
    ensures at + |ReaderEscape(q, s)| <= |text|
    ensures StringLoop(text, at, q, acc) == StringLoop(text, at + |ReaderEscape(q, s)|, q, acc + s)
    decreases |s|
  {
    if s == [] {
      assert acc + s == acc;
    } else {
      var e := ReaderEscapeUnit(q, s[0]);
      ReaderHead(text, at, q, s, acc);
      ReaderLoop(text, at + |e|, q, s[1..], acc + [s[0]]);
      assert acc + s == (acc + [s[0]]) + s[1..];
    }
  }

  /** One round of the string loop over a reader-escaped body: its first unit, read and collected. */
  lemma ReaderHead(text: Text, at: nat, q: CodeUnit, s: Text, acc: Text)
    requires IsQuote(q) && 1 <= at && s != []
    requires Occurs(text, at + 1, ReaderEscape(q, s))
    ensures var e := ReaderEscapeUnit(q, s[0]);
      && Occurs(text, at + |e| + 1, ReaderEscape(q, s[1..]))
      && |e| + |ReaderEscape(q, s[1..])| == |ReaderEscape(q, s)|
      && StringLoop(text, at, q, acc) == StringLoop(text, at + |e|, q, acc + [s[0]])
  {
    var e := ReaderEscapeUnit(q, s[0]);
    ReaderEscapeHead(q, s);
    OccursSplit(text, at + 1, e, ReaderEscape(q, s[1..]));
    ReaderStep(text, at, q, s[0], acc);
  }

  /**
   * `string()` reads back any text escaped for the reader between two
   * quotes `q`: it closes only on an unescaped `q`.
   */
  lemma ReaderQuoteOver(text: Text, at: nat, q: CodeUnit, s: Text)
    requires IsQuote(q)
    requires Occurs(text, at, [q] + ReaderEscape(q, s) + [q])
    ensures Peek(text, at) == At(q)
    ensures ParseString(text, at) == Parsed(Str(s), at + |ReaderEscape(q, s)| + 2)
  {
    var e := ReaderEscape(q, s);
    ReaderQuoteParts(text, at, q, e);
    ReaderLoop(text, at, q, s, []);
    assert [] + s == s;
  }

  lemma ReaderQuoteParts(text: Text, at: nat, q: CodeUnit, e: Text)
    requires Occurs(text, at, [q] + e + [q])
    ensures Peek(text, at) == At(q) && Peek(text, at + 1 + |e|) == At(q)
    ensures Occurs(text, at + 1, e)
  {
    OccursSplit(text, at, [q] + e, [q]);
    OccursSplit(text, at, [q], e);
    OccursPeek(text, at, [q], 0);
    OccursPeek(text, at + 1 + |e|, [q], 0);
  }
}

=== FILE: serializer.dfy ===
/**
 * `SNBT.stringify` (index.js): a recursive writer over the value tree. The
 * writer's mutable `deep` counter becomes a parameter: every composite
 * writes its children one level deeper and its own closing line at its own
 * level, which is what the `indent(1)` / `indent(-1)` pair restores.
 */
module Serializer {
  import opened Results
  import opened Texts
  import opened Decimals
  import opened Structures
  import opened Values

  /** The two options; `indent` null, undefined and `''` all mean no line breaks. */
  datatype Options = Options(indent: Option<Text>, useByteFlag: bool)

  const Defaults: Options := Options(None, false)

  /** `new Error('Unknown type ' + typeof value)`. */
  datatype Failure = UnknownType(typeName: Text)

  /** `indent()`: a line break and `deep` copies of the indent, when the indent is non-empty. */
  function Newline(o: Options, deep: nat): Text {
    match o.indent
    case Some(unit) => if unit != [] then [LF] + Repeat(unit, deep) else []
    case None => []
  }

  /** The `,` plus line break the writer puts before every element but the first. */
  function Separator(o: Options, deep: nat, first: bool): Text {
    if first then [] else [COMMA] + Newline(o, deep)
  }

  /** `s.replace(/c/g, r)` for a single code unit `c`. */
  function ReplaceUnit(s: Text, c: CodeUnit, r: Text): Text {
    if s == [] then [] else (if s[0] == c then r else [s[0]]) + ReplaceUnit(s[1..], c, r)
  }

  /** A lower-case hex digit, as `Number.prototype.toString(16)` writes it. */
  function HexChar(n: nat): CodeUnit
    requires n < 16
  {
    if n < 10 then '0' as int + n else 'a' as int + n - 10
  }

  /** `'\\u' + hex` where `hex` is the code in base 16, padded to two digits. */
  function ControlEscape(c: CodeUnit): Text
    requires c < 0x20
  {
    [BACKSLASH, 'u' as int, HexChar(c / 16), HexChar(c % 16)]
  }

  /** `s.replace(/[\u0000-\u001f]/g, ...)`. */
  function ReplaceControls(s: Text): Text {
    if s == [] then []
    else (if s[0] < 0x20 then ControlEscape(s[0]) else [s[0]]) + ReplaceControls(s[1..])
  }

  /** The replace chain of `string()`, in the order the code applies it. */
  function EscapeChain(s: Text): Text {
    var s1 := ReplaceUnit(s, BACKSLASH, [BACKSLASH, BACKSLASH]);
    var s2 := ReplaceUnit(s1, DQUOTE, [BACKSLASH, DQUOTE]);
    var s3 := ReplaceUnit(s2, LF, [BACKSLASH, 'n' as int]);
    var s4 := ReplaceUnit(s3, CR, [BACKSLASH, 'r' as int]);
    ReplaceControls(s4)
  }

  /** What one code unit becomes in a written string. */
  function EscapeUnit(c: CodeUnit): Text {
    if c == BACKSLASH then [BACKSLASH, BACKSLASH]
    else if c == DQUOTE then [BACKSLASH, DQUOTE]
    else if c == LF then [BACKSLASH, 'n' as int]
    else if c == CR then [BACKSLASH, 'r' as int]
    else if c < 0x20 then ControlEscape(c)
    else [c]
  }

  /** The string body, unit by unit. */
  function EscapeAll(s: Text): Text {
    if s == [] then [] else EscapeUnit(s[0]) + EscapeAll(s[1..])
  }

  lemma {:induction false} ReplaceUnitAppend(a: Text, b: Text, c: CodeUnit, r: Text)
    ensures ReplaceUnit(a + b, c, r) == ReplaceUnit(a, c, r) + ReplaceUnit(b, c, r)
    decreases |a|
  {
    if a == [] {
      assert a + b == b;
    } else {
      assert (a + b)[0] == a[0] && (a + b)[1..] == a[1..] + b;
      ReplaceUnitAppend(a[1..], b, c, r);
    }
  }

  lemma {:induction false} ReplaceControlsAppend(a: Text, b: Text)
    ensures ReplaceControls(a + b) == ReplaceControls(a) + ReplaceControls(b)
    decreases |a|
  {
    if a == [] {
      assert a + b == b;
    } else {
      assert (a + b)[0] == a[0] && (a + b)[1..] == a[1..] + b;
      ReplaceControlsAppend(a[1..], b);
    }
  }

  lemma ReplaceUnitSingle(u: CodeUnit, c: CodeUnit, r: Text)
    ensures ReplaceUnit([u], c, r) == if u == c then r else [u]
  {
    assert ReplaceUnit([u], c, r) == (if u == c then r else [u]) + ReplaceUnit([], c, r);
  }

  lemma ReplaceControlsSingle(u: CodeUnit)
    ensures ReplaceControls([u]) == if u < 0x20 then ControlEscape(u) else [u]
  {
    assert ReplaceControls([u]) == (if u < 0x20 then ControlEscape(u) else [u]) + ReplaceControls([]);
  }

  /** The chain applied to two units at once: the inserted backslashes and letters are never replaced again. */
  lemma ReplaceControlsPlain(a: CodeUnit, b: CodeUnit)
    requires a >= 0x20 && b >= 0x20
    ensures ReplaceControls([a, b]) == [a, b]
  {
    assert [a, b] == [a] + [b];
    ReplaceControlsAppend([a], [b]);
    ReplaceControlsSingle(a);
    ReplaceControlsSingle(b);
  }

  lemma ReplaceUnitPair(a: CodeUnit, b: CodeUnit, c: CodeUnit, r: Text)
    requires a != c && b != c
    ensures ReplaceUnit([a, b], c, r) == [a, b]
  {
    assert [a, b] == [a] + [b];
    ReplaceUnitAppend([a], [b], c, r);
    ReplaceUnitSingle(a, c, r);
    ReplaceUnitSingle(b, c, r);
  }

  lemma EscapeChainUnit(u: CodeUnit)
    ensures EscapeChain([u]) == EscapeUnit(u)
  {
    var bs, q, n, rr := [BACKSLASH, BACKSLASH], [BACKSLASH, DQUOTE], [BACKSLASH, 'n' as int], [BACKSLASH, 'r' as int];
    ReplaceUnitSingle(u, BACKSLASH, bs);
    if u == BACKSLASH {
      ReplaceUnitPair(BACKSLASH, BACKSLASH, DQUOTE, q);
      ReplaceUnitPair(BACKSLASH, BACKSLASH, LF, n);
      ReplaceUnitPair(BACKSLASH, BACKSLASH, CR, rr);
      ReplaceControlsPlain(BACKSLASH, BACKSLASH);
    } else {
      ReplaceUnitSingle(u, DQUOTE, q);
      if u == DQUOTE {
        ReplaceUnitPair(BACKSLASH, DQUOTE, LF, n);
        ReplaceUnitPair(BACKSLASH, DQUOTE, CR, rr);
        ReplaceControlsPlain(BACKSLASH, DQUOTE);
      } else {
        ReplaceUnitSingle(u, LF, n);
        if u == LF {
          ReplaceUnitPair(BACKSLASH, 'n' as int, CR, rr);
          ReplaceControlsPlain(BACKSLASH, 'n' as int);
        } else {
          ReplaceUnitSingle(u, CR, rr);
          if u == CR {
            ReplaceControlsPlain(BACKSLASH, 'r' as int);
          } else {
            ReplaceControlsSingle(u);
          }
        }
      }
    }
  }

  lemma EscapeChainAppend(a: Text, b: Text)
    ensures EscapeChain(a + b) == EscapeChain(a) + EscapeChain(b)
  {
    var bs, q, n, rr := [BACKSLASH, BACKSLASH], [BACKSLASH, DQUOTE], [BACKSLASH, 'n' as int], [BACKSLASH, 'r' as int];
    ReplaceUnitAppend(a, b, BACKSLASH, bs);
    var a1, b1 := ReplaceUnit(a, BACKSLASH, bs), ReplaceUnit(b, BACKSLASH, bs);
    ReplaceUnitAppend(a1, b1, DQUOTE, q);
    var a2, b2 := ReplaceUnit(a1, DQUOTE, q), ReplaceUnit(b1, DQUOTE, q);
    ReplaceUnitAppend(a2, b2, LF, n);
    var a3, b3 := ReplaceUnit(a2, LF, n), ReplaceUnit(b2, LF, n);
    ReplaceUnitAppend(a3, b3, CR, rr);
    ReplaceControlsAppend(ReplaceUnit(a3, CR, rr), ReplaceUnit(b3, CR, rr));
  }

  /**
   * The replace chain of `string()` escapes each code unit on its own: a
   * later replacement never touches what an earlier one inserted.
   */
  lemma {:induction false} EscapeChainIsUnitwise(s: Text)
    ensures EscapeChain(s) == EscapeAll(s)
    decreases |s|
  {
    if s != [] {
      assert s == [s[0]] + s[1..];
      EscapeChainAppend([s[0]], s[1..]);
      EscapeChainUnit(s[0]);
      EscapeChainIsUnitwise(s[1..]);
    }
  }

  /** `string()`: the body between double quotes. */
  function Quote(s: Text): Text {
    [DQUOTE] + EscapeChain(s) + [DQUOTE]
  }

  /** `boolean()`. */
  function BoolText(b: bool, o: Options): Text {
    if o.useByteFlag then (if b then Lit("1b") else Lit("0b"))
    else if b then Lit("true") else Lit("false")
  }

  function ForeignName(t: Foreign): Text {
    match t
    case Function => Lit("function")
    case Symbol => Lit("symbol")
    case BigInt => Lit("bigint")
  }

  /** An object property the writer skips: `value[key] != undefined` is false for null and undefined. */
  predicate Skipped(v: Value) {
    v.Null? || v.Undefined?
  }

  /** Values the writer can write: no reachable `undefined`, function, symbol or bigint, except as a skipped property. */
  predicate Writable(v: Value)
    decreases v
  {
    match v
    case TypedArray(_, xs) => forall i | 0 <= i < |xs| :: Writable(xs[i])
    case List(xs) => forall i | 0 <= i < |xs| :: Writable(xs[i])
    case Compound(es) => forall i | 0 <= i < |es| :: Skipped(es[i].val) || Writable(es[i].val)
    case Undefined => false
    case Foreign(_) => false
    case _ => true
  }

  /** `value()`: the text written for `v` at depth `deep`. */
  function Emit(v: Value, deep: nat, o: Options): (r: Result<Text, Failure>)
    ensures r.Ok? <==> Writable(v)
    decreases v, 1
  {
    match v
    case Number(n) => Ok(ToJSON(n))
    case Str(s) => Ok(Quote(s))
    case TypedArray(k, xs) => EmitArray(v, [Tag(k), SEMICOLON], xs, deep, o)
    case List(xs) => EmitArray(v, [], xs, deep, o)
    case Compound(es) =>
      (match EmitEntries(v, es, deep + 1, o, true)
       case Err(e) => Err(e)
       case Ok(body) => Ok([LBRACE] + Newline(o, deep + 1) + body + Newline(o, deep) + [RBRACE]))
    case Bool(b) => Ok(BoolText(b, o))
    case Null => Ok([])
    case Undefined => Err(UnknownType(Lit("undefined")))
    case Foreign(t) => Err(UnknownType(ForeignName(t)))
  }

  /** `array()`: `[`, the tag of a typed array, the elements one level deeper, `]`. */
  function EmitArray(parent: Value, tag: Text, xs: seq<Value>, deep: nat, o: Options): (r: Result<Text, Failure>)
    requires forall i | 0 <= i < |xs| :: xs[i] < parent
    ensures r.Ok? <==> forall i | 0 <= i < |xs| :: Writable(xs[i])
    decreases parent, 0
  {
    match EmitItems(parent, xs, deep + 1, o, true)
    case Err(e) => Err(e)
    case Ok(body) => Ok([LBRACKET] + tag + Newline(o, deep + 1) + body + Newline(o, deep) + [RBRACKET])
  }

  /** The element loop of `array()`. */
  function EmitItems(parent: Value, xs: seq<Value>, deep: nat, o: Options, first: bool): (r: Result<Text, Failure>)
    requires forall i | 0 <= i < |xs| :: xs[i] < parent
    ensures r.Ok? <==> forall i | 0 <= i < |xs| :: Writable(xs[i])
    decreases parent, 0, |xs|
  {
    if xs == [] then Ok([])
    else
      match Emit(xs[0], deep, o)
      case Err(e) => Err(e)
      case Ok(t) =>
        match EmitItems(parent, xs[1..], deep, o, false)
        case Err(e) => Err(e)
        case Ok(rest) => Ok(Separator(o, deep, first) + t + rest)
  }

  /** The property loop of `object()`: skipped properties write nothing, not even a separator. */
  function EmitEntries(parent: Value, es: seq<Entry>, deep: nat, o: Options, first: bool): (r: Result<Text, Failure>)
    requires forall i | 0 <= i < |es| :: es[i].val < parent
    ensures r.Ok? <==> forall i | 0 <= i < |es| :: Skipped(es[i].val) || Writable(es[i].val)
    decreases parent, 0, |es|
  {
    if es == [] then Ok([])
    else if Skipped(es[0].val) then EmitEntries(parent, es[1..], deep, o, first)
    else
      match Emit(es[0].val, deep, o)
      case Err(e) => Err(e)
      case Ok(t) =>
        match EmitEntries(parent, es[1..], deep, o, false)
        case Err(e) => Err(e)
        case Ok(rest) => Ok(Separator(o, deep, first) + es[0].key + [COLON] + t + rest)
  }

  /** `SNBT.stringify(v, o)`. */
  function Stringify(v: Value, o: Options): (r: Result<Text, Failure>)
    ensures r.Ok? <==> Writable(v)
  {
    Emit(v, 0, o)
  }

  /** `ts` with `sep` between each two neighbours. */
  function Join(ts: seq<Text>, sep: Text): Text
    decreases |ts|
  {
    if |ts| == 0 then [] else if |ts| == 1 then ts[0] else ts[0] + sep + Join(ts[1..], sep)
  }

  /** One more text in front of a join. */
  lemma JoinStep(ts: seq<Text>, sep: Text, lead: Text, rest: Text)
    requires |ts| >= 1
    requires rest == if |ts| == 1 then [] else sep + Join(ts[1..], sep)
    ensures lead + ts[0] + rest == lead + Join(ts, sep)
  {
  }

  lemma ItemsTail(parent: Value, xs: seq<Value>, ts: seq<Text>, deep: nat, o: Options)
    requires xs != [] && forall i | 0 <= i < |xs| :: xs[i] < parent
    requires |ts| == |xs| && forall i | 0 <= i < |xs| :: Emit(xs[i], deep, o) == Ok(ts[i])
    ensures forall i | 0 <= i < |xs[1..]| :: xs[1..][i] < parent
    ensures forall i | 0 <= i < |xs[1..]| :: Emit(xs[1..][i], deep, o) == Ok(ts[1..][i])
  {
    forall i | 0 <= i < |xs[1..]|
      ensures xs[1..][i] < parent && Emit(xs[1..][i], deep, o) == Ok(ts[1..][i])
    {
      assert xs[1..][i] == xs[i + 1] && ts[1..][i] == ts[i + 1];
    }
  }

  /** The element loop writes the elements' texts joined by `,` and a line break. */
  lemma {:induction false} ItemsJoined(parent: Value, xs: seq<Value>, ts: seq<Text>, deep: nat, o: Options, first: bool)
    requires forall i | 0 <= i < |xs| :: xs[i] < parent
    requires |ts| == |xs| && forall i | 0 <= i < |xs| :: Emit(xs[i], deep, o) == Ok(ts[i])
    ensures EmitItems(parent, xs, deep, o, first) ==
      Ok(if xs == [] then [] else Separator(o, deep, first) + Join(ts, [COMMA] + Newline(o, deep)))
    decreases |xs|
  {
    if xs != [] {
      ItemsTail(parent, xs, ts, deep, o);
      ItemsJoined(parent, xs[1..], ts[1..], deep, o, false);
      ItemsStep(parent, xs, ts[0], deep, o, first);
      assert xs[1..] == [] <==> |ts| == 1;
      JoinStep(ts, [COMMA] + Newline(o, deep), Separator(o, deep, first), EmitItems(parent, xs[1..], deep, o, false).value);
    }
  }

  lemma ItemsStep(parent: Value, xs: seq<Value>, t: Text, deep: nat, o: Options, first: bool)
    requires forall i | 0 <= i < |xs| :: xs[i] < parent
    requires xs != [] && Emit(xs[0], deep, o) == Ok(t)
    requires EmitItems(parent, xs[1..], deep, o, false).Ok?
    ensures EmitItems(parent, xs, deep, o, first) ==
      Ok(Separator(o, deep, first) + t + EmitItems(parent, xs[1..], deep, o, false).value)
  {
  }

  /**
   * How `array()` lays a list or typed array out: `[`, the tag and `;` of a
   * typed array, a line break one level deeper, the elements' texts joined
   * by `,` and a line break, a line break at its own level, `]`. An element
   * that writes nothing, as `null` does, still gets its separator.
   */
  lemma ArrayLaidOut(v: Value, ts: seq<Text>, deep: nat, o: Options)
    requires v.List? || v.TypedArray?
    requires var xs := if v.List? then v.items else v.elems;
      |ts| == |xs| && forall i | 0 <= i < |xs| :: Emit(xs[i], deep + 1, o) == Ok(ts[i])
    ensures Emit(v, deep, o) ==
      Ok([LBRACKET] + (if v.List? then [] else [Tag(v.base), SEMICOLON]) + Newline(o, deep + 1)
         + Join(ts, [COMMA] + Newline(o, deep + 1)) + Newline(o, deep) + [RBRACKET])
  {
    var xs := if v.List? then v.items else v.elems;
    var tag := if v.List? then [] else [Tag(v.base), SEMICOLON];
    ItemsJoined(v, xs, ts, deep + 1, o, true);
    var body := Join(ts, [COMMA] + Newline(o, deep + 1));
    var none: Text := [];
    assert Separator(o, deep + 1, true) == none && none + body == body;
    assert xs == [] ==> body == [];
    assert EmitItems(v, xs, deep + 1, o, true) == Ok(body);
    assert Emit(v, deep, o) == EmitArray(v, tag, xs, deep, o);
  }

  /** `null` writes nothing: `typeof null` is `object`, and no branch of `value()` takes it. */
  lemma NullWritesNothing(deep: nat, o: Options)
    ensures Emit(Null, deep, o) == Ok([])
  {
  }

  /** The `key:text` of every member the writer does not skip, in entry order. */
  function MemberTexts(es: seq<Entry>, ts: seq<Text>): seq<Text>
    requires |ts| == |es|
  {
    if es == [] then []
    else (if Skipped(es[0].val) then [] else [es[0].key + [COLON] + ts[0]]) + MemberTexts(es[1..], ts[1..])
  }

  lemma EntriesTail(parent: Value, es: seq<Entry>, ts: seq<Text>, deep: nat, o: Options)
    requires es != [] && forall i | 0 <= i < |es| :: es[i].val < parent
    requires |ts| == |es| && forall i | 0 <= i < |es| :: !Skipped(es[i].val) ==> Emit(es[i].val, deep, o) == Ok(ts[i])
    ensures forall i | 0 <= i < |es[1..]| :: es[1..][i].val < parent
    ensures forall i | 0 <= i < |es[1..]| :: !Skipped(es[1..][i].val) ==> Emit(es[1..][i].val, deep, o) == Ok(ts[1..][i])
  {
    forall i | 0 <= i < |es[1..]|
      ensures es[1..][i].val < parent && (!Skipped(es[1..][i].val) ==> Emit(es[1..][i].val, deep, o) == Ok(ts[1..][i]))
    {
      assert es[1..][i] == es[i + 1] && ts[1..][i] == ts[i + 1];
    }
  }

  /** The property loop writes the members it does not skip, joined by `,` and a line break. */
  lemma {:induction false} EntriesJoined(parent: Value, es: seq<Entry>, ts: seq<Text>, deep: nat, o: Options, first: bool)
    requires forall i | 0 <= i < |es| :: es[i].val < parent
    requires |ts| == |es| && forall i | 0 <= i < |es| :: !Skipped(es[i].val) ==> Emit(es[i].val, deep, o) == Ok(ts[i])
    ensures var ms := MemberTexts(es, ts);
      EmitEntries(parent, es, deep, o, first) ==
        Ok(if ms == [] then [] else Separator(o, deep, first) + Join(ms, [COMMA] + Newline(o, deep)))
    decreases |es|
  {
    if es != [] {
      EntriesTail(parent, es, ts, deep, o);
      var rest := MemberTexts(es[1..], ts[1..]);
      MemberTextsCons(es, ts);
      if Skipped(es[0].val) {
        EntriesJoined(parent, es[1..], ts[1..], deep, o, first);
        EntriesSkip(parent, es, deep, o, first);
      } else {
        EntriesJoined(parent, es[1..], ts[1..], deep, o, false);
        EntriesStep(parent, es, ts[0], deep, o, first);
        MemberJoin(Separator(o, deep, first), es[0].key, ts[0], rest,
          EmitEntries(parent, es[1..], deep, o, false).value, [COMMA] + Newline(o, deep));
      }
    }
  }

  /** One more member in front of a join. */
  lemma MemberJoin(lead: Text, key: Text, t: Text, rest: seq<Text>, tail: Text, sep: Text)
    requires tail == if rest == [] then [] else sep + Join(rest, sep)
    ensures lead + key + [COLON] + t + tail == lead + Join([key + [COLON] + t] + rest, sep)
  {
    var ms := [key + [COLON] + t] + rest;
    assert ms[1..] == rest;
    JoinStep(ms, sep, lead, tail);
  }

  lemma MemberTextsCons(es: seq<Entry>, ts: seq<Text>)
    requires |ts| == |es| && es != []
    ensures Skipped(es[0].val) ==> MemberTexts(es, ts) == MemberTexts(es[1..], ts[1..])
    ensures !Skipped(es[0].val) ==> MemberTexts(es, ts) == [es[0].key + [COLON] + ts[0]] + MemberTexts(es[1..], ts[1..])
  {
  }

  lemma EntriesSkip(parent: Value, es: seq<Entry>, deep: nat, o: Options, first: bool)
    requires forall i | 0 <= i < |es| :: es[i].val < parent
    requires es != [] && Skipped(es[0].val)
    ensures EmitEntries(parent, es, deep, o, first) == EmitEntries(parent, es[1..], deep, o, first)
  {
  }

  lemma EntriesStep(parent: Value, es: seq<Entry>, t: Text, deep: nat, o: Options, first: bool)
    requires forall i | 0 <= i < |es| :: es[i].val < parent
    requires es != [] && !Skipped(es[0].val) && Emit(es[0].val, deep, o) == Ok(t)
    requires EmitEntries(parent, es[1..], deep, o, false).Ok?
    ensures EmitEntries(parent, es, deep, o, first) ==
      Ok(Separator(o, deep, first) + es[0].key + [COLON] + t + EmitEntries(parent, es[1..], deep, o, false).value)
  {
  }

  /**
   * How `object()` lays an object out: `{`, a line break one level deeper,
   * the `key:text` of each member that is neither `null` nor `undefined`
   * joined by `,` and a line break, a line break at its own level, `}`.
   */
  lemma ObjectLaidOut(es: seq<Entry>, ts: seq<Text>, deep: nat, o: Options)
    requires |ts| == |es| && forall i | 0 <= i < |es| :: !Skipped(es[i].val) ==> Emit(es[i].val, deep + 1, o) == Ok(ts[i])
    ensures Emit(Compound(es), deep, o) ==
      Ok([LBRACE] + Newline(o, deep + 1) + Join(MemberTexts(es, ts), [COMMA] + Newline(o, deep + 1))
         + Newline(o, deep) + [RBRACE])
  {
    EntriesBelow(es);
    EntriesJoined(Compound(es), es, ts, deep + 1, o, true);
    var body := Join(MemberTexts(es, ts), [COMMA] + Newline(o, deep + 1));
    var none: Text := [];
    assert Separator(o, deep + 1, true) == none && none + body == body;
    assert MemberTexts(es, ts) == [] ==> body == [];
    assert EmitEntries(Compound(es), es, deep + 1, o, true) == Ok(body);
  }

  lemma EntriesBelow(es: seq<Entry>)
    ensures forall i | 0 <= i < |es| :: es[i].val < Compound(es)
  {
    forall i | 0 <= i < |es|
      ensures es[i].val < Compound(es)
    {
      assert es[i] in es;
    }
  }

  /**
   * `null` as the first element writes nothing, but the `,` and line break
   * before the next element are still written: `[null,x]` becomes `[,x]`.
   */
  lemma NullFirstInList(x: Value, t: Text, deep: nat, o: Options)
    requires Emit(x, deep + 1, o) == Ok(t)
    ensures Emit(List([Null, x]), deep, o) ==
      Ok([LBRACKET] + Newline(o, deep + 1) + [COMMA] + Newline(o, deep + 1) + t + Newline(o, deep) + [RBRACKET])
  {
    var none: Text := [];
    NullWritesNothing(deep + 1, o);
    ArrayLaidOut(List([Null, x]), [none, t], deep, o);
    NullListText(Newline(o, deep + 1), Newline(o, deep), t);
  }

  lemma NullListText(inner: Text, outer: Text, t: Text)
    ensures var none: Text := [];
      [LBRACKET] + none + inner + Join([none, t], [COMMA] + inner) + outer + [RBRACKET]
      == [LBRACKET] + inner + [COMMA] + inner + t + outer + [RBRACKET]
  {
    var none: Text := [];
    var sep := [COMMA] + inner;
    assert [none, t][1..] == [t] && Join([t], sep) == t;
    assert Join([none, t], sep) == none + sep + t;
    assert [LBRACKET] + none == [LBRACKET] && none + sep == sep;
  }

  /**
   * With the indent `"  "`, an object with one member `k` that writes as
   * `t` is `{`, a line break, two blanks, `k:t`, a line break, `}`.
   */
  lemma IndentedMember(k: Text, x: Value, t: Text)
    requires !Skipped(x)
    requires Emit(x, 1, Options(Some([SPACE, SPACE]), false)) == Ok(t)
    ensures Stringify(Compound([Entry(k, x)]), Options(Some([SPACE, SPACE]), false)) ==
      Ok([LBRACE, LF, SPACE, SPACE] + k + [COLON] + t + [LF, RBRACE])
  {
    var o := Options(Some([SPACE, SPACE]), false);
    assert Newline(o, 1) == [LF, SPACE, SPACE] by {
      assert Repeat([SPACE, SPACE], 1) == [SPACE, SPACE] + Repeat([SPACE, SPACE], 0);
    }
    assert Newline(o, 0) == [LF];
    var m := k + [COLON] + t;
    assert MemberTexts([Entry(k, x)], [t]) == [m];
    ObjectLaidOut([Entry(k, x)], [t], 0, o);
    OneMemberText(k, t, Newline(o, 1));
  }

  lemma OneMemberText(k: Text, t: Text, sep: Text)
    ensures [LBRACE] + [LF, SPACE, SPACE] + Join([k + [COLON] + t], [COMMA] + sep) + [LF] + [RBRACE]
      == [LBRACE, LF, SPACE, SPACE] + k + [COLON] + t + [LF, RBRACE]
  {
    assert Join([k + [COLON] + t], [COMMA] + sep) == k + [COLON] + t;
  }
}

=== FILE: structures.dfy ===
/**
 * The six numeric kinds of Structures.js. Each kind is a decimal with
 * inclusive bounds, a suffix that `toJSON` writes after the digits, and a
 * one-letter type tag that heads a typed array. The kinds are sibling
 * subclasses of the decimal class, so a value belongs to exactly one kind.
 */
module Structures {
  import opened Results
  import opened Texts
  import opened Decimals

  datatype Kind = Byte | Short | Int | Long | Float | Double

  /** The static `suffix` of a kind. Int has the empty suffix. */
  function Suffix(k: Kind): Text {
    match k
    case Byte => ['b' as int]
    case Short => ['s' as int]
    case Int => []
    case Long => ['l' as int]
    case Float => ['f' as int]
    case Double => ['d' as int]
  }

  /** The static `type` of a kind, the tag written as `[T;` for a typed array. */
  function Tag(k: Kind): CodeUnit {
    match k
    case Byte => 'B' as int
    case Short => 'S' as int
    case Int => 'I' as int
    case Long => 'L' as int
    case Float => 'F' as int
    case Double => 'D' as int
  }

  /** The lower bound each constructor checks with `gte`. */
  function MinOf(k: Kind): Decimal {
    match k
    case Byte => Decimal(true, 128, 0)
    case Short => Decimal(true, 32768, 0)
    case Int => Decimal(true, 2147483648, 0)
    case Long => Decimal(true, 9223372036854775808, 0)
    case Float => Decimal(true, 3402823, 32)
    case Double => Decimal(true, 17976931348623157, 292)
  }

  /** The upper bound each constructor checks with `lte`. */
  function MaxOf(k: Kind): Decimal {
    match k
    case Byte => Decimal(false, 127, 0)
    case Short => Decimal(false, 32767, 0)
    case Int => Decimal(false, 2147483647, 0)
    case Long => Decimal(false, 9223372036854775807, 0)
    case Float => Decimal(false, 3402823, 32)
    case Double => Decimal(false, 17976931348623157, 292)
  }

  /** Both bounds are inclusive; nothing asks for an integer. */
  predicate InRange(d: Decimal, k: Kind) {
    AtMost(MinOf(k), d) && AtMost(d, MaxOf(k))
  }

  /** The JavaScript errors the structures raise, by the kind that raised them. */
  datatype Thrown =
    | RangeError(kind: Kind)
    | TypeError(expected: Kind)

  /** An instance of one of the six classes. */
  datatype TypedNumber = TypedNumber(kind: Kind, value: Decimal)

  /**
   * `new Byte(s)` and its siblings: the decimal library reads the numeral
   * (NaN when it is not numeric), then the range check throws RangeError
   * unless the value lies within both bounds. NaN fails both comparisons.
   */
  function Construct(k: Kind, n: Numeral): (r: Result<TypedNumber, Thrown>)
    requires WellFormedNumeral(n)
    ensures r.Ok? <==> IsNumeric(n) && InRange(NumeralDecimal(n).value, k)
    ensures r.Ok? ==> r.value.kind == k && r.value.value == NumeralDecimal(n).value
    ensures r.Ok? ==> Canonical(r.value.value)
    ensures r.Err? ==> r.error == RangeError(k)
  {
    match NumeralDecimal(n)
    case None => Err(RangeError(k))
    case Some(d) => if InRange(d, k) then Ok(TypedNumber(k, d)) else Err(RangeError(k))
  }

  /** `toJSON`: the decimal's `toString` followed by the kind's suffix (Long's override is the same). */
  function ToJSON(n: TypedNumber): Text {
    ToString(n.value) + Suffix(n.kind)
  }

  /**
   * `toUpperCase` of a single code unit, as far as the six tag letters go.
   * Besides the ASCII letters, only U+0131 (dotless i) and U+017F (long s)
   * upper-case to an ASCII capital; every other unit maps to something
   * that is an ASCII capital exactly when the unit itself is one.
   */
  function UpperCase(u: CodeUnit): CodeUnit {
    if 'a' as int <= u <= 'z' as int then u - 32
    else if u == 0x131 then 'I' as int
    else if u == 0x17F then 'S' as int
    else u
  }

  /** The kind whose tag is `t`, the `switch` over 'B', 'S', 'I', 'L', 'F', 'D'. */
  function KindOfTag(t: CodeUnit): Option<Kind> {
    if t == 'B' as int then Some(Byte)
    else if t == 'S' as int then Some(Short)
    else if t == 'I' as int then Some(Int)
    else if t == 'L' as int then Some(Long)
    else if t == 'F' as int then Some(Float)
    else if t == 'D' as int then Some(Double)
    else None
  }

  /** The kind a one-character suffix names once upper-cased; `''` names none. */
  function SuffixKind(c: Cur): Option<Kind> {
    if c.End? then None else KindOfTag(UpperCase(c.c))
  }

  /** `getTypedNumberBySuffix(c, float)`: the named kind, else Double for a float and Int otherwise. */
  function KindForSuffix(c: Cur, float: bool): (k: Kind)
    ensures IsTypedNumberSuffix(c) ==> Tag(k) == UpperCase(c.c)
  {
    match SuffixKind(c)
    case Some(k) => k
    case None => if float then Double else Int
  }

  /** `isTypedNumberSuffix(c)`: `''` is not a suffix. */
  predicate IsTypedNumberSuffix(c: Cur) {
    SuffixKind(c).Some?
  }

  /** The tag table is a bijection between the six letters and the six kinds. */
  lemma KindOfTagInverse(t: CodeUnit, k: Kind)
    ensures KindOfTag(t) == Some(k) <==> t == Tag(k)
  {
  }

  /** Exactly these twelve ASCII letters and two other units are suffixes. */
  lemma SuffixLetters(u: CodeUnit)
    ensures IsTypedNumberSuffix(At(u)) <==>
      u in [0x42, 0x53, 0x49, 0x4C, 0x46, 0x44, 0x62, 0x73, 0x69, 0x6C, 0x66, 0x64, 0x131, 0x17F]
  {
  }

  /** Every suffix `toJSON` writes reads back as its own kind, and Int writes none. */
  lemma SuffixReadsBack(k: Kind)
    ensures k == Int <==> Suffix(k) == []
    ensures Suffix(k) != [] ==> |Suffix(k)| == 1 && SuffixKind(At(Suffix(k)[0])) == Some(k)
    ensures SuffixKind(At(Tag(k))) == Some(k)
  {
  }

  /** Without a suffix letter, only the float flag decides. */
  lemma DefaultKind(c: Cur, float: bool)
    requires !IsTypedNumberSuffix(c)
    ensures KindForSuffix(c, float) == Int <==> !float
    ensures KindForSuffix(c, float) == Double <==> float
  {
  }
}

=== FILE: texts.dfy ===
/**
 * JavaScript strings as the parser sees them: sequences of UTF-16 code
 * units, read one unit at a time through a cursor.
 */
module Texts {

  /** One UTF-16 code unit, the unit JavaScript strings are indexed and compared by. */
  type CodeUnit = x: int | 0 <= x < 0x1_0000

  type Text = seq<CodeUnit>

  /** The code units of a literal written in the Basic Multilingual Plane. */
  function Lit(s: string): Text
  {
    seq(|s|, i requires 0 <= i < |s| => if s[i] as int < 0x1_0000 then s[i] as int else 0xFFFD)
  }

  const SPACE: CodeUnit := ' ' as int
  const LF: CodeUnit := '\n' as int
  const CR: CodeUnit := '\r' as int
  const TAB: CodeUnit := '\t' as int
  const FORMFEED: CodeUnit := 0x0C
  const DQUOTE: CodeUnit := '"' as int
  const SQUOTE: CodeUnit := '\'' as int
  const BACKSLASH: CodeUnit := '\\' as int
  const SLASH: CodeUnit := '/' as int
  const COMMA: CodeUnit := ',' as int
  const COLON: CodeUnit := ':' as int
  const SEMICOLON: CodeUnit := ';' as int
  const LBRACE: CodeUnit := '{' as int
  const RBRACE: CodeUnit := '}' as int
  const LBRACKET: CodeUnit := '[' as int
  const RBRACKET: CodeUnit := ']' as int
  const MINUS: CodeUnit := '-' as int
  const PLUS: CodeUnit := '+' as int
  const DOT: CodeUnit := '.' as int
  const ZERO: CodeUnit := '0' as int

  predicate IsDigit(c: CodeUnit) {
    '0' as int <= c <= '9' as int
  }

  predicate AllDigits(s: Text) {
    forall i | 0 <= i < |s| :: IsDigit(s[i])
  }

  /** The character class `[a-zA-Z0-9]` of object keys. */
  predicate IsKeyChar(c: CodeUnit) {
    IsDigit(c) || 'a' as int <= c <= 'z' as int || 'A' as int <= c <= 'Z' as int
  }

  /** The current character of the scanner: a code unit, or `''` past the end. */
  datatype Cur = End | At(c: CodeUnit)

  /**
   * The scanner's current character when its cursor is `at`: the character
   * at index `at - 1`, a virtual blank before the first step, and `''` once
   * the cursor has moved past the last character.
   */
  function Peek(text: Text, at: nat): Cur {
    if at == 0 then At(SPACE)
    else if at <= |text| then At(text[at - 1])
    else End
  }

  /** A blank: any code unit up to U+0020. `''` is not blank. */
  predicate IsBlank(c: Cur) {
    c.At? && c.c <= SPACE
  }

  predicate IsDigitAt(c: Cur) {
    c.At? && IsDigit(c.c)
  }

  /** `s` is the text that the cursor meets from position `at` on. */
  predicate Occurs(text: Text, at: nat, s: Text) {
    && 1 <= at && at - 1 + |s| <= |text|
    && forall i | 0 <= i < |s| :: text[at - 1 + i] == s[i]
  }

  lemma OccursPeek(text: Text, at: nat, s: Text, i: nat)
    requires Occurs(text, at, s) && i < |s|
    ensures Peek(text, at + i) == At(s[i])
  {
  }

  /** A single unit under the cursor occurs there. */
  lemma PeekOccurs(text: Text, at: nat, c: CodeUnit)
    requires 1 <= at && Peek(text, at) == At(c)
    ensures Occurs(text, at, [c])
  {
  }

  /** A text occurs at the start of anything it begins. */
  lemma OccursPrefix(a: Text, b: Text)
    ensures Occurs(a + b, 1, a)
  {
    forall i | 0 <= i < |a|
      ensures (a + b)[i] == a[i]
    {
    }
  }

  lemma OccursSplit(text: Text, at: nat, s: Text, t: Text)
    ensures Occurs(text, at, s + t) <==> Occurs(text, at, s) && Occurs(text, at + |s|, t)
  {
    if Occurs(text, at, s) && Occurs(text, at + |s|, t) {
      forall i | 0 <= i < |s + t|
        ensures text[at - 1 + i] == (s + t)[i]
      {
        if i >= |s| {
          assert text[at + |s| - 1 + (i - |s|)] == t[i - |s|];
        }
      }
    }
    if Occurs(text, at, s + t) {
      forall i | 0 <= i < |t|
        ensures text[at + |s| - 1 + i] == t[i]
      {
        assert text[at - 1 + (|s| + i)] == (s + t)[|s| + i];
      }
      forall i | 0 <= i < |s|
        ensures text[at - 1 + i] == s[i]
      {
        assert text[at - 1 + i] == (s + t)[i];
      }
    }
  }

  /** The characters the cursor passes over from `a` to `b`. */
  function Span(text: Text, a: nat, b: nat): (s: Text)
    requires 1 <= a <= b <= |text| + 1
    ensures |s| == b - a && Occurs(text, a, s)
  {
    seq(b - a, i requires 0 <= i < b - a => text[a - 1 + i])
  }

  /** `Occurs` pins down every character it covers, so the spanned text is unique. */
  lemma OccursSpan(text: Text, at: nat, s: Text)
    requires Occurs(text, at, s)
    ensures Span(text, at, at + |s|) == s
  {
    var r := Span(text, at, at + |s|);
    forall i | 0 <= i < |s|
      ensures r[i] == s[i]
    {
      assert r[i] == text[at - 1 + i];
    }
  }

  function Repeat(unit: Text, n: nat): (r: Text)
    ensures |r| == |unit| * n
  {
    if n == 0 then [] else unit + Repeat(unit, n - 1)
  }
}

=== FILE: values.dfy ===
/**
 * The JavaScript values the parser builds and the serializer walks: typed
 * numbers, typed arrays, plain arrays, plain objects, strings, booleans,
 * `null`, `undefined`, and the other `typeof` results the serializer
 * refuses. Objects keep their properties in insertion order.
 */
module Values {
  import opened Results
  import opened Texts
  import opened Decimals
  import opened Structures

  /** The remaining `typeof` results: none of them can be written. */
  datatype Foreign = Function | Symbol | BigInt

  datatype Value =
    | Number(n: TypedNumber)
    | TypedArray(base: Kind, elems: seq<Value>)
    | List(items: seq<Value>)
    | Compound(entries: seq<Entry>)
    | Str(s: Text)
    | Bool(b: bool)
    | Null
    | Undefined
    | Foreign(t: Foreign)

  /** One own property of a plain object. */
  datatype Entry = Entry(key: Text, val: Value)

  function Keys(es: seq<Entry>): (ks: seq<Text>)
    ensures |ks| == |es|
    ensures forall i | 0 <= i < |es| :: ks[i] == es[i].key
  {
    if es == [] then [] else [es[0].key] + Keys(es[1..])
  }

  /** No two properties share a key, as in any JavaScript object. */
  predicate UniqueKeys(es: seq<Entry>) {
    forall i, j | 0 <= i < j < |es| :: es[i].key != es[j].key
  }

  /** `obj[k]`: the value stored under `k`, if any. */
  function Lookup(es: seq<Entry>, k: Text): Option<Value> {
    if es == [] then None
    else if es[0].key == k then Some(es[0].val)
    else Lookup(es[1..], k)
  }

  /**
   * `obj[k] = v`: a new key goes last; an existing key keeps its place
   * and takes the new value.
   */
  function Put(es: seq<Entry>, k: Text, v: Value): seq<Entry> {
    if es == [] then [Entry(k, v)]
    else if es[0].key == k then [Entry(k, v)] + es[1..]
    else [es[0]] + Put(es[1..], k, v)
  }

  /** After `obj[k] = v`, reading `k` gives `v` and every other key reads as before. */
  lemma {:induction false} PutLookup(es: seq<Entry>, k: Text, v: Value, k': Text)
    ensures Lookup(Put(es, k, v), k') == if k' == k then Some(v) else Lookup(es, k')
  {
    if es != [] && es[0].key != k {
      PutLookup(es[1..], k, v, k');
      assert Put(es, k, v)[1..] == Put(es[1..], k, v);
    }
  }

  /** Assignment keeps the key order: an old key stays put, a new one is appended. */
  lemma {:induction false} PutKeys(es: seq<Entry>, k: Text, v: Value)
    ensures Keys(Put(es, k, v)) == if k in Keys(es) then Keys(es) else Keys(es) + [k]
  {
    if es != [] && es[0].key != k {
      PutKeys(es[1..], k, v);
      assert Keys(es) == [es[0].key] + Keys(es[1..]);
    }
  }

  /** A key the object does not have yet is appended with its value. */
  lemma {:induction false} PutFresh(es: seq<Entry>, k: Text, v: Value)
    requires k !in Keys(es)
    ensures Put(es, k, v) == es + [Entry(k, v)]
  {
    if es != [] {
      assert Keys(es) == [es[0].key] + Keys(es[1..]);
      PutFresh(es[1..], k, v);
      assert es == [es[0]] + es[1..];
    }
  }

  /** Assignment never creates a second property with the same key. */
  lemma PutUnique(es: seq<Entry>, k: Text, v: Value)
    requires UniqueKeys(es)
    ensures UniqueKeys(Put(es, k, v))
  {
    PutKeys(es, k, v);
    var r := Put(es, k, v);
    forall i, j | 0 <= i < j < |r|
      ensures r[i].key != r[j].key
    {
      assert Keys(r)[i] == r[i].key && Keys(r)[j] == r[j].key;
      if j < |es| {
        assert Keys(es)[i] == es[i].key && Keys(es)[j] == es[j].key;
      } else {
        assert Keys(es)[i] == es[i].key;
      }
    }
  }

  /** `x instanceof base`: only a typed number of exactly that kind. */
  predicate IsInstance(x: Value, base: Kind) {
    x.Number? && x.n.kind == base
  }

  /** `new TypedArray(base, ...args)`: the elements are taken as given, unchecked. */
  function NewTypedArray(base: Kind, args: seq<Value>): (r: Value)
    ensures r.TypedArray? && r.base == base && |r.elems| == |args|
    ensures forall i | 0 <= i < |args| :: r.elems[i] == args[i]
  {
    TypedArray(base, args)
  }

  /** What a successful `push` leaves: the array and the length it returns. */
  datatype Pushed = Pushed(target: Value, length: nat)

  /**
   * The checking loop of `push` from argument `i` on: the index of the
   * first argument that is not an instance of `base`, if any.
   */
  function FirstMismatch(args: seq<Value>, base: Kind, i: nat): (r: Option<nat>)
    requires i <= |args|
    ensures r.None? <==> forall j | i <= j < |args| :: IsInstance(args[j], base)
    ensures r.Some? ==> i <= r.value < |args| && !IsInstance(args[r.value], base)
    ensures r.Some? ==> forall j | i <= j < r.value :: IsInstance(args[j], base)
    decreases |args| - i
  {
    if i == |args| then None
    else if !IsInstance(args[i], base) then Some(i)
    else FirstMismatch(args, base, i + 1)
  }

  /**
   * `TypedArray.prototype.push(...args)`: every argument is checked before
   * any is appended; one non-instance throws TypeError and the array is
   * left as it was.
   */
  function Push(arr: Value, args: seq<Value>): (r: Result<Pushed, Thrown>)
    requires arr.TypedArray?
    ensures r.Ok? <==> forall j | 0 <= j < |args| :: IsInstance(args[j], arr.base)
    ensures r.Ok? ==> r.value.target == TypedArray(arr.base, arr.elems + args)
    ensures r.Ok? ==> r.value.length == |arr.elems| + |args|
    ensures r.Err? ==> r.error == TypeError(arr.base)
  {
    match FirstMismatch(args, arr.base, 0)
    case Some(_) => Err(TypeError(arr.base))
    case None => Ok(Pushed(TypedArray(arr.base, arr.elems + args), |arr.elems| + |args|))
  }

  /** A typed array built only through `push` holds instances of its base kind alone. */
  lemma PushKeepsKind(arr: Value, args: seq<Value>)
    requires arr.TypedArray?
    requires forall j | 0 <= j < |arr.elems| :: IsInstance(arr.elems[j], arr.base)
    requires Push(arr, args).Ok?
    ensures var a := Push(arr, args).value.target;
      forall j | 0 <= j < |a.elems| :: IsInstance(a.elems[j], a.base)
  {
    var a := Push(arr, args).value.target;
    forall j | 0 <= j < |a.elems|
      ensures IsInstance(a.elems[j], a.base)
    {
      if j >= |arr.elems| {
        assert a.elems[j] == args[j - |arr.elems|];
      }
    }
  }

  /**
   * `result.push(x)` on the parser's result: a plain array appends anything,
   * a typed array goes through its checked `push`.
   */
  function PushOne(arr: Value, x: Value): (r: Result<Value, Thrown>)
    requires arr.List? || arr.TypedArray?
    ensures arr.List? ==> r == Ok(List(arr.items + [x]))
    ensures arr.TypedArray? ==> (r.Ok? <==> IsInstance(x, arr.base))
    ensures arr.TypedArray? && r.Ok? ==> r.value == TypedArray(arr.base, arr.elems + [x])
    ensures arr.TypedArray? && r.Err? ==> r.error == TypeError(arr.base)
  {
    if arr.List? then Ok(List(arr.items + [x]))
    else
      match Push(arr, [x])
      case Ok(p) => Ok(p.target)
      case Err(e) => Err(e)
  }

  /**
   * The constructor does not check what `push` checks: building from
   * `args` gives the array that pushing `args` onto an empty one gives
   * when the push succeeds, and the push throws exactly when the built
   * array holds a non-instance.
   */
  lemma ConstructorUnchecked(base: Kind, args: seq<Value>)
    ensures var p := Push(NewTypedArray(base, []), args);
      && (p.Ok? <==> WellKinded(NewTypedArray(base, args)))
      && (p.Ok? ==> p.value.target == NewTypedArray(base, args))
  {
    var none: seq<Value> := [];
    assert none + args == args;
    assert NewTypedArray(base, args).elems == args;
  }

  /**
   * The invariant the structures keep: every typed array holds instances of
   * its base kind alone, and no object has two properties with one key.
   */
  predicate WellKinded(v: Value)
    decreases v
  {
    match v
    case TypedArray(base, elems) => forall i | 0 <= i < |elems| :: IsInstance(elems[i], base)
    case List(items) => forall i | 0 <= i < |items| :: WellKinded(items[i])
    case Compound(es) => UniqueKeys(es) && forall i | 0 <= i < |es| :: WellKinded(es[i].val)
    case _ => true
  }

  /** Pushing onto an array keeps the invariant. */
  lemma PushOneKinded(arr: Value, x: Value)
    requires (arr.List? || arr.TypedArray?) && WellKinded(arr) && WellKinded(x)
    requires PushOne(arr, x).Ok?
    ensures WellKinded(PushOne(arr, x).value)
  {
    var r := PushOne(arr, x).value;
    if arr.List? {
      assert forall i | 0 <= i < |r.items| :: r.items[i] == if i < |arr.items| then arr.items[i] else x;
    } else {
      assert forall i | 0 <= i < |r.elems| :: r.elems[i] == if i < |arr.elems| then arr.elems[i] else x;
    }
  }

  /** Every property after `obj[k] = v` is the new one or one the object had. */
  lemma {:induction false} PutEntries(es: seq<Entry>, k: Text, v: Value)
    ensures forall e | e in Put(es, k, v) :: e == Entry(k, v) || e in es
  {
    if es != [] && es[0].key != k {
      PutEntries(es[1..], k, v);
    }
  }

  /** Assigning a property keeps the invariant. */
  lemma PutKinded(es: seq<Entry>, k: Text, v: Value)
    requires WellKinded(Compound(es)) && WellKinded(v)
    ensures WellKinded(Compound(Put(es, k, v)))
  {
    PutUnique(es, k, v);
    PutEntries(es, k, v);
    var r := Put(es, k, v);
    forall i | 0 <= i < |r|
      ensures WellKinded(r[i].val)
    {
      assert r[i] in r;
      if r[i] != Entry(k, v) {
        var j :| 0 <= j < |es| && es[j] == r[i];
      }
    }
  }
}
